=== FILE: README.md ===
# govdraft core, modelled in Dafny

govdraft searches the Korean government's public-document catalogue for templates.
It keeps the results the user picks and assembles a report draft from them. This
project models the deterministic rules at its core, over both halves of the system.

The back end, in Python, contributes:
- the catalogue search client (credential masking, request parameters, the retry loop
  over transport outcomes, response normalisation);
- the older stand-alone client with its multi-page collection loop;
- the paragraph-preserving preview;
- the completion client (tag stripping, exponential backoff, JSON extraction, prompt
  assembly, the analysis fallbacks);
- the token price table;
- the search cache of the `/search` route;
- the validation and template collection of the draft route.

The browser scripts, in both the newer (`web/static`) and the older (`static`) copy,
contribute:
- search-URL construction and reply branching;
- the pagination bar;
- the template selection list (at most five entries, distinct ids);
- card description cutting and `formatContent`;
- the page's submit, input-cap, generate, analyze and error-message rules.

Everything outside the program is a parameter:
- a network attempt is an abstract outcome taken from a given sequence;
- a sleep is a recorded delay;
- `json.loads`, `response.json()` and `JSON.parse` are a `parse` oracle;
- the tokenizer is a `count` oracle;
- BeautifulSoup's cleaner is a `clean` oracle;
- Flask's `type=int` is a `toInt` oracle;
- `encodeURIComponent` is an `encode` oracle;
- the clock is a pair of given readings.

Modules, one per component:
- `Wrappers`, `Text` and `JsonModel` are shared helpers. They cover Option/Result, Python
  versus JavaScript whitespace, decoded JSON, and Python's dict operations with their
  exceptions.
- `Config` (config.py).
- `GovernmentApi` (api/government_api.py) and `LegacyClient` (main.py).
- `HtmlUtils` (utils/html_utils.py).
- `OpenAiApi` (api/openai_api.py).
- `TokenUtils` (utils/token_utils.py).
- `SearchRoute` (routes/main.py) and `DraftsRoute` (routes/drafts.py).
- `Pagination` (web/static/js/pagination.js).
- `SearchPage` (both api.js files).
- `Selection` and `CardText` (both template.js files).
- `PageScripts` (both main.js files).

## Model

| member | source | states |
|---|---|---|
| Config.Lookup | config.py:35-42 | a `doc_type` is supported exactly when it is one of the six table keys, and the lookup names the type with that key |
| Config.Endpoint | config.py:36-41 | every document type maps to a `getDoc…` upstream operation |
| Config.EndpointTable | config.py:36-41 | press, speech, publication, report, plan and all are served by getDocPress, getDocSpeech, getDocPublication, getDocReport, getDocPlan and getDocAll |
| Config.EndpointInjective | config.py:36-41 | distinct document types use distinct upstream operations |
| Config.RequiredParams | config.py:36-41 | every type requires `title`; only press also requires `manager` |
| Config.DefaultSettings | config.py:20-24 | the defaults are 3 retries, a 2-second delay, a rate of 1450 and the publicDoc base URL |
| TokenUtils.PricedModel | utils/token_utils.py:44-51 | the priced model is the requested one when it is in the price table, else `gpt-4o-mini` |
| TokenUtils.CalculateTokenCost | utils/token_utils.py:21-79 | error dictionary (requested model) exactly when the tokenizer fails; otherwise total = input + output, the fallback model's prices apply, USD is the per-1000 price sum, KRW = USD × rate, and both are non-negative for a non-negative rate |
| TokenUtils.CostMonotone | utils/token_utils.py:54-56 | for either priced model, more tokens never cost less |
| TokenUtils.LargerModelCostsMore | utils/token_utils.py:15-18 | gpt-4o is never cheaper than gpt-4o-mini, and is strictly dearer for any tokens |
| TokenUtils.UnknownModelChargedAsDefault | utils/token_utils.py:47-51 | an unpriced model is charged exactly as `gpt-4o-mini`, model field included |
| GovernmentApi.MaskApiKey | api/government_api.py:14-28 | a URL without `serviceKey=` is unchanged; otherwise the result contains `serviceKey=...` and grows by at most 3 characters |
| GovernmentApi.MaskReplacesFirstKey | api/government_api.py:24-27 | for the first `serviceKey=`, the key up to the next `&` (or the end) becomes `...` and every other character is kept |
| GovernmentApi.MaskIdempotent | api/government_api.py:24-28 | masking a masked URL changes nothing |
| GovernmentApi.LogKey | api/government_api.py:231-233 | the logged key is the first ten characters of the key (or all of a shorter key) followed by `...` |
| GovernmentApi.BuildParams | api/government_api.py:212-222 | the parameters are exactly serviceKey, pageNo, numOfRows, type=json and title (the keyword), plus manager exactly for press, even when empty |
| GovernmentApi.ProcessItems | api/government_api.py:94-111 | a list is kept; `{"item": list}` gives the list; `{"item": dict}` gives `[dict]`; anything else gives `[]` |
| GovernmentApi.ExtraKeys | api/government_api.py:56-87 | press adds 5 fields, speech/plan add place and person, publication adds person, report adds 3, any other type none |
| GovernmentApi.MakeRecord | api/government_api.py:47-87 | id/title/docType/date come from `meta` with `""` defaults; content is the cleaned text and description its preview, whatever their type; the extra fields are exactly the doc type's, read from `meta` with `""` defaults |
| GovernmentApi.ProcessRecord | api/government_api.py:38-54 | a record succeeds exactly when item, `meta` and `data` are dictionaries and the 500-entry preview of the cleaned text succeeds; the record holds that cleaned text and preview; a non-dictionary item raises AttributeError |
| GovernmentApi.CleanText | utils/html_utils.py:49-57 | a falsy text becomes `""`, a non-empty string goes through the HTML cleaner, and any other value comes back unchanged |
| GovernmentApi.Preview | utils/html_utils.py:60-84 | a string gets its paragraph-cut preview; a falsy value or a list or dictionary of at most 500 entries comes back unchanged; `len` or the split raises TypeError on anything else |
| GovernmentApi.TextShapes | api/government_api.py:43-54 | a string text yields the cleaned string and its preview; a short list or dictionary text is kept as content and description; a nonzero number raises TypeError |
| GovernmentApi.ProcessRecordsPointwise | api/government_api.py:38-89 | the loop succeeds exactly when every record does, and then yields one result per record in input order |
| GovernmentApi.ProcessResultList | api/government_api.py:31-91 | a falsy non-list gives `[]`, a truthy non-list is wrapped, and the output has one normalised record per input |
| GovernmentApi.ParseApiResponse | api/government_api.py:114-174 | a non-`"00"` header code gives the API error carrying message and code; a non-dictionary header or body is a parse error; when the header passes, a missing body gives the empty page with defaults 0/1/10, and a dictionary body gives Found with exactly its items, or the items' exception as a parse error; `resultList` wins over `items` |
| GovernmentApi.TerminalResult | api/government_api.py:275-311 | a non-transient attempt never ends in the exhaustion, missing-key or doc-type error |
| GovernmentApi.RetryLoop | api/government_api.py:238-315 | at most MAX_RETRIES attempts; a sleep of RETRY_DELAY only between attempts (never after the last); every attempt before the final one was transient; a non-transient attempt decides the result; exhaustion only after MAX_RETRIES transient attempts |
| GovernmentApi.ExhaustedIffAllTransient | api/government_api.py:292-315 | the loop ends with the "N번의 시도 후 API 호출 실패" error exactly when every attempt was a timeout or connection error |
| GovernmentApi.FirstTerminalDecides | api/government_api.py:284-311 | the first HTTP error, request error, bad JSON or delivered body ends the loop after exactly that many requests and k sleeps |
| GovernmentApi.FetchGovernmentTemplates | api/government_api.py:177-315 | a missing key, then an unsupported doc type, fail with no request; with a key and a supported type a request is always sent, to base/endpoint with the built parameters, and the retry loop decides |
| LegacyClient.LegacyParams | main.py:61-70 | the older client sends `title` only for a non-empty keyword and never sends `manager` |
| LegacyClient.LegacyParamsArePrefix | main.py:61-70 | for a non-empty keyword the older parameters are the first five of the newer ones |
| LegacyClient.InlineMask | main.py:89-98 | the inline masking equals `mask_api_key` |
| LegacyClient.InlineItems | main.py:144-158 | the inline `items` normalisation equals `process_items` |
| LegacyClient.LegacyAgreesWithCurrent | main.py:109-163 | on bodies without `resultList` the older parse gives the same items, total, result-code message and exception as `parse_api_response` |
| LegacyClient.LegacyFetch | main.py:50-172 | a missing key gives its error and sends nothing; otherwise the request goes to getDocPress with the older parameters; a failed request and unparseable JSON give their error messages; a parsed body gives the older parse's result, or the exception it raises escapes |
| LegacyClient.LegacyFetchAgreesWithCurrent | main.py:55-163 | with a key and a delivered body without `resultList`, the older call asks the newer client's press operation and returns the same items, total and result-code message, with an escaping exception where the newer client reports a parse error |
| LegacyClient.FetchAllFrom | main.py:222-239 | pages are requested in order up to `max_pages`, and the current page is always requested when it is within `max_pages`; without an exception the items are the gathered ones followed by the requested pages' items in page order; an exception escapes exactly when the last requested page raised, and it is that page's |
| LegacyClient.FetchAllStops | main.py:222-239 | every page before the last requested was full (found, 50 items or more), and a loop that stopped before `max_pages` without an exception stopped at an error reply or a found page of fewer than 50 items |
| LegacyClient.FetchAllTemplates | main.py:198-239 | at most `max_pages` requests, and page 1 is always requested when `max_pages` is at least 1; an exception escapes exactly when the last requested page raised, and it is that page's; otherwise the result is the concatenation of the pages requested, every page but the last was full, and a quiet early stop is at an error reply or a found page with fewer than 50 items |
| LegacyClient.FetchAllBounded | main.py:222-239 | with at most 50 items per page the loop gathers at most 50 × `max_pages` templates |
| LegacyClient.PageResults | main.py:222-223 | page p of the loop is the single-attempt fetch of page number p + 1 with 50 rows, over attempt p's outcome |
| LegacyClient.PageRequest | main.py:61-66 | with a key, page p is requested from getDocPress with `pageNo = p` and `numOfRows = 50` |
| LegacyClient.MissingKeyStopsAtOnce | main.py:50-53 | without an API key the loop calls the page fetch once, which sends no request, and returns nothing |
| HtmlUtils.SplitAtBullets | utils/html_utils.py:75 | the pieces concatenate back to the text, odd pieces are the `\n` separators, even pieces after the first start with □ or ○, and no piece contains a split point |
| HtmlUtils.KeptCount | utils/html_utils.py:78-82 | the kept prefix fits in `max_length` and the next piece would overflow it |
| HtmlUtils.Accumulated | utils/html_utils.py:76-82 | the accumulated text is a prefix of the text, is the concatenation of the longest fitting prefix of pieces, and fits |
| HtmlUtils.GetPreviewContent | utils/html_utils.py:60-84 | empty or short text is unchanged; longer text gives the stripped accumulation plus `...`, ending in `...`, at most `max_length + 3` long, and exactly `...` when the first piece alone overflows |
| HtmlUtils.PreviewKeepsWholeBulletParagraphs | utils/html_utils.py:75-84 | for `"□ A\n□ B"` and 3 ≤ max_length ≤ 6 the preview is `"□ A..."`, never part of the second bullet |
| OpenAiApi.ReplaceTagsTagFree | api/openai_api.py:38 | after tag replacement no `<` closes on its own line any more |
| OpenAiApi.ReplaceTagsPlain | api/openai_api.py:38 | text without `<` is untouched by tag replacement |
| OpenAiApi.Collapse | api/openai_api.py:39 | collapsing whitespace runs leaves every whitespace a single space |
| OpenAiApi.CollapseSqueeze | api/openai_api.py:39 | collapsing whitespace keeps every non-whitespace character in order |
| OpenAiApi.RemoveHtmlTags | api/openai_api.py:34-40 | `""` gives `""`; otherwise no leading, trailing or adjacent whitespace, and the non-whitespace characters are those left after tag replacement |
| OpenAiApi.RemoveHtmlTagsKeepsPlainText | api/openai_api.py:34-40 | text without tags keeps all its non-whitespace characters in order |
| OpenAiApi.RemoveHtmlTagsFixesCleanText | api/openai_api.py:34-40 | already clean text is returned unchanged |
| OpenAiApi.RemoveHtmlTagsIdempotent | api/openai_api.py:34-40 | stripping a stripped text without `<` changes nothing |
| OpenAiApi.MakeRequestArgs | api/openai_api.py:66-86 | model and temperature are always sent; `max_tokens` only when truthy |
| OpenAiApi.BackoffIsPower | api/openai_api.py:131-149 | the k-th delay is `initial_retry_delay × 2^k` |
| OpenAiApi.CallLoop | api/openai_api.py:97-155 | with `max_retries <= 0` nothing runs and `None` falls out; otherwise at most `max_retries` attempts; the sleeps are the doubling delays; the first completion returns its content; a retryable error on the final attempt, or any other error, is re-raised; the token info is the error dictionary |
| OpenAiApi.BackoffTotal | api/openai_api.py:131-149 | n sleeps wait `delay × (2^n − 1)` in total |
| OpenAiApi.GeometricSum | api/openai_api.py:131-149 | sleeps that double from `delay` add up to the next delay less the first |
| OpenAiApi.AllRetryableRaises | api/openai_api.py:131-151 | when every attempt hits a rate limit or API error, the call raises after exactly `max_retries` attempts and `max_retries − 1` sleeps |
| OpenAiApi.FirstCompletionReturned | api/openai_api.py:97-129 | the first successful attempt returns at once with the content stripped |
| OpenAiApi.FenceAt | api/openai_api.py:295 | a fenced block is an opening ```` ``` ```` or ```` ```json ```` line, the shortest content, then `\n` ```` ``` ````; one exists exactly when an opening fence is followed by a closing one |
| OpenAiApi.FindFence | api/openai_api.py:295-296 | the search returns the leftmost fenced block |
| OpenAiApi.ExtractJson | api/openai_api.py:284-311 | the first fenced block if it parses, else the whole text if it parses, else `{}`; a parse failure never escapes |
| OpenAiApi.FenceIsLazy | api/openai_api.py:295 | the block ends at the first closing fence |
| OpenAiApi.FenceJsonTagDropped | api/openai_api.py:295 | the `json` language tag is not part of the block |
| OpenAiApi.FencedReplyRoundTrip | api/openai_api.py:284-303 | a text that is one json-fenced block holding no closing fence decodes to that block's value |
| OpenAiApi.UnfencedReplyDecodedWhole | api/openai_api.py:284-311 | a text without three backticks in a row has no fenced block and is decoded whole, or becomes `{}` |
| OpenAiApi.TemplateBlock | api/openai_api.py:325-328 | a template block needs `id`, `title` and `content`; which key is missing decides the KeyError |
| OpenAiApi.TemplateBlocks | api/openai_api.py:325-330 | blocks are built for all templates in order, or the first failing template's error is raised |
| OpenAiApi.AnalysisPrompt | api/openai_api.py:314-377 | the prompt is exactly a system message and a user message embedding the joined template blocks |
| OpenAiApi.AnalyzeTemplates | api/openai_api.py:380-413 | the extracted reply is returned, or `{"templates": [], "error": ...}` when it is empty; the usage is the reply's token info; an unrenderable template, a raised call or a missing return yields the pair of error dictionaries with that detail |
| OpenAiApi.AnalysisReturnsFencedTemplates | api/openai_api.py:380-406 | for renderable templates and a reply that is one json-fenced non-empty analysis, that analysis is returned with the reply's usage |
| OpenAiApi.TruncateForPrompt | api/openai_api.py:169-174 | cleaned text over 15000 characters becomes its first 15000 characters plus `...` |
| OpenAiApi.MarkupOf | api/openai_api.py:251-255 | the fallback flags are substring tests for `<table>`, `<ul>`/`<ol>`/`<li>` and `<img` on the lower-cased original text |
| OpenAiApi.UpperCaseTableDetected | api/openai_api.py:251 | `<TABLE>` counts as a table |
| OpenAiApi.BraceSpan | api/openai_api.py:234-236 | the greedy `{.*}` match runs from the first `{` to the last `}`, and there is none when no `}` follows a `{` |
| OpenAiApi.AnalyzeDocument | api/openai_api.py:158-281 | an exception gives the error fallback with the markup flags; a reply that decodes (whole text, or else the brace span) to a dictionary is returned with the token info, and to any other value gives the error fallback; otherwise the unparsed fallback carries the raw reply |
| OpenAiApi.TemplateSection | api/openai_api.py:477-482 | a template contributes a section exactly when its content is truthy; a non-dictionary raises AttributeError |
| OpenAiApi.WithContent | api/openai_api.py:477-482 | only templates with truthy content are kept |
| OpenAiApi.TemplateSections | api/openai_api.py:475-482 | one section per template with content, in input order |
| OpenAiApi.EmptyTemplateAddsNothing | api/openai_api.py:481-482 | a template with empty content leaves the prompt unchanged wherever it appears |
| OpenAiApi.RequirementLines | api/openai_api.py:485-493 | one line per truthy title/goal/requirements/audience, in that order: the title first, the goal after it, the requirements after both, the audience last |
| OpenAiApi.GenerateReportPrompt | api/openai_api.py:456-514 | the result is exactly `[system, user]`, the user message built from the requirement lines (title defaulting to `제목 없음`) and the template sections |
| OpenAiApi.MissingTitleUsesDefault | api/openai_api.py:469 | an input without a title asks for `제목: 제목 없음` |
| OpenAiApi.DraftRequest | api/openai_api.py:538-540 | drafts are requested at temperature 0.7 with 2000 max tokens |
| OpenAiApi.GenerateDraft | api/openai_api.py:517-570 | the title defaults to `제목 없음`; a rendered prompt and a returned reply give the draft with the reply's content and usage; a prompt error, a raised call or a missing return give `초안 생성 중 오류: …` with that detail and the error usage; a non-dictionary input escapes |
| SearchRoute.ParseRequest | routes/main.py:36-41 | the defaults are keyword `""`, page 1, per_page 10, doc_type press and manager `""`; `use_cache` is on exactly when the lower-cased argument is `true` |
| SearchRoute.CacheKey | routes/main.py:49 | the key is `keyword:page:per_page:doc_type:manager` |
| SearchRoute.Find | routes/main.py:52 | a lookup hits exactly when the key is stored, and returns that key's result |
| SearchRoute.SearchTemplates | routes/main.py:34-63 | a cache hit returns the stored result without fetching; a miss returns the fetched result unchanged; only a successful result with `use_cache` is stored, under a new key; entries are never removed |
| SearchRoute.SearchPreservesInvariants | routes/main.py:52-61 | stored keys stay distinct and stored results stay successful |
| SearchRoute.RepeatedQueryHitsCache | routes/main.py:52-61 | after a query is stored, repeating it returns the stored result without fetching |
| SearchRoute.RunSearches | routes/main.py:16 | a run of searches only ever extends the cache |
| SearchRoute.RunSearchesInvariant | routes/main.py:52-61 | any run of searches keeps keys distinct and results successful |
| DraftsRoute.CollectEntry | routes/drafts.py:50-55 | every collected item is from the entry and has a requested id; an entry without matches adds nothing |
| DraftsRoute.ScanEndIsFirstBreak | routes/drafts.py:50-55 | the inner loop reads up to and including the first picked item that brings the selection to `len(template_ids)`, and reads every item when that never happens |
| DraftsRoute.CollectEntryReadsToBreak | routes/drafts.py:50-55 | the inner loop raises exactly when an item it reads is not a dictionary or its id cannot be tested with `in`; otherwise it appends, in order, exactly the picked items among those it reads |
| DraftsRoute.CollectCache | routes/drafts.py:48-55 | every collected item comes from some cached entry and has a requested id |
| DraftsRoute.CollectOneEntry | routes/drafts.py:48-50 | a cached result without `items` adds nothing; one with items goes through the inner loop |
| DraftsRoute.CollectCacheSplit | routes/drafts.py:48-55 | every entry is scanned: collecting over two stretches of the cache is collecting over the first, then over the second from what the first gathered, and a raise in the first ends the scan |
| DraftsRoute.CollectsEveryPick | routes/drafts.py:48-55 | while the selection stays below `len(template_ids)` and no item raises, every picked cached item is collected, in cache order |
| DraftsRoute.DuplicateAcrossEntries | routes/drafts.py:48-55 | the `break` leaves only the inner loop: an item that two cached entries both hold, each before its entry's break, is collected once for each of them |
| DraftsRoute.DuplicateHidesLaterId | routes/drafts.py:50-62 | the count compares lengths only: with ids `a` and `b` and an entry holding `a`, `a`, `b`, the second `a` ends the entry's loop, and `b` is reported missing although it is cached |
| DraftsRoute.Strings | routes/drafts.py:85-87 | joining succeeds exactly when every value is a string |
| DraftsRoute.ExtraContentsIgnored | routes/drafts.py:82-88 | contents after the third never reach the priced input |
| DraftsRoute.CostInput | routes/drafts.py:107-109 | the priced input is a prefix of the combined input: all of it up to 5000 characters, and exactly its first 5000 characters when it is longer |
| DraftsRoute.Heading | routes/drafts.py:89 | the heading is the text before the first comma when there is one, else `보고서 제목` |
| DraftsRoute.GenerateDraft | routes/drafts.py:18-129 | an empty body gives 400; missing template ids, then an empty `user_input`, give 400; every refusal is 400, 404 or 500; a success echoes `template_ids` and `user_input` with status `success`, and its content and token info are the placeholder draft for the selected titles, priced over the combined input cut to 5000 characters |
| DraftsRoute.MissingIdGives404 | routes/drafts.py:58-73 | a requested id found in no cached item gives the 404 refusal |
| DraftsRoute.CreatedMeansAllFound | routes/drafts.py:58-73 | a created draft means every requested id was found among the cached items |
| DraftsRoute.AllCollectedGivesCreated | routes/drafts.py:21-121 | a dictionary body with a non-empty id list and input text whose ids are all collected, with string titles and priced contents, yields the created draft |
| Pagination.PageButton | web/static/js/pagination.js:58-85 | a button is highlighted exactly when it points at the current page |
| Pagination.Window | web/static/js/pagination.js:28-38 | the numbered window lies in `[1, total]`; for a page in range it holds `min(5, total)` pages including the current one, centred when far from both ends |
| Pagination.UpdatePagination | web/static/js/pagination.js:6-13 | the bar is hidden exactly when there is at most one page |
| Pagination.NavigationButtons | web/static/js/pagination.js:18-48 | 처음/이전 appear exactly when the page is after the first; 다음/마지막 exactly when it is before the last |
| Pagination.NavigationTargets | web/static/js/pagination.js:18-48 | 처음 goes to 1, 이전 to cur−1, 다음 to cur+1 and 마지막 to the last page |
| Pagination.NumberedWindow | web/static/js/pagination.js:28-38 | for a page in range the numbered buttons are `min(5, total)` consecutive pages in `[1, total]` including the current one |
| Pagination.OneHighlighted | web/static/js/pagination.js:6-85 | every button points inside `[1, total]` and exactly one is highlighted |
| Pagination.OnlyCurrentIsInert | web/static/js/pagination.js:66-85 | clicking does nothing exactly on the highlighted button; any other loads its own page |
| SearchPage.WebParams | web/static/js/api.js:56-67 | page and per_page=12 come first; the keyword is sent iff its trim is non-empty; doc_type is sent iff it is non-empty and not `all`; the manager `%` always comes last |
| SearchPage.LegacyParams | static/js/api.js:38-51 | paging first; keyword and doc_type as on the newer page; the trimmed manager only for a press search with a non-blank manager |
| SearchPage.PagesAgreeWithoutManager | static/js/api.js:38-51 | without a press manager the two pages send the same parameters, except the newer page's trailing `manager=%` |
| SearchPage.WebUrlShape | web/static/js/api.js:56-67 | the URL starts `/api/search?page=P&per_page=12&` and ends `&manager=%25` |
| SearchPage.WebSearchAsRouteReadsIt | web/static/js/api.js:56-67 | the route reads the newer page's request as the trimmed keyword, page P, 12 per page, the doc type (press when none is sent), manager `%`, with the cache on |
| SearchPage.LegacySearchAsRouteReadsIt | static/js/api.js:38-51 | the route reads the older page's request the same way, with the trimmed manager for a press search and `""` otherwise |
| SearchPage.CeilDiv | web/static/js/api.js:91 | `Math.ceil(n / d)`: the least q with n ≤ d·q |
| SearchPage.ShowReply | web/static/js/api.js:74-133 | a non-ok reply shows `API 요청 실패: status`; an unparseable body shows the error state; a non-empty item list without `null` is rendered and results need one; pagination is over `ceil(totalCount / 12)` pages; an empty list shows no results; an object under `items` with a positive `length` makes rendering throw |
| SearchPage.PagesCoverTotal | web/static/js/api.js:91 | the page count covers every result and no page is left empty |
| Selection.Add | web/static/js/template.js:142-159 | an id already selected changes nothing; a full list alerts and changes nothing; otherwise the template is appended at the end |
| Selection.Remove | web/static/js/template.js:165-166 | the result keeps exactly the entries whose id differs, and no entry with that id remains |
| Selection.RemoveAppend | web/static/js/template.js:166 | removal keeps the surviving entries in their original order |
| Selection.CheckboxChange | web/static/js/template.js:109-123 | ticking with five selected alerts and changes nothing; ticking otherwise adds; unticking removes by id |
| Selection.CheckboxGuardsAdd | static/js/template.js:98-104 | below five selected, ticking never raises the alert |
| Selection.HandlersPreserveValid | web/static/js/template.js:142-166 | add, remove and the checkbox keep at most five entries with distinct ids |
| Selection.AddThenRemove | static/js/template.js:138-162 | adding a new template and then removing its id restores the selection |
| Selection.AddIdempotent | static/js/template.js:140-142 | adding the same template twice equals adding it once |
| Selection.Clear | web/static/js/main.js:97-98 | clearing leaves an empty, valid selection |
| CardText.CutDescription | web/static/js/template.js:44-46 | a description over 150 characters becomes its first 150 plus `...`; a shorter one is unchanged |
| CardText.CutDescriptionIdempotent | web/static/js/template.js:44-46 | cutting a cut description changes nothing |
| CardText.CutDescriptionUnchangedIff | web/static/js/template.js:44-46 | a description is shown unchanged exactly when it fits in 150 characters or is 150 characters followed by `...` |
| CardText.LooksLikeHtmlIsPattern | web/static/js/template.js:306 | the scan answers exactly `/<[a-z][\s\S]*>/i`: a `<` and a letter followed later by `>` |
| CardText.EmptyParagraphLength | web/static/js/template.js:313 | a match is `<p>`, only whitespace, then `</p>` |
| CardText.BlankParagraphDropped | web/static/js/template.js:313 | a leading blank paragraph is deleted |
| CardText.KeepsUnmatched | web/static/js/template.js:313 | text before the first match is kept as it is |
| CardText.DropEmptyParagraphs | web/static/js/template.js:313 | the deletion never lengthens the text; what it removes and keeps is stated by BlankParagraphDropped, KeepsUnmatched and SinglePass |
| CardText.NoParagraphUnchanged | static/js/template.js:416 | HTML without `<p>` is unchanged |
| CardText.SinglePass | static/js/template.js:416 | the deletion is one pass: a blank paragraph nested in a paragraph leaves `<p></p>` behind |
| CardText.LineHtml | web/static/js/template.js:318-321 | a blank line becomes `<br>`; any other line is wrapped in `<p>…</p>` around the line itself |
| CardText.FormatContent | web/static/js/template.js:302-322 | empty content gives `""`; HTML-looking content only loses empty paragraphs; plain text gives one block per `\n`-line, concatenated |
| CardText.PlainTextBlocksRecoverLines | static/js/template.js:421-424 | for non-blank lines the paragraph bodies joined by `\n` give back the content |
| PageScripts.WebSubmit | web/static/js/main.js:43-72 | the search runs exactly when the trimmed keyword and the doc type are non-empty, and the keyword check comes first |
| PageScripts.LegacySubmit | static/js/main.js:57-78 | the older page also refuses a press search whose trimmed manager is empty |
| PageScripts.LegacySubmitIsStricter | static/js/main.js:73-78 | a search the older page allows is allowed by the newer page, and then sends the keyword and, for press, the manager |
| PageScripts.CapInput | web/static/js/main.js:134-143 | the input is cut to its first 1000 characters and the counter shows the kept length over 1000 |
| PageScripts.CapInputIdempotent | static/js/main.js:152-161 | capping a capped input changes nothing |
| PageScripts.SentIds | web/static/js/main.js:408 | the ids sent are the selection's ids in selection order, null for a missing id |
| PageScripts.WebAnalyze | web/static/js/main.js:166-186 | analysis is refused exactly for an empty selection; otherwise the ids are posted |
| PageScripts.WebGenerate | web/static/js/main.js:391-418 | generation needs at least 10 trimmed characters, then a selection, and then posts the ids and the trimmed input |
| PageScripts.LegacyGenerate | static/js/main.js:184-211 | generation needs a non-blank input, then a selection, and then posts the same body |
| PageScripts.WebGenerateIsStricter | static/js/main.js:184-194 | a request the newer page sends is sent identically by the older page |
| PageScripts.PostedBodyPassesValidation | routes/drafts.py:21-41 | a body either page posts never fails the route's 400 checks |
| PageScripts.ClearBlocksRequests | static/js/main.js:115-116 | after clearing, analyze and generate are refused on both pages |
| PageScripts.WebErrorMessage | web/static/js/main.js:421-436 | the default is `API 요청 실패: status`; a JSON body's truthy `error` replaces it; a body that does not parse (or parses to null) is appended as ` - text` when non-empty |
| PageScripts.LegacyErrorMessage | static/js/main.js:214-216 | the older page shows exactly `API 요청 실패: status` |
| PageScripts.PagesAgreeOnEmptyBody | static/js/main.js:214-216 | for an empty error body both pages show the same message |
| PageScripts.RefusalReachesUser | routes/drafts.py:58-73 | every refusal of the draft route reaches the newer page's alert as its own error text |

## Left out

- Network I/O (`requests.get`, the OpenAI client, browser `fetch`). Each attempt is an abstract outcome from a given sequence, and `time.sleep` is a recorded delay.
- The 10-second request timeout, `setTimeout` timers, and wall-clock readings (`time.time()`, `datetime.now()`). The clock values are parameters.
- `clean_html_content` (BeautifulSoup/lxml). Only its empty-input case is modelled; the rest is the `clean` oracle.
- `tiktoken`. Token counts come from the `count` oracle.
- `json.loads`, `response.json()`, `request.get_json()` and `JSON.parse`. These are the `parse` oracle, or an already decoded body. A request body that is not JSON is not modelled.
- `encodeURIComponent`. It is the `encode` oracle; only its value on `%` is used.
- `round()` and float formatting. Costs are exact reals.
- TokenUtils.CalculateTokenCost: the `cost_usd`/`cost_krw` rounding to 6 and 2 places is not modelled, because it is display formatting.
- The completion client passes integer counts to the tokenizer (api/openai_api.py:120). That call raises inside `calculate_token_cost`, so the returned token info is always the zero-filled error dictionary, and the model says so.
- config.py defines no `OPENAI_API_KEY` or `OPENAI_MODEL`, which api/openai_api.py reads. The model name is a parameter.
- The wording of the document-analysis prompt (api/openai_api.py:176-221) and the request that carries it. The model keeps only TruncateForPrompt, the cut the prompt applies to the cleaned text. The outcomes AnalyzeDocument receives stand for the replies to that request.
- OpenAiApi.MarkupOf: lower-casing is ASCII only, because Python's full Unicode `lower()` is not modelled; the tested markers are ASCII.
- `str()` of a float, list or dict and `str(e)` of a TypeError or AttributeError are fixed placeholder texts (JsonModel.PyStr, JsonModel.ErrorDetail), because Python's formatting of those values and messages is not modelled. The members whose texts carry them:
- DraftsRoute.CollectCache: its own contract states only that what it collects is cached and requested. That every entry is scanned, and what each entry adds, is stated by CollectOneEntry, CollectCacheSplit, CollectEntryReadsToBreak and CollectsEveryPick. Keeping these as lemmas keeps the cost of every proof that unfolds the scan low.
- DraftsRoute.GenerateDraft: the 500 body carries the exception's class name where Python's message would follow.
- GovernmentApi.ErrorText: the parse-error and result-code texts carry the placeholders for a float, container or exception.
- OpenAiApi.TemplateBlock: a float, list or dict id, title or content is rendered as a placeholder.
- OpenAiApi.TemplateSection: a float, list or dict title or content is rendered as a placeholder.
- OpenAiApi.RequirementLines: a float, list or dict field is rendered as a placeholder.
- OpenAiApi.AnalyzeTemplates: the error detail of an unrenderable template is the placeholder message.
- OpenAiApi.AnalyzeDocument: the error detail of an exception is the placeholder message.
- OpenAiApi.GenerateDraft: the error detail of a prompt that raises is the placeholder message.
- GovernmentApi.CleanText: a non-string truthy text is returned as it is, on the reading that the HTML parser refuses non-string markup and the cleaner's last fallback returns its input.
- Logging (utils/logging.py and every `logger` call), including the masked query-string log line (api/government_api.py:254-272).
- Flask plumbing: blueprints, `jsonify`, error pages and the `/health` and `/api/token-cost` routes. The pages call `/api/search` while the route is declared as `/search`; the blueprint prefix is not modelled.
- The search cache key is not claimed injective, because keyword and manager may contain `:`.
- Concurrent requests to the module-level cache. The cache is a sequential list of entries in insertion order.
- Accounts and authentication (routes/member), app setup (app.py), and interactive and file I/O (`main()`, tqdm, `save_templates_to_file`, `analyze_templates_from_jsonl`).
- DOM and UI mechanics: modals, animations, `showTemplateDetail`, card rendering beyond the description cut, the success handling of the generate and analyze replies, and the analyze-content calls to endpoints the routes do not define.
- String lengths count characters, while JavaScript counts UTF-16 code units. For text outside the Basic Multilingual Plane the 150- and 1000-character cuts differ.
- Selection ids are compared structurally. JavaScript's `===` compares objects by reference and equates `1` with `1.0`; the ids the catalogue returns are strings.
- Python compares numbers across types (`1 == 1.0 == True`); the model compares decoded values structurally.
- SearchPage.ShowReply: pagination is stated only for an integer `totalCount`; JavaScript's coercion of other values (including NaN) is not modelled, and an object under `items` whose `length` is a numeric string or array counts as not positive.

=== FILE: card_text.dfy ===
/** Text shown on and behind a template card: the description cut to 150 characters,
    and `formatContent`, which turns a template's content into HTML for the detail view.
    Lengths count characters (JavaScript counts UTF-16 code units). */
module CardText {
  import opened Wrappers
  import opened Text

  const DESCRIPTION_LIMIT: int := 150
  const ELLIPSIS: string := "..."

  /** A description longer than the limit keeps its first 150 characters and gains `...`. */
  function CutDescription(d: string): (r: string)
    ensures |d| <= DESCRIPTION_LIMIT ==> r == d
    ensures |d| > DESCRIPTION_LIMIT ==>
      |r| == DESCRIPTION_LIMIT + |ELLIPSIS| && r[..DESCRIPTION_LIMIT] == d[..DESCRIPTION_LIMIT] && r[DESCRIPTION_LIMIT..] == ELLIPSIS
    ensures |r| <= DESCRIPTION_LIMIT + |ELLIPSIS|
  {
    if |d| > DESCRIPTION_LIMIT then d[..DESCRIPTION_LIMIT] + ELLIPSIS else d
  }

  /** Cutting a card's text again changes nothing: a cut text is 153 characters long and
      its first 150 are already the original's. */
  lemma CutDescriptionIdempotent(d: string)
    ensures CutDescription(CutDescription(d)) == CutDescription(d)
  {
    if |d| > DESCRIPTION_LIMIT {
      var r := CutDescription(d);
      assert r == r[..DESCRIPTION_LIMIT] + r[DESCRIPTION_LIMIT..];
    }
  }

  /** A description is shown unchanged exactly when it fits the limit or already reads
      as a cut text: 150 characters followed by `...`. */
  lemma CutDescriptionUnchangedIff(d: string)
    ensures CutDescription(d) == d <==>
      |d| <= DESCRIPTION_LIMIT || (|d| == DESCRIPTION_LIMIT + |ELLIPSIS| && d[DESCRIPTION_LIMIT..] == ELLIPSIS)
  {
    if |d| == DESCRIPTION_LIMIT + |ELLIPSIS| && d[DESCRIPTION_LIMIT..] == ELLIPSIS {
      assert d == d[..DESCRIPTION_LIMIT] + d[DESCRIPTION_LIMIT..];
    }
  }

  // ------------------------------------------------------------ HTML detection

  predicate IsAsciiLetter(c: char) {
    'a' <= c <= 'z' || 'A' <= c <= 'Z'
  }

  /** A `<` immediately followed by a letter starts at `i`. */
  predicate TagOpenAt(s: string, i: int) {
    0 <= i && i + 1 < |s| && s[i] == '<' && IsAsciiLetter(s[i + 1])
  }

  /** The reference reading of the pattern `/<[a-z][\s\S]*>/i`: a `<` and a letter,
      then a `>` somewhere after them. */
  ghost predicate MatchesTagPattern(s: string) {
    exists i, j :: TagOpenAt(s, i) && i + 2 <= j < |s| && s[j] == '>'
  }

  /** The first tag opening at or after `from`. */
  function FirstTagOpen(s: string, from: nat): (r: Option<nat>)
    ensures r.Some? ==> (from <= r.value && TagOpenAt(s, r.value)
                         && forall i :: from <= i < r.value ==> !TagOpenAt(s, i))
    ensures r.None? ==> forall i :: from <= i ==> !TagOpenAt(s, i)
    decreases |s| - from
  {
    if from + 1 >= |s| then None
    else if TagOpenAt(s, from) then Some(from)
    else FirstTagOpen(s, from + 1)
  }

  /** `containsHTML`: the first tag opening is followed, later on, by a `>`. */
  predicate LooksLikeHtml(s: string) {
    match FirstTagOpen(s, 0)
    case None => false
    case Some(i) => '>' in s[i + 2..]
  }

  /** The scan answers exactly the pattern's question: taking the first tag opening
      loses no match, because any later `>` also follows the first opening. */
  lemma LooksLikeHtmlIsPattern(s: string)
    ensures LooksLikeHtml(s) <==> MatchesTagPattern(s)
  {
    var f := FirstTagOpen(s, 0);
    if LooksLikeHtml(s) {
      var i := f.value;
      var k :| 0 <= k < |s[i + 2..]| && s[i + 2..][k] == '>';
      assert TagOpenAt(s, i) && s[i + 2 + k] == '>';
    }
    if MatchesTagPattern(s) {
      var i, j :| TagOpenAt(s, i) && i + 2 <= j < |s| && s[j] == '>';
      var i0 := f.value;
      assert i0 <= i;
      assert s[i0 + 2..][j - i0 - 2] == '>';
    }
  }

  // ------------------------------------------------------------ empty paragraphs

  /** Skips a leading run of whitespace (`\s*`). */
  function SkipSpace(s: string): (r: string)
    ensures |r| <= |s| && r == s[|s| - |r|..]
    ensures r == [] || !IsJsSpace(r[0])
    ensures AllSpace(s[..|s| - |r|], IsJsSpace)
    decreases |s|
  {
    if s != [] && IsJsSpace(s[0]) then
      var r := SkipSpace(s[1..]);
      assert s[..|s| - |r|] == [s[0]] + s[1..][..|s[1..]| - |r|];
      r
    else s
  }

  /** `<p>` starts at `i`. */
  predicate OpensParagraph(s: string, i: int) {
    0 <= i && i + 3 <= |s| && s[i] == '<' && s[i + 1] == 'p' && s[i + 2] == '>'
  }

  /** `</p>` starts at `i`. */
  predicate ClosesParagraph(s: string, i: int) {
    0 <= i && i + 4 <= |s| && s[i] == '<' && s[i + 1] == '/' && s[i + 2] == 'p' && s[i + 3] == '>'
  }

  /** The length of a match of `<p>\s*</p>` at the start of `s`, if there is one. */
  function EmptyParagraphLength(s: string): (n: Option<nat>)
    ensures n.Some? ==> (7 <= n.value <= |s| && OpensParagraph(s, 0) && ClosesParagraph(s, n.value - 4)
                         && AllSpace(s[3..n.value - 4], IsJsSpace))
    ensures !OpensParagraph(s, 0) ==> n.None?
  {
    if OpensParagraph(s, 0) then
      var rest := SkipSpace(s[3..]);
      if ClosesParagraph(rest, 0) then
        var n := |s| - |rest| + 4;
        assert s[n - 4..n] == rest[..4];
        assert s[3..n - 4] == s[3..][..|s[3..]| - |rest|];
        Some(n)
      else None
    else None
  }

  /** `replace(/<p>\s*<\/p>/g, '')`: one left-to-right pass deleting each match. */
  function DropEmptyParagraphs(s: string): (r: string)
    ensures |r| <= |s|
    decreases |s|
  {
    if s == [] then []
    else match EmptyParagraphLength(s)
      case Some(n) => DropEmptyParagraphs(s[n..])
      case None => [s[0]] + DropEmptyParagraphs(s[1..])
  }

  /** Content without a `<p>` passes the deletion unchanged. */
  lemma {:induction false} NoParagraphUnchanged(s: string)
    requires forall i :: !OpensParagraph(s, i)
    ensures DropEmptyParagraphs(s) == s
    decreases |s|
  {
    if s != [] {
      assert !OpensParagraph(s, 0);
      forall i
        ensures !OpensParagraph(s[1..], i)
      {
        assert OpensParagraph(s[1..], i) ==> OpensParagraph(s, i + 1);
      }
      NoParagraphUnchanged(s[1..]);
      assert s == [s[0]] + s[1..];
    }
  }

  lemma {:induction false} SkipSpaceOver(ws: string, t: string)
    requires AllSpace(ws, IsJsSpace) && (t == [] || !IsJsSpace(t[0]))
    ensures SkipSpace(ws + t) == t
    decreases |ws|
  {
    if ws == [] {
      assert ws + t == t;
    } else {
      assert (ws + t)[0] == ws[0] && (ws + t)[1..] == ws[1..] + t;
      SkipSpaceOver(ws[1..], t);
    }
  }

  /** A paragraph holding only whitespace is deleted with its tags, and the pass goes on
      right after it. */
  lemma {:induction false} BlankParagraphDropped(ws: string, rest: string)
    requires AllSpace(ws, IsJsSpace)
    ensures DropEmptyParagraphs("<p>" + ws + "</p>" + rest) == DropEmptyParagraphs(rest)
  {
    var s := "<p>" + ws + "</p>" + rest;
    var n := 7 + |ws|;
    assert s[3..] == ws + ("</p>" + rest);
    assert !IsJsSpace('<');
    SkipSpaceOver(ws, "</p>" + rest);
    assert EmptyParagraphLength(s) == Some(n);
    assert s[n..] == rest;
  }

  /** A character where no empty paragraph starts is kept. */
  lemma KeepsFirst(s: string)
    requires s != [] && EmptyParagraphLength(s).None?
    ensures DropEmptyParagraphs(s) == [s[0]] + DropEmptyParagraphs(s[1..])
  {
  }

  /** No empty paragraph starts at index `i` of `s`. */
  predicate NoMatchAt(s: string, i: nat)
    requires i <= |s|
  {
    EmptyParagraphLength(s[i..]).None?
  }

  lemma HeadTail(p: string, d: string)
    requires p != []
    ensures [p[0]] + (p[1..] + d) == p + d
  {
    assert p == [p[0]] + p[1..];
  }

  /** Characters before which no empty paragraph starts are kept as they are. */
  lemma {:induction false} KeepsUnmatched(p: string, rest: string)
    requires forall i :: 0 <= i < |p| ==> NoMatchAt(p + rest, i)
    ensures DropEmptyParagraphs(p + rest) == p + DropEmptyParagraphs(rest)
    decreases |p|
  {
    if p == [] {
      assert p + rest == rest;
    } else {
      var s := p + rest;
      var t := p[1..] + rest;
      assert NoMatchAt(s, 0) && s[0..] == s;
      assert s[1..] == t && s[0] == p[0];
      KeepsFirst(s);
      forall i | 0 <= i < |p| - 1
        ensures NoMatchAt(t, i)
      {
        assert NoMatchAt(s, i + 1);
        assert t[i..] == s[i + 1..];
      }
      KeepsUnmatched(p[1..], rest);
      var d := DropEmptyParagraphs(rest);
      assert DropEmptyParagraphs(s) == [p[0]] + (p[1..] + d);
      HeadTail(p, d);
    }
  }

  /** `<p>` directly followed by another `<p` is not an empty paragraph. */
  lemma OpenThenOpen(t: string)
    requires |t| >= 2 && t[0] == '<' && t[1] == 'p'
    ensures EmptyParagraphLength("<p>" + t).None?
  {
    var s := "<p>" + t;
    assert s[3..] == t;
    assert !IsJsSpace('<');
    assert SkipSpace(t) == t;
  }

  lemma BlankParagraphThenClose(ws: string)
    requires AllSpace(ws, IsJsSpace)
    ensures DropEmptyParagraphs("<p>" + ws + "</p>" + "</p>") == "</p>"
  {
    BlankParagraphDropped(ws, "</p>");
    assert forall i :: !OpensParagraph("</p>", i);
    NoParagraphUnchanged("</p>");
  }

  /** The deletion is a single pass: an empty paragraph that only appears once an inner
      one is deleted is kept. */
  lemma {:induction false} SinglePass(ws: string)
    requires AllSpace(ws, IsJsSpace)
    ensures DropEmptyParagraphs("<p>" + ("<p>" + ws + "</p>") + "</p>") == "<p>" + "</p>"
  {
    var inner := "<p>" + ws + "</p>" + "</p>";
    calc {
      DropEmptyParagraphs("<p>" + ("<p>" + ws + "</p>") + "</p>");
      { assert "<p>" + ("<p>" + ws + "</p>") + "</p>" == "<p>" + inner; }
      DropEmptyParagraphs("<p>" + inner);
      { OpenBeforeOpenKept(inner); }
      "<p>" + DropEmptyParagraphs(inner);
      { BlankParagraphThenClose(ws); }
      "<p>" + "</p>";
    }
  }

  /** A `<p>` directly followed by another `<p` is kept, and the pass goes on after it. */
  lemma OpenBeforeOpenKept(inner: string)
    requires |inner| >= 2 && inner[0] == '<' && inner[1] == 'p'
    ensures DropEmptyParagraphs("<p>" + inner) == "<p>" + DropEmptyParagraphs(inner)
  {
    var s := "<p>" + inner;
    assert s[3..] == inner;
    assert NoMatchAt(s, 0) by {
      assert s[0..] == s;
      OpenThenOpen(inner);
    }
    assert NoMatchAt(s, 1) by { assert !OpensParagraph(s[1..], 0); }
    assert NoMatchAt(s, 2) by { assert !OpensParagraph(s[2..], 0); }
    KeepsUnmatched("<p>", inner);
  }

  // ------------------------------------------------------------ plain text

  /** One line of plain text: a blank line becomes a break, any other a paragraph. */
  function LineHtml(line: string): (h: string)
    ensures JsTrim(line) == "" <==> h == "<br>"
    ensures JsTrim(line) != "" ==> |h| == |line| + 7 && h[3..|h| - 4] == line
  {
    if JsTrim(line) == "" then "<br>" else "<p>" + line + "</p>"
  }

  function Concat(parts: seq<string>): string
    decreases |parts|
  {
    if parts == [] then "" else parts[0] + Concat(parts[1..])
  }

  /** The block of each line of the content, in order. */
  function Blocks(content: string): (bs: seq<string>)
    ensures |bs| == |SplitOn(content, '\n')|
    ensures forall k :: 0 <= k < |bs| ==> bs[k] == LineHtml(SplitOn(content, '\n')[k])
  {
    var lines := SplitOn(content, '\n');
    seq(|lines|, k requires 0 <= k < |lines| => LineHtml(lines[k]))
  }

  /** `formatContent`: empty content gives nothing; HTML-looking content loses its empty
      paragraphs; plain text becomes one block per line. */
  function FormatContent(content: string): (r: string)
    ensures content == "" ==> r == ""
    ensures content != "" && LooksLikeHtml(content) ==> r == DropEmptyParagraphs(content)
    ensures content != "" && !LooksLikeHtml(content) ==> r == Concat(Blocks(content))
  {
    if content == "" then ""
    else if LooksLikeHtml(content) then DropEmptyParagraphs(content)
    else Concat(Blocks(content))
  }

  /** The plain-text blocks give the content back: a block per line, blank lines as
      breaks, and every other line recoverable from its paragraph, so joining the
      recovered lines with newlines yields the content whenever no line is blank. */
  lemma PlainTextBlocksRecoverLines(content: string)
    requires forall k :: 0 <= k < |SplitOn(content, '\n')| ==> JsTrim(SplitOn(content, '\n')[k]) != ""
    ensures Join("\n", Inners(Blocks(content))) == content
  {
    var lines := SplitOn(content, '\n');
    var bs := Blocks(content);
    var back := Inners(bs);
    forall k | 0 <= k < |bs|
      ensures back[k] == lines[k]
    {
      assert bs[k] == LineHtml(lines[k]);
    }
    assert back == lines;
  }

  /** The text between a paragraph's `<p>` and `</p>`. */
  function Inner(block: string): string {
    if |block| >= 7 then block[3..|block| - 4] else ""
  }

  function Inners(bs: seq<string>): (r: seq<string>)
    ensures |r| == |bs| && forall k :: 0 <= k < |bs| ==> r[k] == Inner(bs[k])
  {
    seq(|bs|, k requires 0 <= k < |bs| => Inner(bs[k]))
  }
}

=== FILE: config.dfy ===
/** Application settings: the document-type table and the numeric defaults. */
module Config {
  import opened Wrappers

  /** The closed set of document categories the upstream catalogue serves. */
  datatype DocType = Press | Speech | Publication | Report | Plan | All

  const DocTypeNames: seq<string> := ["press", "speech", "publication", "report", "plan", "all"]

  /** The table key under which a document type is configured. */
  function Name(d: DocType): (r: string)
    ensures r in DocTypeNames
  {
    match d
    case Press => "press"
    case Speech => "speech"
    case Publication => "publication"
    case Report => "report"
    case Plan => "plan"
    case All => "all"
  }

  /** Looks a request's `doc_type` up in the table; `None` for an unsupported type. */
  function Lookup(name: string): (r: Option<DocType>)
    ensures r.Some? <==> name in DocTypeNames
    ensures r.Some? ==> Name(r.value) == name
    ensures forall d: DocType :: Name(d) == name ==> r == Some(d)
  {
    if name == "press" then Some(Press)
    else if name == "speech" then Some(Speech)
    else if name == "publication" then Some(Publication)
    else if name == "report" then Some(Report)
    else if name == "plan" then Some(Plan)
    else if name == "all" then Some(All)
    else None
  }

  /** The upstream operation name appended to the base URL. */
  function Endpoint(d: DocType): (r: string)
    ensures |r| > 6 && r[..6] == "getDoc"
  {
    match d
    case Press => "getDocPress"
    case Speech => "getDocSpeech"
    case Publication => "getDocPublication"
    case Report => "getDocReport"
    case Plan => "getDocPlan"
    case All => "getDocAll"
  }

  /** The operation serving each document type. */
  lemma EndpointTable()
    ensures Endpoint(Press) == "getDocPress" && Endpoint(Speech) == "getDocSpeech"
    ensures Endpoint(Publication) == "getDocPublication" && Endpoint(Report) == "getDocReport"
    ensures Endpoint(Plan) == "getDocPlan" && Endpoint(All) == "getDocAll"
  {
  }

  /** Distinct document types are served by distinct upstream operations. */
  lemma EndpointInjective(d: DocType, e: DocType)
    requires Endpoint(d) == Endpoint(e)
    ensures d == e
  {
  }

  /** Parameters the upstream operation requires. */
  function RequiredParams(d: DocType): (r: seq<string>)
    ensures "title" in r
    ensures "manager" in r <==> d == Press
  {
    if d == Press then ["title", "manager"] else ["title"]
  }

  const API_BASE_URL: string := "http://apis.data.go.kr/1741000/publicDoc"
  const MAX_RETRIES: int := 3
  const RETRY_DELAY: int := 2
  const EXCHANGE_RATE: real := 1450.0

  /** Settings read from the environment; the defaults are the constants above. */
  datatype Settings = Settings(
    apiKey: Option<string>,
    baseUrl: string,
    maxRetries: int,
    retryDelay: int,
    exchangeRate: real)

  /** The settings in force when only the API key is given in the environment. */
  function DefaultSettings(apiKey: Option<string>): (s: Settings)
    ensures s.maxRetries == 3 && s.retryDelay == 2 && s.exchangeRate == 1450.0
    ensures s.baseUrl == "http://apis.data.go.kr/1741000/publicDoc"
    ensures s.apiKey == apiKey
  {
    Settings(apiKey, API_BASE_URL, MAX_RETRIES, RETRY_DELAY, EXCHANGE_RATE)
  }
}

=== FILE: drafts_route.dfy ===
/** The `/generate` route: request validation in the order the handler checks it, the
    collection of the requested templates from the search cache, and the placeholder
    draft with its token cost. Every exception inside the handler becomes a 500 reply. */
module DraftsRoute {
  import opened Wrappers
  import opened Text
  import opened JsonModel
  import opened TokenUtils
  import opened GovernmentApi
  import opened SearchRoute

  const EMPTY_BODY: string := "요청 본문이 비어 있습니다."
  const NO_TEMPLATE_IDS: string := "템플릿 ID가 필요합니다."
  const NO_USER_INPUT: string := "보고서 정보가 필요합니다."
  const TEMPLATES_MISSING: string := "일부 템플릿 정보를 찾을 수 없습니다. 검색을 다시 실행해주세요."
  const FAILURE_PREFIX: string := "보고서 생성 중 오류가 발생했습니다: "
  const DEFAULT_HEADING: string := "보고서 제목"

  /** How much of the combined input is priced, and how many template bodies it holds. */
  const COST_INPUT_LIMIT: nat := 5000
  const CONTENTS_PRICED: nat := 3

  /** The success body, without `created_at` (a clock reading). */
  datatype DraftResponse = DraftResponse(id: string, templateIds: Json, userInput: string, tokenInfo: TokenInfo, content: string, status: string)

  datatype DraftReply = Created(response: DraftResponse) | Refused(status: int, error: string)

  /** `d.get(k, default)` on a dictionary. */
  function FieldOr(m: map<string, Json>, k: string, default: Json): Json {
    if k in m then m[k] else default
  }

  /** Python's `s[:n]`. */
  function Take<T>(s: seq<T>, n: nat): (r: seq<T>)
    ensures |r| == if |s| <= n then |s| else n
    ensures r <= s
  {
    if |s| <= n then s else s[..n]
  }

  // ------------------------------------------------------------ collection

  /** The cached item is a dictionary whose `id` is `in template_ids`. */
  predicate Picked(ids: Json, item: Json) {
    item.JObj? && Member(ids, GetOrNull(item.fields, "id")) == Success(true)
  }

  /** `len(template_ids)` once `in` has succeeded on it: the size of the container. */
  function IdCount(ids: Json): nat {
    match ids
    case JArr(e) => |e|
    case JStr(s) => |s|
    case JObj(m) => |m|
    case _ => 0
  }

  /** The loop can read the item's id and test it against `template_ids` without raising. */
  predicate Scannable(ids: Json, item: Json) {
    item.JObj? && Member(ids, GetOrNull(item.fields, "id")).Success?
  }

  /** The picked items of a list, in order. */
  function Picks(ids: Json, items: seq<Json>): (r: seq<Json>)
    ensures |r| <= |items|
    decreases |items|
  {
    if items == [] then []
    else (if Picked(ids, items[0]) then [items[0]] else []) + Picks(ids, items[1..])
  }

  /** Exactly the picked items of the list appear among its picks. */
  lemma {:induction false} PicksMembers(ids: Json, items: seq<Json>, x: Json)
    ensures x in Picks(ids, items) <==> x in items && Picked(ids, x)
    decreases |items|
  {
    if items != [] {
      PicksMembers(ids, items[1..], x);
      assert items == [items[0]] + items[1..];
    }
  }

  lemma {:induction false} PicksAppend(ids: Json, a: seq<Json>, b: seq<Json>)
    ensures Picks(ids, a + b) == Picks(ids, a) + Picks(ids, b)
    decreases |a|
  {
    if a == [] {
      assert a + b == b;
    } else {
      assert (a + b)[0] == a[0] && (a + b)[1..] == a[1..] + b;
      PicksAppend(ids, a[1..], b);
      AppendAssoc(if Picked(ids, a[0]) then [a[0]] else [], Picks(ids, a[1..]), Picks(ids, b));
    }
  }

  /** A prefix of the list picks no more than the whole list. */
  lemma PicksPrefix(ids: Json, s: seq<Json>, j: nat)
    requires j <= |s|
    ensures |Picks(ids, s[..j])| <= |Picks(ids, s)|
  {
    assert s == s[..j] + s[j..];
    PicksAppend(ids, s[..j], s[j..]);
  }

  /** The picks of a non-empty prefix: the head's, then the tail's. */
  lemma PicksCons(ids: Json, items: seq<Json>)
    requires items != []
    ensures forall i :: 1 <= i <= |items| ==>
      Picks(ids, items[..i]) == (if Picked(ids, items[0]) then [items[0]] else []) + Picks(ids, items[1..][..i - 1])
  {
    forall i | 1 <= i <= |items|
      ensures Picks(ids, items[..i]) == (if Picked(ids, items[0]) then [items[0]] else []) + Picks(ids, items[1..][..i - 1])
    {
      assert items[..i][0] == items[0] && items[..i][1..] == items[1..][..i - 1];
    }
  }

  /** How many items the inner loop reads when `count` templates are already selected:
      up to and including the first picked item that brings the count to
      `len(template_ids)`, or all of them when that never happens (ScanEndIsFirstBreak). */
  function ScanEnd(items: seq<Json>, ids: Json, count: nat): (j: nat)
    ensures j <= |items|
    ensures items != [] ==> j >= 1
    decreases |items|
  {
    if items == [] then 0
    else
      var hit := Picked(ids, items[0]);
      if hit && count + 1 == IdCount(ids) then 1
      else 1 + ScanEnd(items[1..], ids, if hit then count + 1 else count)
  }

  /** The count is reached at the `ScanEnd`-th item when the loop stops early, and at no
      item before it. */
  predicate BreaksAfter(items: seq<Json>, ids: Json, count: nat, i: nat)
    requires 0 < i <= |items|
  {
    Picked(ids, items[i - 1]) && count + |Picks(ids, items[..i])| == IdCount(ids)
  }

  lemma {:induction false} ScanEndIsFirstBreak(items: seq<Json>, ids: Json, count: nat)
    ensures var j := ScanEnd(items, ids, count);
      && (j < |items| ==> BreaksAfter(items, ids, count, j))
      && forall i :: 0 < i < j ==> !BreaksAfter(items, ids, count, i)
    decreases |items|
  {
    if items != [] {
      var hit := Picked(ids, items[0]);
      if hit && count + 1 == IdCount(ids) {
        assert ScanEnd(items, ids, count) == 1;
      } else {
        var c' := if hit then count + 1 else count;
        ScanEndIsFirstBreak(items[1..], ids, c');
        if hit { ScanEndPicked(items, ids, count); } else { ScanEndSkipped(items, ids, count); }
        FirstBreakStep(items, ids, count, c', ScanEnd(items[1..], ids, c'));
      }
    }
  }

  /** The step of ScanEndIsFirstBreak past a first item that does not end the loop. */
  lemma FirstBreakStep(items: seq<Json>, ids: Json, count: nat, c': nat, j: nat)
    requires items != [] && j < |items| && (|items| > 1 ==> j >= 1)
    requires !(Picked(ids, items[0]) && count + 1 == IdCount(ids))
    requires c' == if Picked(ids, items[0]) then count + 1 else count
    requires j < |items[1..]| ==> BreaksAfter(items[1..], ids, c', j)
    requires forall i :: 0 < i < j ==> !BreaksAfter(items[1..], ids, c', i)
    ensures j + 1 < |items| ==> BreaksAfter(items, ids, count, j + 1)
    ensures forall i :: 0 < i < j + 1 ==> !BreaksAfter(items, ids, count, i)
  {
    var rest := items[1..];
    PicksCons(ids, items);
    assert items[..1] == [items[0]] && rest[..0] == [];
    if j + 1 < |items| {
      assert items[j] == rest[j - 1];
    }
    forall i | 0 < i < j + 1
      ensures !BreaksAfter(items, ids, count, i)
    {
      if i > 1 {
        assert items[i - 1] == rest[i - 2];
        assert !BreaksAfter(rest, ids, c', i - 1);
      }
    }
  }

  /** The inner loop over one cached result's items: a matching item is appended, and the
      loop breaks when the selection has exactly `len(template_ids)` entries
      (CollectEntryReadsToBreak states what it collects). */
  function CollectEntry(items: seq<Json>, ids: Json, acc: seq<Json>): (r: Result<seq<Json>, PyError>)
    ensures r.Success? ==> acc <= r.value
    ensures r.Success? ==> forall k :: |acc| <= k < |r.value| ==> r.value[k] in items && Picked(ids, r.value[k])
    ensures (forall k :: 0 <= k < |items| ==> items[k].JObj? && !Picked(ids, items[k]) && Member(ids, GetOrNull(items[k].fields, "id")).Success?)
      ==> r == Success(acc)
    decreases |items|
  {
    if items == [] then Success(acc)
    else
      var item := items[0];
      if !item.JObj? then Failure(AttributeError)
      else
        var hit :- Member(ids, GetOrNull(item.fields, "id"));
        var rest := items[1..];
        assert forall t :: t in rest ==> t in items;
        if !hit then CollectEntry(rest, ids, acc)
        else
          var acc' := acc + [item];
          if |acc'| == IdCount(ids) then Success(acc') else CollectEntry(rest, ids, acc')
  }

  /** The inner loop fails exactly when an item it reads is not a dictionary or its id
      cannot be tested; otherwise it appends the picked items among those it reads, in
      order. */
  lemma {:induction false} CollectEntryReadsToBreak(items: seq<Json>, ids: Json, acc: seq<Json>)
    ensures var r, j := CollectEntry(items, ids, acc), ScanEnd(items, ids, |acc|);
      && (r.Success? <==> forall k :: 0 <= k < j ==> Scannable(ids, items[k]))
      && (r.Success? ==> r.value == acc + Picks(ids, items[..j]))
    decreases |items|, 1
  {
    if items != [] {
      var item := items[0];
      if !Scannable(ids, item) || (Picked(ids, item) && |acc| + 1 == IdCount(ids)) {
        ReadsToBreakFirst(items, ids, acc);
      } else {
        ReadsToBreakRest(items, ids, acc);
      }
    }
  }

  /** CollectEntryReadsToBreak when the first item is read and the loop goes on. */
  lemma {:induction false} ReadsToBreakRest(items: seq<Json>, ids: Json, acc: seq<Json>)
    requires items != [] && Scannable(ids, items[0])
    requires !(Picked(ids, items[0]) && |acc| + 1 == IdCount(ids))
    ensures var r, j := CollectEntry(items, ids, acc), ScanEnd(items, ids, |acc|);
      && (r.Success? <==> forall k :: 0 <= k < j ==> Scannable(ids, items[k]))
      && (r.Success? ==> r.value == acc + Picks(ids, items[..j]))
    decreases |items|, 0
  {
    var item := items[0];
    if Picked(ids, item) {
      CollectEntryReadsToBreak(items[1..], ids, acc + [item]);
      ScanEndPicked(items, ids, |acc|);
      CollectEntryPicked(items, ids, acc);
      ReadsToBreakStep(items, ids, acc, acc + [item], CollectEntry(items[1..], ids, acc + [item]), ScanEnd(items[1..], ids, |acc| + 1),
                       CollectEntry(items, ids, acc), ScanEnd(items, ids, |acc|));
    } else {
      CollectEntryReadsToBreak(items[1..], ids, acc);
      ScanEndSkipped(items, ids, |acc|);
      CollectEntrySkipped(items, ids, acc);
      ReadsToBreakStep(items, ids, acc, acc, CollectEntry(items[1..], ids, acc), ScanEnd(items[1..], ids, |acc|),
                       CollectEntry(items, ids, acc), ScanEnd(items, ids, |acc|));
    }
  }

  /** CollectEntryReadsToBreak when the first item raises or ends the loop. */
  lemma ReadsToBreakFirst(items: seq<Json>, ids: Json, acc: seq<Json>)
    requires items != []
    requires !Scannable(ids, items[0]) || (Picked(ids, items[0]) && |acc| + 1 == IdCount(ids))
    ensures var r, j := CollectEntry(items, ids, acc), ScanEnd(items, ids, |acc|);
      && (r.Success? <==> forall k :: 0 <= k < j ==> Scannable(ids, items[k]))
      && (r.Success? ==> r.value == acc + Picks(ids, items[..j]))
  {
    if Scannable(ids, items[0]) {
      assert CollectEntry(items, ids, acc) == Success(acc + [items[0]]);
      assert ScanEnd(items, ids, |acc|) == 1;
      assert items[..1] == [items[0]];
    } else {
      assert CollectEntry(items, ids, acc).Failure?;
    }
  }

  lemma ScanEndPicked(items: seq<Json>, ids: Json, count: nat)
    requires items != [] && Picked(ids, items[0]) && count + 1 != IdCount(ids)
    ensures ScanEnd(items, ids, count) == 1 + ScanEnd(items[1..], ids, count + 1)
  {
  }

  lemma ScanEndSkipped(items: seq<Json>, ids: Json, count: nat)
    requires items != [] && !Picked(ids, items[0])
    ensures ScanEnd(items, ids, count) == 1 + ScanEnd(items[1..], ids, count)
  {
  }

  lemma CollectEntryPicked(items: seq<Json>, ids: Json, acc: seq<Json>)
    requires items != [] && Picked(ids, items[0]) && |acc| + 1 != IdCount(ids)
    ensures CollectEntry(items, ids, acc) == CollectEntry(items[1..], ids, acc + [items[0]])
  {
  }

  lemma CollectEntrySkipped(items: seq<Json>, ids: Json, acc: seq<Json>)
    requires items != [] && Scannable(ids, items[0]) && !Picked(ids, items[0])
    ensures CollectEntry(items, ids, acc) == CollectEntry(items[1..], ids, acc)
  {
  }

  /** The step of CollectEntryReadsToBreak past a scannable item that does not end the
      loop, for the result `r` of the loop over the rest, which reads `j` items. */
  lemma ReadsToBreakStep(items: seq<Json>, ids: Json, acc: seq<Json>, acc': seq<Json>, r: Result<seq<Json>, PyError>, j: nat,
                          r0: Result<seq<Json>, PyError>, j0: nat)
    requires items != [] && Scannable(ids, items[0]) && j < |items|
    requires acc' == if Picked(ids, items[0]) then acc + [items[0]] else acc
    requires r.Success? <==> forall k :: 0 <= k < j ==> Scannable(ids, items[1..][k])
    requires r.Success? ==> r.value == acc' + Picks(ids, items[1..][..j])
    requires r0 == r && j0 == j + 1
    ensures r0.Success? <==> forall k :: 0 <= k < j0 ==> Scannable(ids, items[k])
    ensures r0.Success? ==> r0.value == acc + Picks(ids, items[..j0])
  {
    var rest := items[1..];
    assert items[..j + 1][0] == items[0] && items[..j + 1][1..] == rest[..j];
    assert forall k :: 0 <= k < j ==> rest[k] == items[k + 1];
  }

  /** The items of every cached successful result, in cache order. */
  function CachedItems(cache: seq<Entry>): seq<Json>
    decreases |cache|
  {
    if cache == [] then []
    else (if cache[0].result.Found? then cache[0].result.items else []) + CachedItems(cache[1..])
  }

  /** One pass of the outer loop: a result without `items` adds nothing. */
  function EntryStep(e: Entry, ids: Json, acc: seq<Json>): Result<seq<Json>, PyError> {
    if e.result.Found? then CollectEntry(e.result.items, ids, acc) else Success(acc)
  }

  /** The outer loop over the cache: it visits every entry, since the `break` leaves only
      the inner loop. */
  function CollectCache(cache: seq<Entry>, ids: Json, acc: seq<Json>): (r: Result<seq<Json>, PyError>)
    ensures r.Success? ==> acc <= r.value
    ensures r.Success? ==> forall k :: |acc| <= k < |r.value| ==> r.value[k] in CachedItems(cache) && Picked(ids, r.value[k])
    decreases |cache|
  {
    if cache == [] then Success(acc)
    else
      var here := if cache[0].result.Found? then cache[0].result.items else [];
      var acc' :- EntryStep(cache[0], ids, acc);
      var r := CollectCache(cache[1..], ids, acc');
      assert CachedItems(cache) == here + CachedItems(cache[1..]);
      if r.Success? then
        assert forall k :: |acc| <= k < |acc'| ==> r.value[k] == acc'[k] && acc'[k] in here;
        r
      else r
  }

  lemma CollectCacheCons(cache: seq<Entry>, ids: Json, acc: seq<Json>)
    requires cache != []
    ensures CollectCache(cache, ids, acc) ==
      if EntryStep(cache[0], ids, acc).Success? then CollectCache(cache[1..], ids, EntryStep(cache[0], ids, acc).value)
      else EntryStep(cache[0], ids, acc)
  {
  }

  /** The outer loop over a single entry is that entry's pass. */
  lemma CollectOneEntry(e: Entry, ids: Json, acc: seq<Json>)
    ensures CollectCache([e], ids, acc) == EntryStep(e, ids, acc)
  {
    assert [e][1..] == [];
  }

  /** Collecting over two stretches of the cache is collecting over the first and then
      carrying on over the second from what the first gathered: the `break` never ends
      the outer loop, so every entry is scanned. */
  lemma {:induction false} CollectCacheSplit(c1: seq<Entry>, c2: seq<Entry>, ids: Json, acc: seq<Json>)
    ensures CollectCache(c1 + c2, ids, acc) ==
      if CollectCache(c1, ids, acc).Success? then CollectCache(c2, ids, CollectCache(c1, ids, acc).value)
      else CollectCache(c1, ids, acc)
    decreases |c1|
  {
    if c1 == [] {
      assert c1 + c2 == c2;
    } else {
      assert (c1 + c2)[0] == c1[0] && (c1 + c2)[1..] == c1[1..] + c2;
      var step := EntryStep(c1[0], ids, acc);
      if step.Success? {
        CollectCacheSplit(c1[1..], c2, ids, step.value);
      }
    }
  }

  /** An entry whose every item can be tested, and whose picks keep the count below
      `len(template_ids)`, contributes all its picks in order. */
  lemma EntryCollectsAll(items: seq<Json>, ids: Json, acc: seq<Json>)
    requires forall x :: x in items ==> Scannable(ids, x)
    requires |acc| + |Picks(ids, items)| < IdCount(ids)
    ensures CollectEntry(items, ids, acc) == Success(acc + Picks(ids, items))
  {
    CollectEntryReadsToBreak(items, ids, acc);
    ScanEndIsFirstBreak(items, ids, |acc|);
    var j := ScanEnd(items, ids, |acc|);
    PicksPrefix(ids, items, j);
    assert j == |items|;
    assert items[..j] == items;
  }

  /** While the count stays below `len(template_ids)` no `break` fires: every picked
      cached item is collected, in cache order. */
  lemma {:induction false} CollectsEveryPick(cache: seq<Entry>, ids: Json, acc: seq<Json>)
    requires forall x :: x in CachedItems(cache) ==> Scannable(ids, x)
    requires |acc| + |Picks(ids, CachedItems(cache))| < IdCount(ids)
    ensures CollectCache(cache, ids, acc) == Success(acc + Picks(ids, CachedItems(cache)))
    decreases |cache|
  {
    if cache != [] {
      var here := if cache[0].result.Found? then cache[0].result.items else [];
      var rest := cache[1..];
      CachedItemsCons(cache);
      PicksAppend(ids, here, CachedItems(rest));
      EntryStepAll(cache[0], ids, acc);
      var p, q := Picks(ids, here), Picks(ids, CachedItems(rest));
      CollectCacheCons(cache, ids, acc);
      CollectsEveryPick(rest, ids, acc + p);
      AppendAssoc(acc, p, q);
    } else {
      assert CachedItems(cache) == [] && Picks(ids, []) == [];
      assert acc + [] == acc;
    }
  }

  lemma AppendAssoc<T>(a: seq<T>, b: seq<T>, c: seq<T>)
    ensures (a + b) + c == a + (b + c)
  {
  }

  lemma CachedItemsCons(cache: seq<Entry>)
    requires cache != []
    ensures CachedItems(cache) == (if cache[0].result.Found? then cache[0].result.items else []) + CachedItems(cache[1..])
  {
  }

  lemma EntryStepAll(e: Entry, ids: Json, acc: seq<Json>)
    requires var here := if e.result.Found? then e.result.items else [];
      && (forall x :: x in here ==> Scannable(ids, x))
      && |acc| + |Picks(ids, here)| < IdCount(ids)
    ensures EntryStep(e, ids, acc) == Success(acc + Picks(ids, if e.result.Found? then e.result.items else []))
  {
    if e.result.Found? {
      EntryCollectsAll(e.result.items, ids, acc);
    } else {
      assert acc + Picks(ids, []) == acc;
    }
  }

  /** A prefix occurs no more often than in the whole. */
  lemma PrefixCount(a: seq<Json>, b: seq<Json>, x: Json)
    requires a <= b
    ensures multiset(a)[x] <= multiset(b)[x]
  {
    assert b == a + b[|a|..];
  }

  /** One entry's pass adds one more copy of an item it picks before its break. */
  lemma EntryAddsItem(e: Entry, ids: Json, acc: seq<Json>, item: Json)
    requires e.result.Found? && EntryStep(e, ids, acc).Success?
    requires Picked(ids, item) && item in e.result.items[..ScanEnd(e.result.items, ids, |acc|)]
    ensures multiset(EntryStep(e, ids, acc).value)[item] >= multiset(acc)[item] + 1
  {
    var items := e.result.items;
    CollectEntryReadsToBreak(items, ids, acc);
    PicksMembers(ids, items[..ScanEnd(items, ids, |acc|)], item);
  }

  /** The `break` leaves only the inner loop: an item that two cached entries both hold,
      each before its entry's break, is collected once for each of them. */
  lemma DuplicateAcrossEntries(pre: seq<Entry>, e1: Entry, mid: seq<Entry>, e2: Entry, post: seq<Entry>,
                               ids: Json, acc: seq<Json>, item: Json, s1: seq<Json>, s2: seq<Json>)
    requires CollectCache(pre + [e1] + mid + [e2] + post, ids, acc).Success?
    requires CollectCache(pre, ids, acc) == Success(s1)
    requires CollectCache(pre + [e1] + mid, ids, acc) == Success(s2)
    requires Picked(ids, item)
    requires e1.result.Found? && item in e1.result.items[..ScanEnd(e1.result.items, ids, |s1|)]
    requires e2.result.Found? && item in e2.result.items[..ScanEnd(e2.result.items, ids, |s2|)]
    ensures multiset(CollectCache(pre + [e1] + mid + [e2] + post, ids, acc).value)[item] >= multiset(acc)[item] + 2
  {
    var c1, c2, c3 := pre + [e1], pre + [e1] + mid, pre + [e1] + mid + [e2];
    CollectCacheSplit(pre, [e1], ids, acc);
    CollectOneEntry(e1, ids, s1);
    CollectCacheSplit(c1, mid, ids, acc);
    var t1 := CollectCache(c1, ids, acc).value;
    EntryAddsItem(e1, ids, s1, item);
    PrefixCount(acc, s1, item);
    PrefixCount(t1, s2, item);
    CollectCacheSplit(c2, [e2], ids, acc);
    CollectOneEntry(e2, ids, s2);
    CollectCacheSplit(c3, post, ids, acc);
    var t2 := CollectCache(c3, ids, acc).value;
    EntryAddsItem(e2, ids, s2, item);
    PrefixCount(t2, CollectCache(c3 + post, ids, acc).value, item);
  }

  /** As written, the loop compares the count with `len(template_ids)` only: when the
      ids are "a" and "b" and one entry holds "a" twice before "b", the second "a" fills
      the count, the entry's loop ends before "b", and "b" is reported missing although
      it is cached. */
  lemma DuplicateHidesLaterId(a: Json, b: Json, e: Entry)
    requires a == JObj(map["id" := JStr("a")]) && b == JObj(map["id" := JStr("b")])
    requires e.result == Found([a, a, b], JInt(1), JInt(1), JInt(10), "press")
    ensures b in CachedItems([e])
    ensures CollectCache([e], JArr([JStr("a"), JStr("b")]), []) == Success([a, a])
    ensures AnyMissing(JArr([JStr("a"), JStr("b")]), SelectedIds([a, a])) == Success(true)
  {
    var ids := JArr([JStr("a"), JStr("b")]);
    assert CachedItems([e]) == [a, a, b] by {
      assert [e][1..] == [];
    }
    SecondDuplicateEndsEntry(a, b, ids);
    assert EntryStep(e, ids, []) == CollectEntry([a, a, b], ids, []);
    CollectOneEntry(e, ids, []);
    assert SelectedIds([a, a]) == [JStr("a"), JStr("a")];
    assert JStr("b") in ids.elems && JStr("b") !in SelectedIds([a, a]);
  }

  lemma SecondDuplicateEndsEntry(a: Json, b: Json, ids: Json)
    requires a == JObj(map["id" := JStr("a")]) && b == JObj(map["id" := JStr("b")])
    requires ids == JArr([JStr("a"), JStr("b")])
    ensures CollectEntry([a, a, b], ids, []) == Success([a, a])
  {
    var items := [a, a, b];
    assert GetOrNull(a.fields, "id") == JStr("a");
    assert Member(ids, JStr("a")) == Success(true) && IdCount(ids) == 2;
    assert items[1..] == [a, b] && [a, b][0] == a;
    CollectEntryPicked(items, ids, []);
    assert [] + [a] == [a] && [a] + [a] == [a, a];
  }

  /** `[t.get("id") for t in selected_templates]`. */
  function SelectedIds(selected: seq<Json>): (ids: seq<Json>)
    requires forall k :: 0 <= k < |selected| ==> selected[k].JObj?
    ensures |ids| == |selected|
    ensures forall k :: 0 <= k < |selected| ==> ids[k] == GetOrNull(selected[k].fields, "id")
  {
    seq(|selected|, k requires 0 <= k < |selected| => GetOrNull(selected[k].fields, "id"))
  }

  /** Whether `missing_templates` is non-empty: iterating a list gives its elements, a
      string its characters, a dictionary its keys, anything else raises. */
  function AnyMissing(ids: Json, found: seq<Json>): Result<bool, PyError> {
    match ids
    case JArr(e) => Success(exists t :: t in e && t !in found)
    case JStr(s) => Success(exists c :: c in s && JStr([c]) !in found)
    case JObj(m) => Success(exists k :: k in m && JStr(k) !in found)
    case _ => Failure(TypeError)
  }

  // ------------------------------------------------------------ the draft

  /** The texts of a list of values; `str.join` raises on any non-string. */
  function Strings(vs: seq<Json>): (r: Result<seq<string>, PyError>)
    ensures r.Success? <==> forall k :: 0 <= k < |vs| ==> vs[k].JStr?
    ensures r.Success? ==> |r.value| == |vs| && forall k :: 0 <= k < |vs| ==> r.value[k] == vs[k].s
    ensures r.Failure? ==> r.error == TypeError
  {
    if forall k :: 0 <= k < |vs| ==> vs[k].JStr? then
      Success(seq(|vs|, k requires 0 <= k < |vs| => vs[k].s))
    else Failure(TypeError)
  }

  /** `[t.get(key, "") for t in selected]`. */
  function Column(selected: seq<Json>, key: string): (col: seq<Json>)
    requires forall k :: 0 <= k < |selected| ==> selected[k].JObj?
    ensures |col| == |selected|
  {
    seq(|selected|, k requires 0 <= k < |selected| => FieldOr(selected[k].fields, key, JStr("")))
  }

  /** The priced input: the request text, every title, and the first three bodies. */
  function CombinedInput(userInput: string, titles: seq<string>, contents: seq<string>): string {
    userInput + "\n\n" + Join("\n\n", titles) + "\n\n" + Join("\n\n", Take(contents, CONTENTS_PRICED))
  }

  /** Bodies after the third never reach the priced input. */
  lemma ExtraContentsIgnored(userInput: string, titles: seq<string>, contents: seq<string>, more: seq<string>)
    requires |contents| >= CONTENTS_PRICED
    ensures CombinedInput(userInput, titles, contents + more) == CombinedInput(userInput, titles, contents)
  {
    assert Take(contents + more, CONTENTS_PRICED) == Take(contents, CONTENTS_PRICED);
  }

  /** The priced slice `combined_input[:5000]`. */
  function CostInput(combined: string): (r: string)
    ensures |r| <= COST_INPUT_LIMIT && r <= combined
    ensures |combined| <= COST_INPUT_LIMIT ==> r == combined
    ensures |combined| > COST_INPUT_LIMIT ==> |r| == COST_INPUT_LIMIT
  {
    Take(combined, COST_INPUT_LIMIT)
  }

  /** The draft's heading: the text before the first comma, or a fixed title. */
  function Heading(userInput: string): (h: string)
    ensures ',' !in userInput ==> h == DEFAULT_HEADING
    ensures ',' in userInput ==> ',' !in h && h + "," <= userInput
  {
    if ',' in userInput then
      var parts := SplitOn(userInput, ',');
      assert |parts| > 1;
      assert Join([','], parts) == parts[0] + [','] + Join([','], parts[1..]);
      parts[0]
    else DEFAULT_HEADING
  }

  /** The placeholder draft; `today` is the `%Y-%m-%d` date. */
  function ExampleOutput(userInput: string, titles: seq<string>, today: string): string {
    "# " + Heading(userInput) + "\n\n## 개요\n" + userInput
    + "\n\n## 주요 내용\n1. 첫 번째 주요 내용\n2. 두 번째 주요 내용\n3. 세 번째 주요 내용\n\n## 참고 문서\n"
    + Join(", ", titles) + "\n\n## 작성일\n" + today + "\n"
  }

  /** The handler body inside its `try`, for a truthy request body. */
  function DraftBody(data: Json, cache: seq<Entry>, count: (string, string) -> Option<nat>, rate: real, now: int, today: string): Result<DraftReply, PyError> {
    if !data.JObj? then Failure(AttributeError)
    else
      var ids := FieldOr(data.fields, "template_ids", JArr([]));
      var userInput := FieldOr(data.fields, "user_input", JStr(""));
      var size :- Len(userInput);
      if !Truthy(ids) then Success(Refused(400, NO_TEMPLATE_IDS))
      else if !Truthy(userInput) then Success(Refused(400, NO_USER_INPUT))
      else
        var selected :- CollectCache(cache, ids, []);
        var missing :- AnyMissing(ids, SelectedIds(selected));
        if missing then Success(Refused(404, TEMPLATES_MISSING))
        else if !userInput.JStr? then Failure(TypeError)
        else
          var titles :- Strings(Column(selected, "title"));
          var contents :- Strings(Take(Column(selected, "content"), CONTENTS_PRICED));
          var output := ExampleOutput(userInput.s, titles, today);
          var info := CalculateTokenCost(CostInput(CombinedInput(userInput.s, titles, contents)), output, DEFAULT_MODEL, count, rate);
          Success(Created(DraftResponse("draft_" + IntToString(now), ids, userInput.s, info, output, "success")))
  }

  /** The created draft is the placeholder for the request text and the selected titles,
      priced over the first 5000 characters of the combined input with gpt-4o-mini. */
  predicate DraftPriced(fields: map<string, Json>, cache: seq<Entry>, count: (string, string) -> Option<nat>, rate: real, today: string, resp: DraftResponse) {
    var ids := FieldOr(fields, "template_ids", JArr([]));
    && CollectCache(cache, ids, []).Success?
    && var selected := CollectCache(cache, ids, []).value;
    && Strings(Column(selected, "title")).Success?
    && Strings(Take(Column(selected, "content"), CONTENTS_PRICED)).Success?
    && var titles := Strings(Column(selected, "title")).value;
    && var contents := Strings(Take(Column(selected, "content"), CONTENTS_PRICED)).value;
    && resp.content == ExampleOutput(resp.userInput, titles, today)
    && resp.tokenInfo == CalculateTokenCost(CostInput(CombinedInput(resp.userInput, titles, contents)), resp.content, DEFAULT_MODEL, count, rate)
  }

  /** `generate_draft()` for the decoded request body `data`, the search cache `cache`,
      the tokenizer `count`, the exchange rate, and the clock readings `now` and `today`. */
  function GenerateDraft(data: Json, cache: seq<Entry>, count: (string, string) -> Option<nat>, rate: real, now: int, today: string): (r: DraftReply)
    ensures !Truthy(data) ==> r == Refused(400, EMPTY_BODY)
    ensures Truthy(data) && !data.JObj? ==> r == Refused(500, FAILURE_PREFIX + "AttributeError")
    ensures r.Refused? ==> r.status == 400 || r.status == 404 || r.status == 500
    ensures data.JObj? && Truthy(data) && Len(FieldOr(data.fields, "user_input", JStr(""))).Success? ==>
      && (!Truthy(FieldOr(data.fields, "template_ids", JArr([]))) ==> r == Refused(400, NO_TEMPLATE_IDS))
      && (Truthy(FieldOr(data.fields, "template_ids", JArr([]))) && !Truthy(FieldOr(data.fields, "user_input", JStr(""))) ==>
            r == Refused(400, NO_USER_INPUT))
    ensures r.Created? ==> data.JObj? && DraftPriced(data.fields, cache, count, rate, today, r.response)
    ensures r.Created? ==>
      && data.JObj?
      && r.response.status == "success"
      && r.response.templateIds == FieldOr(data.fields, "template_ids", JArr([]))
      && Truthy(r.response.templateIds)
      && FieldOr(data.fields, "user_input", JStr("")) == JStr(r.response.userInput)
      && r.response.userInput != ""
      && r.response.id == "draft_" + IntToString(now)
  {
    if !Truthy(data) then Refused(400, EMPTY_BODY)
    else
      match DraftBody(data, cache, count, rate, now, today)
      case Success(reply) => reply
      case Failure(e) => Refused(500, FAILURE_PREFIX + ErrorDetail(e))
  }

  /** A requested id that no cached item carries yields the 404 reply, once the request
      passes validation and the cache scan does not raise. */
  lemma MissingIdGives404(data: Json, cache: seq<Entry>, count: (string, string) -> Option<nat>, rate: real, now: int, today: string, tid: Json)
    requires data.JObj?
    requires var ids := FieldOr(data.fields, "template_ids", JArr([])); ids.JArr? && tid in ids.elems
    requires var u := FieldOr(data.fields, "user_input", JStr("")); u.JStr? && u.s != ""
    requires forall item :: item in CachedItems(cache) && item.JObj? ==> GetOrNull(item.fields, "id") != tid
    requires CollectCache(cache, FieldOr(data.fields, "template_ids", JArr([])), []).Success?
    ensures GenerateDraft(data, cache, count, rate, now, today) == Refused(404, TEMPLATES_MISSING)
  {
    var ids := FieldOr(data.fields, "template_ids", JArr([]));
    var selected := CollectCache(cache, ids, []).value;
    var found := SelectedIds(selected);
    assert tid !in found by {
      forall k | 0 <= k < |selected|
        ensures found[k] != tid
      {
        assert selected[k] in CachedItems(cache);
      }
    }
    assert AnyMissing(ids, found) == Success(true);
    BodyRefuses404(data, cache, count, rate, now, today);
    assert data != JObj(map[]) by {
      assert "user_input" in data.fields;
    }
  }

  lemma BodyRefuses404(data: Json, cache: seq<Entry>, count: (string, string) -> Option<nat>, rate: real, now: int, today: string)
    requires data.JObj?
    requires var ids := FieldOr(data.fields, "template_ids", JArr([])); ids.JArr? && ids.elems != []
    requires var u := FieldOr(data.fields, "user_input", JStr("")); u.JStr? && u.s != ""
    requires var ids := FieldOr(data.fields, "template_ids", JArr([]));
      && CollectCache(cache, ids, []).Success?
      && AnyMissing(ids, SelectedIds(CollectCache(cache, ids, []).value)) == Success(true)
    ensures DraftBody(data, cache, count, rate, now, today) == Success(Refused(404, TEMPLATES_MISSING))
  {
  }

  /** A valid request whose ids are all among the collected templates, with string titles
      and priced bodies, yields the created draft. */
  lemma AllCollectedGivesCreated(data: Json, cache: seq<Entry>, count: (string, string) -> Option<nat>, rate: real, now: int, today: string)
    requires data.JObj?
    requires var ids := FieldOr(data.fields, "template_ids", JArr([])); ids.JArr? && ids.elems != []
    requires var u := FieldOr(data.fields, "user_input", JStr("")); u.JStr? && u.s != ""
    requires var ids := FieldOr(data.fields, "template_ids", JArr([]));
      && CollectCache(cache, ids, []).Success?
      && var selected := CollectCache(cache, ids, []).value;
      && (forall t :: t in ids.elems ==> t in SelectedIds(selected))
      && Strings(Column(selected, "title")).Success?
      && Strings(Take(Column(selected, "content"), CONTENTS_PRICED)).Success?
    ensures GenerateDraft(data, cache, count, rate, now, today).Created?
  {
    var ids := FieldOr(data.fields, "template_ids", JArr([]));
    var selected := CollectCache(cache, ids, []).value;
    assert AnyMissing(ids, SelectedIds(selected)) == Success(false);
    BodyCreates(data, cache, count, rate, now, today);
    assert data != JObj(map[]) by {
      assert "user_input" in data.fields;
    }
    CreatedFromBody(data, cache, count, rate, now, today);
  }

  lemma BodyCreates(data: Json, cache: seq<Entry>, count: (string, string) -> Option<nat>, rate: real, now: int, today: string)
    requires data.JObj?
    requires var ids := FieldOr(data.fields, "template_ids", JArr([])); ids.JArr? && ids.elems != []
    requires var u := FieldOr(data.fields, "user_input", JStr("")); u.JStr? && u.s != ""
    requires var ids := FieldOr(data.fields, "template_ids", JArr([]));
      && CollectCache(cache, ids, []).Success?
      && var selected := CollectCache(cache, ids, []).value;
      && AnyMissing(ids, SelectedIds(selected)) == Success(false)
      && Strings(Column(selected, "title")).Success?
      && Strings(Take(Column(selected, "content"), CONTENTS_PRICED)).Success?
    ensures DraftBody(data, cache, count, rate, now, today).Success?
    ensures DraftBody(data, cache, count, rate, now, today).value.Created?
  {
  }

  lemma CreatedFromBody(data: Json, cache: seq<Entry>, count: (string, string) -> Option<nat>, rate: real, now: int, today: string)
    requires Truthy(data)
    requires DraftBody(data, cache, count, rate, now, today).Success?
    requires DraftBody(data, cache, count, rate, now, today).value.Created?
    ensures GenerateDraft(data, cache, count, rate, now, today).Created?
  {
  }

  /** A created draft means every requested id (of a list) is the id of a cached item. */
  lemma CreatedMeansAllFound(data: Json, cache: seq<Entry>, count: (string, string) -> Option<nat>, rate: real, now: int, today: string)
    requires GenerateDraft(data, cache, count, rate, now, today).Created?
    requires FieldOr(data.fields, "template_ids", JArr([])).JArr?
    ensures forall t :: t in FieldOr(data.fields, "template_ids", JArr([])).elems ==>
      exists item :: item in CachedItems(cache) && item.JObj? && GetOrNull(item.fields, "id") == t
  {
    CreatedNoneMissing(data, cache, count, rate, now, today);
    var ids := FieldOr(data.fields, "template_ids", JArr([]));
    var selected := CollectCache(cache, ids, []).value;
    var found := SelectedIds(selected);
    forall t | t in ids.elems
      ensures exists item :: item in CachedItems(cache) && item.JObj? && GetOrNull(item.fields, "id") == t
    {
      assert t in found;
      var k :| 0 <= k < |found| && found[k] == t;
      assert selected[k] in CachedItems(cache);
    }
  }

  lemma CreatedNoneMissing(data: Json, cache: seq<Entry>, count: (string, string) -> Option<nat>, rate: real, now: int, today: string)
    requires GenerateDraft(data, cache, count, rate, now, today).Created?
    ensures data.JObj?
    ensures var ids := FieldOr(data.fields, "template_ids", JArr([]));
      && CollectCache(cache, ids, []).Success?
      && AnyMissing(ids, SelectedIds(CollectCache(cache, ids, []).value)) == Success(false)
  {
    assert DraftBody(data, cache, count, rate, now, today).Success?;
    BodyCreatedNoneMissing(data, cache, count, rate, now, today);
  }

  lemma BodyCreatedNoneMissing(data: Json, cache: seq<Entry>, count: (string, string) -> Option<nat>, rate: real, now: int, today: string)
    requires DraftBody(data, cache, count, rate, now, today).Success?
    requires DraftBody(data, cache, count, rate, now, today).value.Created?
    ensures data.JObj?
    ensures var ids := FieldOr(data.fields, "template_ids", JArr([]));
      && CollectCache(cache, ids, []).Success?
      && AnyMissing(ids, SelectedIds(CollectCache(cache, ids, []).value)) == Success(false)
  {
  }
}

=== FILE: government_api.dfy ===
/** The public-document search client: credential masking, request parameters, the
    bounded retry loop over transport outcomes, and the normalisation of the upstream
    JSON payload into a flat item list.

    Each network attempt is an abstract `Transport` outcome drawn from a given sequence,
    a sleep is recorded as its delay, and `response.json()` is the oracle `parse`. */
module GovernmentApi {
  import opened Wrappers
  import opened Text
  import opened JsonModel
  import opened Config
  import opened HtmlUtils

  // ---------------------------------------------------------------- masking

  /** Where the masked key starts: just after the first `serviceKey=`. */
  function KeyStart(url: string): (k: nat)
    requires Contains(url, "serviceKey=")
    ensures 11 <= k <= |url| && url[k - 11..k] == "serviceKey="
    ensures forall j :: 0 <= j < k - 11 ==> !At(url, "serviceKey=", j)
  {
    FindFrom(url, "serviceKey=", 0).value + 11
  }

  /** Where the masked key ends: the next `&`, or the end of the URL. */
  function KeyEnd(url: string, keyStart: nat): (e: nat)
    requires keyStart <= |url|
    ensures keyStart <= e <= |url|
    ensures e == |url| || url[e] == '&'
  {
    if Contains(url[keyStart..], "&") then
      var f := FindFrom(url, "&", keyStart);
      assert f.Some? ==> url[f.value..f.value + 1][0] == url[f.value];
      f.GetOr(|url|)
    else |url|
  }

  /** `mask_api_key`: the value after the first `serviceKey=` (up to the next `&`, or the
      end of the URL) becomes `...`. */
  function MaskApiKey(url: string): (r: string)
    ensures !Contains(url, "serviceKey=") ==> r == url
    ensures Contains(url, "serviceKey=") ==> |r| <= |url| + 3 && Contains(r, "serviceKey=...")
  {
    if Contains(url, "serviceKey=") then
      var keyStart := KeyStart(url);
      var r := url[..keyStart] + "..." + url[KeyEnd(url, keyStart)..];
      assert At(r, "serviceKey=...", keyStart - 11) by {
        assert r[keyStart - 11..keyStart + 3] == url[keyStart - 11..keyStart] + "...";
      }
      r
    else
      url
  }

  /** A URL whose first `serviceKey=` is followed by a key without `&` and then either
      nothing or further `&`-parameters is masked to exactly the same URL with the key
      replaced by `...`. */
  lemma {:induction false} MaskReplacesFirstKey(pre: string, key: string, post: string)
    requires forall j :: 0 <= j < |pre| ==> !At(pre + "serviceKey=" + key + post, "serviceKey=", j)
    requires '&' !in key
    requires post == [] || post[0] == '&'
    ensures MaskApiKey(pre + "serviceKey=" + key + post) == pre + "serviceKey=" + "..." + post
  {
    var marker := "serviceKey=";
    var url := pre + marker + key + post;
    assert url[|pre|..|pre| + 11] == marker;
    FindFromIs(url, marker, 0, |pre|);
    var keyStart := |pre| + 11;
    assert KeyStart(url) == keyStart;
    assert url[..keyStart] == pre + marker;
    assert url[keyStart..] == key + post;
    if post == [] {
      ContainsChar(key, '&');
      assert key + post == key;
      assert url[|url|..] == post;
    } else {
      var keyEnd := keyStart + |key|;
      assert url[keyEnd..keyEnd + 1] == "&";
      forall j | keyStart <= j < keyEnd
        ensures !At(url, "&", j)
      {
        assert url[j] == key[j - keyStart];
        assert url[j..j + 1][0] == url[j];
      }
      FindFromIs(url, "&", keyStart, keyEnd);
      assert (key + post)[|key|..|key| + 1] == "&";
      ContainsAt(key + post, "&", |key|);
      assert url[keyEnd..] == post;
    }
  }

  /** Masking a masked URL changes nothing. */
  lemma MaskIdempotent(url: string)
    ensures MaskApiKey(MaskApiKey(url)) == MaskApiKey(url)
  {
    var marker := "serviceKey=";
    if Contains(url, marker) {
      var keyStart := KeyStart(url);
      var i := keyStart - 11;
      var pre := url[..i];
      var post := url[KeyEnd(url, keyStart)..];
      assert url[..keyStart] == pre + marker;
      var r := MaskApiKey(url);
      assert r == pre + marker + "..." + post;
      assert r[..keyStart] == url[..keyStart];
      forall j | 0 <= j < |pre|
        ensures !At(r, marker, j)
      {
        SameWithinPrefix(r, url, keyStart, j, j + 11);
        assert !At(url, marker, j);
      }
      MaskReplacesFirstKey(pre, "...", post);
    }
  }

  lemma SameWithinPrefix<T>(a: seq<T>, b: seq<T>, n: nat, lo: nat, hi: nat)
    requires n <= |a| && n <= |b| && a[..n] == b[..n] && lo <= hi <= n
    ensures a[lo..hi] == b[lo..hi]
  {
    assert a[lo..hi] == a[..n][lo..hi] && b[lo..hi] == b[..n][lo..hi];
  }

  /** The key as the parameter log line shows it: its first ten characters, then `...`. */
  function LogKey(key: string): (r: string)
    ensures |r| == (if |key| < 10 then |key| else 10) + 3
    ensures r[..|r| - 3] <= key && r[|r| - 3..] == "..."
  {
    (if |key| <= 10 then key else key[..10]) + "..."
  }

  // ---------------------------------------------------------------- parameters

  datatype ParamValue = PStr(s: string) | PInt(n: int)
  datatype Param = Param(name: string, value: ParamValue)

  function ParamNames(ps: seq<Param>): seq<string> {
    seq(|ps|, i requires 0 <= i < |ps| => ps[i].name)
  }

  /** The query parameters in insertion order. `manager` is sent exactly for press
      releases, even when it is empty. */
  function BuildParams(apiKey: string, d: DocType, keyword: string, page: int, perPage: int, manager: string): (ps: seq<Param>)
    ensures ParamNames(ps) == ["serviceKey", "pageNo", "numOfRows", "type", "title"] + (if d == Press then ["manager"] else [])
    ensures ps[0].value == PStr(apiKey) && ps[1].value == PInt(page) && ps[2].value == PInt(perPage)
    ensures ps[3].value == PStr("json") && ps[4].value == PStr(keyword)
    ensures d == Press ==> ps[5].value == PStr(manager)
  {
    var base := [
      Param("serviceKey", PStr(apiKey)),
      Param("pageNo", PInt(page)),
      Param("numOfRows", PInt(perPage)),
      Param("type", PStr("json")),
      Param("title", PStr(if keyword != "" then keyword else ""))];
    if "manager" in RequiredParams(d) && d == Press then base + [Param("manager", PStr(manager))] else base
  }

  datatype Request = Request(url: string, params: seq<Param>)

  // ---------------------------------------------------------------- outcomes

  /** What one `requests.get` attempt produced. `Delivered` carries a 2xx body. */
  datatype Transport =
    | Timeout(detail: string)
    | ConnectionFailure(detail: string)
    | HttpFailure(status: string, detail: string)
    | OtherRequestFailure(detail: string)
    | Delivered(body: string)

  predicate Transient(t: Transport) {
    t.Timeout? || t.ConnectionFailure?
  }

  /** The error cases of a search; `ErrorText` gives the message the source returns. */
  datatype SearchFailure =
    | MissingApiKey
    | UnsupportedDocType(docType: string)
    | ApiResultError(msg: Json, code: Json)
    | ParseFailure(cause: PyError)
    | JsonDecodeFailure
    | HttpError(status: string, detail: string)
    | RequestError(detail: string)
    | RetriesExhausted(attempts: int)

  /** The dictionary a search returns: the item page, or `{"error": ...}`. */
  datatype SearchResult =
    | Found(items: seq<Json>, totalCount: Json, pageNo: Json, numOfRows: Json, docType: string)
    | Failed(failure: SearchFailure)

  function ErrorText(f: SearchFailure): string {
    match f
    case MissingApiKey => "API 키가 설정되지 않았습니다."
    case UnsupportedDocType(t) => "지원하지 않는 문서 유형: " + t
    case ApiResultError(msg, code) => "API 오류: " + PyStr(msg) + " (코드: " + PyStr(code) + ")"
    case ParseFailure(e) => "API 응답 파싱 중 오류: " + ErrorDetail(e)
    case JsonDecodeFailure => "API 응답을 JSON으로 파싱할 수 없습니다."
    case HttpError(s, d) => "API HTTP 오류 (" + s + "): " + d
    case RequestError(d) => "API 요청 중 오류: " + d
    case RetriesExhausted(n) => IntToString(n) + "번의 시도 후 API 호출 실패"
  }

  // ---------------------------------------------------------------- normalisation

  /** `process_items`: the three accepted shapes of `body["items"]`. */
  function ProcessItems(x: Json): (r: seq<Json>)
    ensures x.JArr? ==> r == x.elems
    ensures !x.JArr? && !(x.JObj? && "item" in x.fields) ==> r == []
    ensures x.JObj? && "item" in x.fields ==>
      r == match x.fields["item"] { case JArr(e) => e case JObj(_) => [x.fields["item"]] case _ => [] }
  {
    match x
    case JArr(e) => e
    case JObj(m) =>
      if "item" in m then
        match m["item"]
        case JArr(e) => e
        case JObj(_) => [m["item"]]
        case _ => []
      else []
    case _ => []
  }

  /** The extra metadata fields copied for each document type. */
  function ExtraKeys(docType: string): (ks: seq<string>)
    ensures docType == "press" ==> |ks| == 5
    ensures docType == "speech" || docType == "plan" ==> ks == ["place", "person"]
    ensures docType == "publication" ==> ks == ["person"]
    ensures docType == "report" ==> |ks| == 3
    ensures docType !in ["press", "speech", "plan", "publication", "report"] ==> ks == []
  {
    if docType == "press" then ["time", "ministry", "department", "manager", "relevantdepartments"]
    else if docType in ["speech", "plan"] then ["place", "person"]
    else if docType == "publication" then ["person"]
    else if docType == "report" then ["ministry", "department", "manager"]
    else []
  }

  /** `meta.get(k, "")` on a dictionary. */
  function Field(m: map<string, Json>, k: string): Json {
    if k in m then m[k] else JStr("")
  }

  /** `item.get(k, {})` on a dictionary item. */
  function Part(item: map<string, Json>, k: string): Json {
    if k in item then item[k] else JObj(map[])
  }

  /** `clean_html_content(data.get("text", ""))`: a falsy text gives `""`, a string goes to
      the HTML cleaner, and any other value comes back as it is (the parser refuses
      non-string markup and the cleaner's last fallback returns its input). */
  function CleanText(text: Json, clean: string -> string): (r: Json)
    ensures !Truthy(text) ==> r == JStr("")
    ensures Truthy(text) && !text.JStr? ==> r == text
    ensures text.JStr? && text.s != "" ==> r == JStr(clean(text.s))
  {
    if !Truthy(text) then JStr("")
    else if text.JStr? then JStr(CleanHtmlContent(text.s, clean))
    else text
  }

  /** `get_preview_content(cleaned, 500)` on any value: a falsy or short value comes back
      unchanged, a long string is cut at its paragraphs, and `len` or the split raises
      `TypeError` on anything else. */
  function Preview(v: Json): (r: Result<Json, PyError>)
    ensures v.JStr? ==> r == Success(JStr(GetPreviewContent(v.s, 500)))
    ensures !v.JStr? && Truthy(v) && Len(v).Failure? ==> r == Failure(TypeError)
    ensures !v.JStr? && Truthy(v) && Len(v).Success? ==>
      (r.Success? <==> Len(v).value <= 500) && (r.Success? ==> r.value == v)
    ensures !Truthy(v) ==> r == Success(v)
  {
    match v
    case JStr(s) => Success(JStr(GetPreviewContent(s, 500)))
    case JArr(e) => if |e| <= 500 then Success(v) else Failure(TypeError)
    case JObj(m) => if |m| <= 500 then Success(v) else Failure(TypeError)
    case _ => if Truthy(v) then Failure(TypeError) else Success(v)
  }

  /** One normalised record: the six common fields and the doc-type specific extras. */
  datatype Record = Record(
    id: Json, title: Json, docType: Json, date: Json,
    content: Json, description: Json,
    extras: map<string, Json>)

  /** The normalised record built from a metadata dictionary, the cleaned text and its
      preview. */
  function MakeRecord(meta: map<string, Json>, cleaned: Json, preview: Json, docType: string): (rec: Record)
    ensures rec.id == Field(meta, "doc_id") && rec.title == Field(meta, "title")
    ensures rec.docType == Field(meta, "doc_type") && rec.date == Field(meta, "date")
    ensures rec.content == cleaned && rec.description == preview
    ensures forall k :: k in rec.extras <==> k in ExtraKeys(docType)
    ensures forall k :: k in ExtraKeys(docType) ==> rec.extras[k] == Field(meta, k)
  {
    Record(
      Field(meta, "doc_id"), Field(meta, "title"), Field(meta, "doc_type"), Field(meta, "date"),
      cleaned, preview,
      map k | k in ExtraKeys(docType) :: Field(meta, k))
  }

  /** The dictionary a record is returned as. */
  function RecordJson(rec: Record): Json {
    JObj(rec.extras + map[
      "id" := rec.id, "title" := rec.title, "docType" := rec.docType, "date" := rec.date,
      "content" := rec.content, "description" := rec.description])
  }

  /** One record of `process_result_list`. The dictionary literal reads the metadata
      before the preview runs, so a non-dictionary `meta` raises before a bad `text`. */
  function ProcessRecord(item: Json, docType: string, clean: string -> string): (r: Result<Record, PyError>)
    ensures !item.JObj? ==> r == Failure(AttributeError)
    ensures r.Success? <==>
      && item.JObj? && Part(item.fields, "meta").JObj? && Part(item.fields, "data").JObj?
      && Preview(CleanText(Field(Part(item.fields, "data").fields, "text"), clean)).Success?
    ensures r.Success? ==>
      var cleaned := CleanText(Field(Part(item.fields, "data").fields, "text"), clean);
      r.value == MakeRecord(Part(item.fields, "meta").fields, cleaned, Preview(cleaned).value, docType)
  {
    if !item.JObj? then Failure(AttributeError)
    else
      var meta := Part(item.fields, "meta");
      var data := Part(item.fields, "data");
      if !data.JObj? || !meta.JObj? then Failure(AttributeError)
      else
        var cleaned := CleanText(Field(data.fields, "text"), clean);
        match Preview(cleaned)
        case Failure(e) => Failure(e)
        case Success(preview) => Success(MakeRecord(meta.fields, cleaned, preview, docType))
  }

  /** A string text becomes a string record with its 500-character preview; a short list
      or dictionary under `text` is kept as it is; a number under `text` raises. */
  lemma TextShapes(item: map<string, Json>, docType: string, clean: string -> string, text: Json)
    requires Part(item, "meta").JObj? && Part(item, "data").JObj?
    requires Field(Part(item, "data").fields, "text") == text
    ensures text.JStr? && text.s != "" ==>
      var r := ProcessRecord(JObj(item), docType, clean);
      r.Success? && r.value.content == JStr(clean(text.s))
      && r.value.description == JStr(GetPreviewContent(clean(text.s), 500))
    ensures (text.JArr? || text.JObj?) && Truthy(text) && Len(text).value <= 500 ==>
      var r := ProcessRecord(JObj(item), docType, clean);
      r.Success? && r.value.content == text && r.value.description == text
    ensures text.JInt? && text.i != 0 ==> ProcessRecord(JObj(item), docType, clean) == Failure(TypeError)
  {
  }

  /** The loop of `process_result_list`: the first input that raises aborts the list. */
  function ProcessRecords(records: seq<Json>, docType: string, clean: string -> string): (r: Result<seq<Record>, PyError>)
    ensures r.Success? ==> |r.value| == |records|
    decreases |records|
  {
    if records == [] then Success([])
    else
      match ProcessRecord(records[0], docType, clean)
      case Failure(e) => Failure(e)
      case Success(head) =>
        match ProcessRecords(records[1..], docType, clean)
        case Failure(e) => Failure(e)
        case Success(tail) => Success([head] + tail)
  }

  /** The loop succeeds exactly when every input can be processed, and then yields one
      record per input, in input order. */
  lemma {:induction false} ProcessRecordsPointwise(records: seq<Json>, docType: string, clean: string -> string)
    ensures var r := ProcessRecords(records, docType, clean);
      && (r.Success? <==> forall i :: 0 <= i < |records| ==> ProcessRecord(records[i], docType, clean).Success?)
      && (r.Success? ==> forall i :: 0 <= i < |records| ==> ProcessRecord(records[i], docType, clean) == Success(r.value[i]))
    decreases |records|
  {
    if records != [] {
      ProcessRecordsPointwise(records[1..], docType, clean);
      var r := ProcessRecords(records, docType, clean);
      var h := ProcessRecord(records[0], docType, clean);
      var t := ProcessRecords(records[1..], docType, clean);
      if r.Success? {
        assert h.Success? && t.Success? && r.value == [h.value] + t.value;
        forall i | 0 <= i < |records|
          ensures ProcessRecord(records[i], docType, clean) == Success(r.value[i])
        {
          if i > 0 {
            assert records[i] == records[1..][i - 1];
          }
        }
      } else if h.Success? {
        assert t.Failure?;
        var j :| 0 <= j < |records| - 1 && ProcessRecord(records[1..][j], docType, clean).Failure?;
        assert records[j + 1] == records[1..][j];
      }
    }
  }

  /** `process_result_list`: a non-list is wrapped when truthy and dropped when falsy. */
  function ProcessResultList(rl: Json, docType: string, clean: string -> string): (r: Result<seq<Json>, PyError>)
    ensures !rl.JArr? && !Truthy(rl) ==> r == Success([])
    ensures r.Success? ==> |r.value| == if rl.JArr? then |rl.elems| else if Truthy(rl) then 1 else 0
    ensures r.Success? ==> forall i :: 0 <= i < |r.value| ==>
      var records := if rl.JArr? then rl.elems else [rl];
      ProcessRecord(records[i], docType, clean).Success?
      && r.value[i] == RecordJson(ProcessRecord(records[i], docType, clean).value)
  {
    var records := if rl.JArr? then rl.elems else if Truthy(rl) then [rl] else [];
    ProcessRecordsPointwise(records, docType, clean);
    match ProcessRecords(records, docType, clean)
    case Failure(e) => Failure(e)
    case Success(recs) => Success(seq(|recs|, i requires 0 <= i < |recs| => RecordJson(recs[i])))
  }

  /** The header gate: the error when a header is present and its code is not "00". */
  function HeaderFailure(resp: Json): Result<Option<SearchFailure>, PyError> {
    var hasHeader :- In("header", resp);
    if !hasHeader then Success(None)
    else
      var header :- Index(resp, "header");
      if !header.JObj? then Failure(AttributeError)
      else
        var code := GetOrNull(header.fields, "resultCode");
        var msg := GetOrNull(header.fields, "resultMsg");
        if code != JStr("00") then Success(Some(ApiResultError(msg, code))) else Success(None)
  }

  /** The item list of a body dictionary: `resultList` first, then `items`, else empty. */
  function BodyItems(body: map<string, Json>, docType: string, clean: string -> string): Result<seq<Json>, PyError> {
    if "resultList" in body then ProcessResultList(body["resultList"], docType, clean)
    else if "items" in body then Success(ProcessItems(body["items"]))
    else Success([])
  }

  function ParseBody(data: Json, docType: string, clean: string -> string): Result<SearchResult, PyError> {
    var hasResponse :- In("response", data);
    if !hasResponse then Success(Found([], JInt(0), JInt(1), JInt(10), docType))
    else
      var resp :- Index(data, "response");
      var gate :- HeaderFailure(resp);
      if gate.Some? then Success(Failed(gate.value))
      else BodyStage(resp, docType, clean)
  }

  /** The reshaping after the header check: the body's counters and items. */
  function BodyStage(resp: Json, docType: string, clean: string -> string): Result<SearchResult, PyError> {
    var hasBody :- In("body", resp);
    if !hasBody then Success(Found([], JInt(0), JInt(1), JInt(10), docType))
    else
      var body :- Index(resp, "body");
      if !body.JObj? then Failure(AttributeError)
      else
        var m := body.fields;
        var total := if "totalCount" in m then m["totalCount"] else JInt(0);
        var pageNo := if "pageNo" in m then m["pageNo"] else JInt(1);
        var rows := if "numOfRows" in m then m["numOfRows"] else JInt(10);
        var items :- BodyItems(m, docType, clean);
        Success(Found(items, total, pageNo, rows, docType))
  }

  /** The dictionary under `key` of a dictionary, if both are dictionaries. */
  function Sub(v: Json, key: string): Option<map<string, Json>> {
    if v.JObj? && key in v.fields && v.fields[key].JObj? then Some(v.fields[key].fields) else None
  }

  function GetOrNull(m: map<string, Json>, k: string): Json {
    if k in m then m[k] else JNull
  }

  /** The header check lets the body through: no header, or a dictionary header whose
      `resultCode` is `"00"`. */
  predicate HeaderPasses(resp: map<string, Json>) {
    "header" !in resp || (resp["header"].JObj? && GetOrNull(resp["header"].fields, "resultCode") == JStr("00"))
  }

  /** `parse_api_response`: any exception while reshaping becomes a parse error. */
  function ParseApiResponse(data: Json, docType: string, clean: string -> string): (r: SearchResult)
    ensures r.Found? ==> r.docType == docType
    ensures r.Failed? ==> r.failure.ApiResultError? || r.failure.ParseFailure?
    ensures data.JNull? || data.JBool? || data.JInt? || data.JFloat? ==> r == Failed(ParseFailure(TypeError))
    ensures data.JObj? && "response" !in data.fields ==> r == Found([], JInt(0), JInt(1), JInt(10), docType)
    ensures Sub(data, "response").Some? && Sub(JObj(Sub(data, "response").value), "header").Some? ==>
      var header := Sub(JObj(Sub(data, "response").value), "header").value;
      GetOrNull(header, "resultCode") != JStr("00") ==>
        r == Failed(ApiResultError(GetOrNull(header, "resultMsg"), GetOrNull(header, "resultCode")))
    ensures r.Found? && Sub(data, "response").Some? && Sub(JObj(Sub(data, "response").value), "body").Some? ==>
      var body := Sub(JObj(Sub(data, "response").value), "body").value;
      && r.totalCount == (if "totalCount" in body then body["totalCount"] else JInt(0))
      && r.pageNo == (if "pageNo" in body then body["pageNo"] else JInt(1))
      && r.numOfRows == (if "numOfRows" in body then body["numOfRows"] else JInt(10))
      && ("resultList" in body ==> ProcessResultList(body["resultList"], docType, clean) == Success(r.items))
      && ("resultList" !in body && "items" in body ==> r.items == ProcessItems(body["items"]))
      && ("resultList" !in body && "items" !in body ==> r.items == [])
    ensures Sub(data, "response").Some? ==>
      var resp := Sub(data, "response").value;
      && ("header" in resp && !resp["header"].JObj? ==> r == Failed(ParseFailure(AttributeError)))
      && (HeaderPasses(resp) && "body" !in resp ==> r == Found([], JInt(0), JInt(1), JInt(10), docType))
      && (HeaderPasses(resp) && "body" in resp && !resp["body"].JObj? ==> r == Failed(ParseFailure(AttributeError)))
      && (HeaderPasses(resp) && "body" in resp && resp["body"].JObj? ==>
            match BodyItems(resp["body"].fields, docType, clean)
            case Success(items) => r.Found? && r.items == items
            case Failure(e) => r == Failed(ParseFailure(e)))
  {
    match ParseBody(data, docType, clean)
    case Success(res) => res
    case Failure(e) => Failed(ParseFailure(e))
  }

  // ---------------------------------------------------------------- retry loop

  /** The result of a non-transient attempt. */
  function TerminalResult(t: Transport, docType: string, parse: string -> Option<Json>, clean: string -> string): (r: SearchResult)
    requires !Transient(t)
    ensures r.Failed? ==> !r.failure.RetriesExhausted? && !r.failure.MissingApiKey? && !r.failure.UnsupportedDocType?
  {
    match t
    case HttpFailure(s, d) => Failed(HttpError(s, d))
    case OtherRequestFailure(d) => Failed(RequestError(d))
    case Delivered(body) =>
      match parse(body)
      case None => Failed(JsonDecodeFailure)
      case Some(data) => ParseApiResponse(data, docType, clean)
  }

  /** A run of the retry loop: the returned dictionary, the number of requests made and
      the sleeps taken between them. */
  datatype FetchRun = FetchRun(result: SearchResult, attempts: nat, sleeps: seq<int>)

  /** How a run that made at least one request ended: its last attempt decides the result
      when it is not transient; a transient last attempt means the retries ran out. */
  predicate EndedBy(run: FetchRun, outcomes: seq<Transport>, maxRetries: int, docType: string,
                    parse: string -> Option<Json>, clean: string -> string)
    requires 1 <= run.attempts <= |outcomes|
  {
    var last := outcomes[run.attempts - 1];
    if Transient(last) then run.attempts == maxRetries && run.result == Failed(RetriesExhausted(maxRetries))
    else run.result == TerminalResult(last, docType, parse, clean)
  }

  /** How a run ended depends only on its result and its number of requests. */
  lemma EndedBySameEnd(a: FetchRun, b: FetchRun, outcomes: seq<Transport>, maxRetries: int, docType: string,
                       parse: string -> Option<Json>, clean: string -> string)
    requires 1 <= a.attempts <= |outcomes| && a.result == b.result && a.attempts == b.attempts
    ensures EndedBy(b, outcomes, maxRetries, docType, parse, clean) == EndedBy(a, outcomes, maxRetries, docType, parse, clean)
  {
  }

  /** The `for attempt in range(MAX_RETRIES)` loop from iteration `attempt` on. */
  function RetryLoop(outcomes: seq<Transport>, attempt: nat, maxRetries: int, delay: int, docType: string,
                     parse: string -> Option<Json>, clean: string -> string): (run: FetchRun)
    requires |outcomes| >= maxRetries
    ensures attempt >= maxRetries ==> run == FetchRun(Failed(RetriesExhausted(maxRetries)), attempt, [])
    ensures attempt < maxRetries ==> attempt < run.attempts <= maxRetries
    ensures attempt < maxRetries ==> |run.sleeps| == run.attempts - attempt - 1
    ensures forall i :: 0 <= i < |run.sleeps| ==> run.sleeps[i] == delay
    ensures forall k :: attempt <= k < run.attempts - 1 ==> Transient(outcomes[k])
    ensures attempt < maxRetries ==> EndedBy(run, outcomes, maxRetries, docType, parse, clean)
    decreases maxRetries - attempt
  {
    if attempt >= maxRetries then FetchRun(Failed(RetriesExhausted(maxRetries)), attempt, [])
    else if Transient(outcomes[attempt]) then
      var rest := RetryLoop(outcomes, attempt + 1, maxRetries, delay, docType, parse, clean);
      var pause := if attempt < maxRetries - 1 then [delay] else [];
      var run := FetchRun(rest.result, rest.attempts, pause + rest.sleeps);
      EndedBySameEnd(rest, run, outcomes, maxRetries, docType, parse, clean);
      run
    else
      FetchRun(TerminalResult(outcomes[attempt], docType, parse, clean), attempt + 1, [])
  }

  /** The loop ends with the exhaustion error exactly when every attempt was transient. */
  lemma {:induction false} ExhaustedIffAllTransient(outcomes: seq<Transport>, maxRetries: int, delay: int, docType: string,
                                                    parse: string -> Option<Json>, clean: string -> string)
    requires |outcomes| >= maxRetries
    ensures var run := RetryLoop(outcomes, 0, maxRetries, delay, docType, parse, clean);
      run.result == Failed(RetriesExhausted(maxRetries)) <==> forall k :: 0 <= k < maxRetries ==> Transient(outcomes[k])
  {
    var run := RetryLoop(outcomes, 0, maxRetries, delay, docType, parse, clean);
    if maxRetries > 0 {
      var last := run.attempts - 1;
      if !Transient(outcomes[last]) {
        assert run.result == TerminalResult(outcomes[last], docType, parse, clean);
        assert run.result != Failed(RetriesExhausted(maxRetries));
      } else {
        assert forall k :: 0 <= k < maxRetries ==> Transient(outcomes[k]) by {
          forall k | 0 <= k < maxRetries ensures Transient(outcomes[k]) {
            if k < last {
            } else {
              assert k == last;
            }
          }
        }
      }
    }
  }

  /** The first non-transient outcome decides the result, after that many requests. */
  lemma FirstTerminalDecides(outcomes: seq<Transport>, maxRetries: int, delay: int, docType: string,
                             parse: string -> Option<Json>, clean: string -> string, k: nat)
    requires |outcomes| >= maxRetries
    requires k < maxRetries && !Transient(outcomes[k])
    requires forall j :: 0 <= j < k ==> Transient(outcomes[j])
    ensures var run := RetryLoop(outcomes, 0, maxRetries, delay, docType, parse, clean);
      run.attempts == k + 1 && |run.sleeps| == k && run.result == TerminalResult(outcomes[k], docType, parse, clean)
  {
    var run := RetryLoop(outcomes, 0, maxRetries, delay, docType, parse, clean);
  }

  /** A search: the request that would be sent (none when a fail-fast check trips) and the run. */
  datatype Fetch = Fetch(request: Option<Request>, run: FetchRun)

  /** `fetch_government_templates`. */
  function FetchGovernmentTemplates(settings: Settings, keyword: string, page: int, perPage: int, docType: string,
                                    manager: string, outcomes: seq<Transport>,
                                    parse: string -> Option<Json>, clean: string -> string): (f: Fetch)
    requires |outcomes| >= settings.maxRetries
    ensures settings.apiKey.None? || settings.apiKey == Some("") ==>
      f == Fetch(None, FetchRun(Failed(MissingApiKey), 0, []))
    ensures settings.apiKey.Some? && settings.apiKey != Some("") && Lookup(docType).None? ==>
      f == Fetch(None, FetchRun(Failed(UnsupportedDocType(docType)), 0, []))
    ensures f.request.None? ==> f.run.attempts == 0
    ensures settings.apiKey.Some? && settings.apiKey != Some("") && Lookup(docType).Some? ==> f.request.Some?
    ensures f.request.Some? ==>
      && Lookup(docType).Some?
      && f.request.value.url == settings.baseUrl + "/" + Endpoint(Lookup(docType).value)
      && f.request.value.params == BuildParams(settings.apiKey.value, Lookup(docType).value, keyword, page, perPage, manager)
      && f.run == RetryLoop(outcomes, 0, settings.maxRetries, settings.retryDelay, docType, parse, clean)
  {
    match settings.apiKey
    case None => Fetch(None, FetchRun(Failed(MissingApiKey), 0, []))
    case Some(key) =>
      if key == "" then Fetch(None, FetchRun(Failed(MissingApiKey), 0, []))
      else match Lookup(docType)
        case None => Fetch(None, FetchRun(Failed(UnsupportedDocType(docType)), 0, []))
        case Some(d) =>
          var request := Request(settings.baseUrl + "/" + Endpoint(d), BuildParams(key, d, keyword, page, perPage, manager));
          Fetch(Some(request), RetryLoop(outcomes, 0, settings.maxRetries, settings.retryDelay, docType, parse, clean))
  }
}

=== FILE: html_utils.dfy ===
/** Paragraph-preserving preview of cleaned document text.

    The preview splits the text before every structural bullet paragraph (a newline
    immediately followed by □ or ○), keeps whole pieces while they fit, and marks the
    cut with an ellipsis. The HTML cleaner itself is a parser-library call and enters
    the model only as an oracle `clean` (see `CleanHtmlContent`). */
module HtmlUtils {
  import opened Wrappers
  import opened Text

  /** The two structural bullet glyphs of Korean government documents. */
  predicate IsBullet(c: char) {
    c == '□' || c == '○'
  }

  /** Index `i` holds a newline that immediately precedes a bullet glyph. */
  predicate SplitPoint(s: string, i: int) {
    0 <= i && i + 1 < |s| && s[i] == '\n' && IsBullet(s[i + 1])
  }

  /** `clean_html_content`: empty input gives empty output; anything else is handed to
      the HTML parser, which is not part of this model. */
  function CleanHtmlContent(html: string, clean: string -> string): (r: string)
    ensures html == "" ==> r == ""
  {
    if html == "" then "" else clean(html)
  }

  function Concat(ps: seq<string>): string {
    if ps == [] then "" else ps[0] + Concat(ps[1..])
  }

  lemma {:induction false} ConcatAppend(ps: seq<string>, qs: seq<string>)
    ensures Concat(ps + qs) == Concat(ps) + Concat(qs)
    decreases |ps|
  {
    if ps == [] {
      assert ps + qs == qs;
    } else {
      assert (ps + qs)[1..] == ps[1..] + qs;
      ConcatAppend(ps[1..], qs);
    }
  }

  /** A concatenation of leading pieces is a prefix of the concatenation of all pieces. */
  lemma ConcatPrefix(ps: seq<string>, k: nat)
    requires k <= |ps|
    ensures Concat(ps[..k]) <= Concat(ps)
  {
    assert ps == ps[..k] + ps[k..];
    ConcatAppend(ps[..k], ps[k..]);
  }

  /** First split point at or after `from`. */
  function FirstSplitPoint(s: string, from: nat): (r: Option<nat>)
    ensures r.Some? ==> from <= r.value && SplitPoint(s, r.value)
    ensures r.Some? ==> forall j :: from <= j < r.value ==> !SplitPoint(s, j)
    ensures r.None? ==> forall j :: from <= j ==> !SplitPoint(s, j)
    decreases |s| - from
  {
    if from + 1 >= |s| then None
    else if SplitPoint(s, from) then Some(from)
    else FirstSplitPoint(s, from + 1)
  }

  /** The shape `re.split` with a captured separator produces: text between split points
      at even indices (only the first may be empty, later ones open with a bullet), the
      captured newline separators at odd indices, and no split point left in any piece. */
  ghost predicate WellSplit(ps: seq<string>) {
    && |ps| % 2 == 1
    && (forall i :: 0 <= i < |ps| && i % 2 == 1 ==> ps[i] == "\n")
    && (forall i :: 0 < i < |ps| && i % 2 == 0 ==> ps[i] != [] && IsBullet(ps[i][0]))
    && (forall i, j :: 0 <= i < |ps| && i % 2 == 0 ==> !SplitPoint(ps[i], j))
  }

  lemma WellSplitCons(head: string, rest: seq<string>)
    requires WellSplit(rest)
    requires rest[0] != [] && IsBullet(rest[0][0])
    requires forall j :: !SplitPoint(head, j)
    ensures WellSplit([head, "\n"] + rest)
  {
    var ps := [head, "\n"] + rest;
    forall i | 2 <= i < |ps|
      ensures ps[i] == rest[i - 2] && (i % 2 == (i - 2) % 2)
    {
    }
  }

  /** `re.split(r"(\n(?=[□○]))", s)`. */
  function SplitAtBullets(s: string): (ps: seq<string>)
    ensures Concat(ps) == s
    ensures WellSplit(ps)
    ensures |s| > 0 && s[0] != '\n' ==> ps[0] != [] && ps[0][0] == s[0]
    decreases |s|
  {
    match FirstSplitPoint(s, 0)
    case None => [s]
    case Some(k) =>
      var rest := SplitAtBullets(s[k + 1..]);
      SplitCons(s, k, rest);
      [s[..k], "\n"] + rest
  }

  /** One split step: the text before the first split point, the newline, then the pieces
      of what follows. */
  lemma SplitCons(s: string, k: nat, rest: seq<string>)
    requires FirstSplitPoint(s, 0) == Some(k)
    requires Concat(rest) == s[k + 1..] && WellSplit(rest)
    requires rest[0] != [] && rest[0][0] == s[k + 1]
    ensures var ps := [s[..k], "\n"] + rest;
      && Concat(ps) == s
      && WellSplit(ps)
      && (s[0] != '\n' ==> ps[0] != [] && ps[0][0] == s[0])
  {
    var head := s[..k];
    assert forall j :: !SplitPoint(head, j) by {
      forall j | SplitPoint(head, j) ensures false {
        assert SplitPoint(s, j);
      }
    }
    WellSplitCons(head, rest);
    var ps := [head, "\n"] + rest;
    assert ps[1..] == ["\n"] + rest;
    assert Concat(ps) == head + "\n" + Concat(rest);
    assert s == head + "\n" + s[k + 1..];
  }

  /** How many leading pieces the accumulation loop keeps, starting from `acc`: it appends
      a piece while the running string stays within `maxLen` and stops at the first piece
      that would overflow. */
  function KeptCount(ps: seq<string>, acc: string, maxLen: int): (k: nat)
    ensures k <= |ps|
    ensures k > 0 ==> |acc + Concat(ps[..k])| <= maxLen
    ensures k < |ps| ==> |acc + Concat(ps[..k]) + ps[k]| > maxLen
    decreases |ps|
  {
    if ps == [] then 0
    else if |acc + ps[0]| <= maxLen then
      var k' := KeptCount(ps[1..], acc + ps[0], maxLen);
      assert ps[..k' + 1] == [ps[0]] + ps[1..][..k'];
      ConcatAppend([ps[0]], ps[1..][..k']);
      assert Concat(ps[..k' + 1]) == ps[0] + Concat(ps[1..][..k']);
      assert k' + 1 < |ps| ==> ps[k' + 1] == ps[1..][k'];
      k' + 1
    else
      0
  }

  /** The string the accumulation loop builds for a text longer than `maxLen`: whole
      leading pieces only, within `maxLen` unless no piece fits, and a prefix of the text. */
  function Accumulated(text: string, maxLen: int): (r: string)
    ensures r <= text
    ensures |r| <= maxLen || r == ""
    ensures var ps := SplitAtBullets(text); var k := KeptCount(ps, "", maxLen);
      r == Concat(ps[..k]) && (k < |ps| ==> |r + ps[k]| > maxLen)
  {
    var ps := SplitAtBullets(text);
    var k := KeptCount(ps, "", maxLen);
    ConcatPrefix(ps, k);
    assert "" + Concat(ps[..k]) == Concat(ps[..k]);
    Concat(ps[..k])
  }

  /** `get_preview_content(text, max_length)`. */
  function GetPreviewContent(text: string, maxLen: int): (r: string)
    ensures text == "" || |text| <= maxLen ==> r == text
    ensures text != "" && |text| > maxLen ==> r == PyStrip(Accumulated(text, maxLen)) + "..."
    ensures text != "" && |text| > maxLen ==> |r| >= 3 && r[|r| - 3..] == "..."
    ensures |text| > maxLen && maxLen >= 0 ==> |r| <= maxLen + 3
    ensures text != "" && |text| > maxLen && |SplitAtBullets(text)[0]| > maxLen ==> r == "..."
  {
    if text == "" || |text| <= maxLen then text
    else
      var result := Accumulated(text, maxLen);
      if |text| > |result| then
        var ps := SplitAtBullets(text);
        assert |ps[0]| > maxLen ==> KeptCount(ps, "", maxLen) == 0 && ps[..0] == [];
        PyStrip(result) + "..."
      else
        result
  }

  /** The bullet split of the two-paragraph example text. */
  lemma SplitExample()
    ensures SplitAtBullets("□ A\n□ B") == ["□ A", "\n", "□ B"]
  {
    var s := "□ A\n□ B";
    assert SplitPoint(s, 3);
    assert FirstSplitPoint(s, 0) == Some(3);
    var tail := s[4..];
    assert tail == "□ B";
    assert !SplitPoint(tail, 0) && !SplitPoint(tail, 1);
    assert FirstSplitPoint(tail, 0) == None;
    assert SplitAtBullets(tail) == [tail];
    assert s[..3] == "□ A";
    assert SplitAtBullets(s) == [s[..3], "\n"] + SplitAtBullets(tail);
  }

  lemma AccumulatedExample(m: int)
    requires 3 <= m <= 6
    ensures Accumulated("□ A\n□ B", m) == if m == 3 then "□ A" else "□ A\n"
  {
    SplitExample();
    var ps := SplitAtBullets("□ A\n□ B");
    var k := KeptCount(ps, "", m);
    assert ps[..1] == ["□ A"];
    assert ps[..2] == ["□ A", "\n"];
    assert Concat(ps[..2]) == "□ A\n";
    assert ps[..3] == ps;
    if m == 3 {
      assert k == 1;
    } else {
      assert k != 3 && k != 1 && k != 0;
    }
  }

  lemma StripExample()
    ensures PyStrip("□ A\n") == "□ A" && PyStrip("□ A") == "□ A"
  {
    var acc := "□ A\n";
    assert TrimLeft(acc, IsPySpace) == acc;
    assert acc[..|acc| - 1] == "□ A";
    assert TrimRight(acc, IsPySpace) == TrimRight("□ A", IsPySpace);
  }

  lemma StrippedExample(m: int)
    requires 3 <= m <= 6
    ensures PyStrip(Accumulated("□ A\n□ B", m)) == "□ A"
  {
    AccumulatedExample(m);
    StripExample();
  }

  /** A text whose second bullet paragraph does not fit is cut after the first one; the
      preview never keeps part of "□ B". */
  lemma PreviewKeepsWholeBulletParagraphs(m: int)
    requires 3 <= m <= 6
    ensures GetPreviewContent("□ A\n□ B", m) == "□ A..."
  {
    var t := "□ A\n□ B";
    assert |t| == 7;
    LongTextPreview(t, m);
    StrippedExample(m);
    EllipsisExample();
  }

  lemma EllipsisExample()
    ensures "□ A" + "..." == "□ A..."
  {
  }

  lemma LongTextPreview(text: string, maxLen: int)
    requires |text| > maxLen && maxLen >= 0
    ensures GetPreviewContent(text, maxLen) == PyStrip(Accumulated(text, maxLen)) + "..."
  {
  }
}

=== FILE: json_model.dfy ===
/** Decoded JSON values and the few Python operations the back end applies to them
    (`in`, `d[k]`, `d.get(k, default)`, truthiness, `len`). An operation Python would
    raise on is a `Failure` carrying the exception kind. */
module JsonModel {
  import opened Wrappers
  import opened Text

  datatype Json =
    | JNull
    | JBool(b: bool)
    | JInt(i: int)
    | JFloat(f: real)
    | JStr(s: string)
    | JArr(elems: seq<Json>)
    | JObj(fields: map<string, Json>)

  /** The Python exceptions the modelled code can raise on an unexpected shape. */
  datatype PyError = TypeError | AttributeError | KeyError(key: string)

  /** Python truthiness of a decoded value. */
  predicate Truthy(v: Json) {
    match v
    case JNull => false
    case JBool(b) => b
    case JInt(i) => i != 0
    case JFloat(f) => f != 0.0
    case JStr(s) => s != ""
    case JArr(e) => e != []
    case JObj(m) => m != map[]
  }

  /** JavaScript truthiness of a decoded JSON value: every array and object is truthy. */
  predicate JsTruthy(v: Json) {
    match v
    case JNull => false
    case JBool(b) => b
    case JInt(i) => i != 0
    case JFloat(f) => f != 0.0
    case JStr(s) => s != ""
    case JArr(_) => true
    case JObj(_) => true
  }

  /** The two languages disagree exactly on the empty array and the empty object, which
      only JavaScript treats as true. */
  lemma TruthinessDiffers(v: Json)
    ensures Truthy(v) != JsTruthy(v) <==> v == JArr([]) || v == JObj(map[])
    ensures Truthy(v) ==> JsTruthy(v)
  {
  }

  /** `key in v` for a string key: dict membership, list element equality, substring
      test on a string; a number, boolean or None is not a container. */
  function In(key: string, v: Json): (r: Result<bool, PyError>)
    ensures v.JObj? ==> r == Success(key in v.fields)
  {
    match v
    case JObj(m) => Success(key in m)
    case JArr(e) => Success(JStr(key) in e)
    case JStr(s) => Success(Contains(s, key))
    case _ => Failure(TypeError)
  }

  /** `v[key]` for a string key. */
  function Index(v: Json, key: string): (r: Result<Json, PyError>)
    ensures r.Success? <==> v.JObj? && key in v.fields
    ensures r.Success? ==> r.value == v.fields[key]
  {
    match v
    case JObj(m) => if key in m then Success(m[key]) else Failure(KeyError(key))
    case _ => Failure(TypeError)
  }

  /** `v.get(key, default)`; only a dict has a `get` method. */
  function Get(v: Json, key: string, default: Json): (r: Result<Json, PyError>)
    ensures r.Success? <==> v.JObj?
    ensures v.JObj? ==> r.value == if key in v.fields then v.fields[key] else default
  {
    match v
    case JObj(m) => Success(if key in m then m[key] else default)
    case _ => Failure(AttributeError)
  }

  /** `x in container` for an arbitrary element `x`: list membership by equality,
      substring test (only for a string element), dict key membership (a list or dict
      element is unhashable). */
  function Member(container: Json, x: Json): Result<bool, PyError> {
    match container
    case JArr(e) => Success(x in e)
    case JStr(s) => if x.JStr? then Success(Contains(s, x.s)) else Failure(TypeError)
    case JObj(m) =>
      if x.JArr? || x.JObj? then Failure(TypeError)
      else Success(x.JStr? && x.s in m)
    case _ => Failure(TypeError)
  }

  /** `len(v)` for the sized values. */
  function Len(v: Json): Result<nat, PyError> {
    match v
    case JStr(s) => Success(|s|)
    case JArr(e) => Success(|e|)
    case JObj(m) => Success(|m|)
    case _ => Failure(TypeError)
  }

  /** The text an f-string renders for a value. It agrees with Python's `str()` on
      `None`, booleans, integers and strings; a float, list or dict renders as a fixed
      placeholder, since Python's float and container formatting is not modelled. */
  function PyStr(v: Json): string {
    match v
    case JNull => "None"
    case JBool(b) => if b then "True" else "False"
    case JInt(i) => IntToString(i)
    case JStr(s) => s
    case JFloat(_) => "<float>"
    case JArr(_) => "<list>"
    case JObj(_) => "<dict>"
  }

  /** A stand-in for `str(e)` of an exception raised while reshaping a payload. It is
      exact for a `KeyError` (the quoted key); a `TypeError` or `AttributeError` gives
      its class name, where Python's message would also name the types involved. */
  function ErrorDetail(e: PyError): string {
    match e
    case TypeError => "TypeError"
    case AttributeError => "AttributeError"
    case KeyError(k) => "'" + k + "'"
  }
}

=== FILE: legacy_client.dfy ===
/** The older stand-alone search client: one press-release request without retries,
    inline response handling, and the multi-page collection loop. */
module LegacyClient {
  import opened Wrappers
  import opened Text
  import opened JsonModel
  import opened GovernmentApi
  import Config

  /** The press-release operation, `http://apis.data.go.kr/1741000/publicDoc/getDocPress`. */
  const LEGACY_URL: string := Config.API_BASE_URL + "/getDocPress"
  const PAGE_SIZE: int := 50

  /** The query parameters: `title` only for a non-empty keyword, never `manager`. */
  function LegacyParams(apiKey: string, keyword: string, page: int, perPage: int): (ps: seq<Param>)
    ensures ParamNames(ps) == ["serviceKey", "pageNo", "numOfRows", "type"] + (if keyword != "" then ["title"] else [])
    ensures "manager" !in ParamNames(ps)
    ensures keyword != "" ==> ps[4].value == PStr(keyword)
  {
    var base := [
      Param("serviceKey", PStr(apiKey)),
      Param("pageNo", PInt(page)),
      Param("numOfRows", PInt(perPage)),
      Param("type", PStr("json"))];
    if keyword != "" then base + [Param("title", PStr(keyword))] else base
  }

  /** For a non-empty keyword the older parameters are the newer ones without `manager`. */
  lemma LegacyParamsArePrefix(apiKey: string, d: Config.DocType, keyword: string, page: int, perPage: int, manager: string)
    requires keyword != ""
    ensures LegacyParams(apiKey, keyword, page, perPage) == BuildParams(apiKey, d, keyword, page, perPage, manager)[..5]
  {
  }

  /** The log copy of the request URL: written inline, with the same steps as `MaskApiKey`. */
  function InlineMask(safeUrl: string): (r: string)
    ensures r == MaskApiKey(safeUrl)
  {
    if Contains(safeUrl, "serviceKey=") then
      var keyStart := FindFrom(safeUrl, "serviceKey=", 0).value + 11;
      var keyEnd := if Contains(safeUrl[keyStart..], "&") then FindFrom(safeUrl, "&", keyStart).GetOr(|safeUrl|) else |safeUrl|;
      safeUrl[..keyStart] + "..." + safeUrl[keyEnd..]
    else
      safeUrl
  }

  /** What the older client returns: items and total only, an error, or an exception that
      escapes (its parsing sits outside the request-error handler). */
  datatype LegacyResult =
    | LegacyFound(items: seq<Json>, totalCount: Json)
    | LegacyError(message: string)
    | LegacyRaised(cause: PyError)

  /** The inline normalisation of `body["items"]`. */
  function InlineItems(itemsData: Json): (r: seq<Json>)
    ensures r == ProcessItems(itemsData)
  {
    if itemsData.JArr? then itemsData.elems
    else if itemsData.JObj? && "item" in itemsData.fields then
      var itemData := itemsData.fields["item"];
      if itemData.JArr? then itemData.elems
      else if itemData.JObj? then [itemData]
      else []
    else []
  }

  /** The response handling inside the JSON `try`; a reshaping error escapes. */
  function LegacyParse(data: Json): Result<LegacyResult, PyError> {
    var hasResponse :- In("response", data);
    if !hasResponse then Success(LegacyFound([], JInt(0)))
    else
      var resp :- Index(data, "response");
      var gate :- LegacyHeader(resp);
      if gate.Some? then Success(gate.value)
      else LegacyBody(resp)
  }

  /** The header check: a result code other than `"00"` ends the parse with a message. */
  function LegacyHeader(resp: Json): Result<Option<LegacyResult>, PyError> {
    var hasHeader :- In("header", resp);
    if !hasHeader then Success(None)
    else
      var header :- Index(resp, "header");
      if !header.JObj? then Failure(AttributeError)
      else
        var code := GetOrNull(header.fields, "resultCode");
        var msg := GetOrNull(header.fields, "resultMsg");
        Success(if code != JStr("00") then Some(LegacyError("API 오류: " + PyStr(msg) + " (코드: " + PyStr(code) + ")")) else None)
  }

  /** The body: its total and its inline items. */
  function LegacyBody(resp: Json): Result<LegacyResult, PyError> {
    var hasBody :- In("body", resp);
    if !hasBody then Success(LegacyFound([], JInt(0)))
    else
      var body :- Index(resp, "body");
      if !body.JObj? then Failure(AttributeError)
      else
        var total := if "totalCount" in body.fields then body.fields["totalCount"] else JInt(0);
        var items := if "items" in body.fields then InlineItems(body.fields["items"]) else [];
        Success(LegacyFound(items, total))
  }

  predicate NoResultList(data: Json) {
    match Sub(data, "response")
    case None => true
    case Some(resp) =>
      match Sub(JObj(resp), "body")
      case None => true
      case Some(body) => "resultList" !in body
  }

  /** On payloads without `resultList` the older client agrees with `parse_api_response`:
      the same items and total, the same result-code message, the same exception. */
  lemma LegacyAgreesWithCurrent(data: Json, clean: string -> string)
    requires NoResultList(data)
    ensures match ParseApiResponse(data, "press", clean)
      case Found(items, total, _, _, _) => LegacyParse(data) == Success(LegacyFound(items, total))
      case Failed(ApiResultError(m, c)) => LegacyParse(data) == Success(LegacyError(ErrorText(ApiResultError(m, c))))
      case Failed(ParseFailure(e)) => LegacyParse(data) == Failure(e)
      case Failed(_) => false
  {
    ParseBodyAgrees(data, clean);
  }

  lemma ParseBodyAgrees(data: Json, clean: string -> string)
    requires NoResultList(data)
    ensures match ParseBody(data, "press", clean)
      case Success(Found(items, total, _, _, _)) => LegacyParse(data) == Success(LegacyFound(items, total))
      case Success(Failed(f)) => f.ApiResultError? && LegacyParse(data) == Success(LegacyError(ErrorText(f)))
      case Failure(e) => LegacyParse(data) == Failure(e)
  {
    if data.JObj? && "response" in data.fields {
      var resp := data.fields["response"];
      HeaderAgrees(resp);
      if HeaderFailure(resp) == Success(None) {
        BodyAgrees(resp, clean);
      }
    }
  }

  lemma HeaderAgrees(resp: Json)
    ensures match HeaderFailure(resp)
      case Success(None) => LegacyHeader(resp) == Success(None)
      case Success(Some(f)) => f.ApiResultError? && LegacyHeader(resp) == Success(Some(LegacyError(ErrorText(f))))
      case Failure(e) => LegacyHeader(resp) == Failure(e)
  {
  }

  lemma BodyAgrees(resp: Json, clean: string -> string)
    requires resp.JObj? && "body" in resp.fields && resp.fields["body"].JObj? ==>
      "resultList" !in resp.fields["body"].fields
    ensures match BodyStage(resp, "press", clean)
      case Success(Found(items, total, _, _, _)) => LegacyBody(resp) == Success(LegacyFound(items, total))
      case Success(Failed(_)) => false
      case Failure(e) => LegacyBody(resp) == Failure(e)
  {
    if resp.JObj? && "body" in resp.fields && resp.fields["body"].JObj? {
      var m := resp.fields["body"].fields;
      assert "items" !in m || BodyItems(m, "press", clean) == Success(InlineItems(m["items"]));
    }
  }

  const LEGACY_NO_KEY: string := "API 키가 설정되지 않았습니다."
  const LEGACY_CALL_FAILED: string := "API 호출 중 오류가 발생했습니다: "
  const LEGACY_BAD_JSON: string := "API 응답을 JSON으로 파싱할 수 없습니다."

  /** One call of the older client: the request it sent, if any, and what it returned. */
  datatype LegacyCall = LegacyCall(request: Option<Request>, result: LegacyResult)

  /** One call of the older `fetch_government_templates(keyword, page, per_page)`: a single
      attempt whose request errors of every kind share one message. */
  function LegacyFetch(apiKey: Option<string>, keyword: string, page: int, perPage: int,
                       outcome: Transport, parse: string -> Option<Json>): (c: LegacyCall)
    ensures apiKey.None? || apiKey == Some("") ==> c == LegacyCall(None, LegacyError(LEGACY_NO_KEY))
    ensures apiKey.Some? && apiKey != Some("") ==>
      c.request == Some(Request(LEGACY_URL, LegacyParams(apiKey.value, keyword, page, perPage)))
    ensures apiKey.Some? && apiKey != Some("") && !outcome.Delivered? ==>
      c.result == LegacyError(LEGACY_CALL_FAILED + outcome.detail)
    ensures apiKey.Some? && apiKey != Some("") && outcome.Delivered? && parse(outcome.body).None? ==>
      c.result == LegacyError(LEGACY_BAD_JSON)
    ensures apiKey.Some? && apiKey != Some("") && outcome.Delivered? && parse(outcome.body).Some? ==>
      match LegacyParse(parse(outcome.body).value)
      case Success(res) => c.result == res
      case Failure(e) => c.result == LegacyRaised(e)
    ensures c.result.LegacyRaised? ==> outcome.Delivered? && parse(outcome.body).Some?
  {
    match apiKey
    case None => LegacyCall(None, LegacyError(LEGACY_NO_KEY))
    case Some(key) =>
      if key == "" then LegacyCall(None, LegacyError(LEGACY_NO_KEY))
      else
        var request := Some(Request(LEGACY_URL, LegacyParams(key, keyword, page, perPage)));
        if !outcome.Delivered? then LegacyCall(request, LegacyError(LEGACY_CALL_FAILED + outcome.detail))
        else
          match parse(outcome.body)
          case None => LegacyCall(request, LegacyError(LEGACY_BAD_JSON))
          case Some(data) =>
            match LegacyParse(data)
            case Success(res) => LegacyCall(request, res)
            case Failure(e) => LegacyCall(request, LegacyRaised(e))
  }

  /** With a key and a delivered body without `resultList`, the older call asks the same
      operation the newer client uses for press releases and returns what the newer one
      does: the same items and total, the same result-code message, and, where the newer
      client reports a parse error, the exception that escapes the older one. */
  lemma LegacyFetchAgreesWithCurrent(key: string, keyword: string, page: int, perPage: int, body: string,
                                     parse: string -> Option<Json>, clean: string -> string)
    requires key != "" && parse(body).Some? && NoResultList(parse(body).value)
    ensures var c := LegacyFetch(Some(key), keyword, page, perPage, Delivered(body), parse);
      && c.request.Some?
      && c.request.value.url == Config.DefaultSettings(Some(key)).baseUrl + "/" + Config.Endpoint(Config.Press)
      && match TerminalResult(Delivered(body), "press", parse, clean)
         case Found(items, total, _, _, _) => c.result == LegacyFound(items, total)
         case Failed(ApiResultError(m, code)) => c.result == LegacyError(ErrorText(ApiResultError(m, code)))
         case Failed(ParseFailure(e)) => c.result == LegacyRaised(e)
         case Failed(_) => false
  {
    LegacyAgreesWithCurrent(parse(body).value, clean);
    LegacyUrlIsPress(key);
  }

  lemma LegacyUrlIsPress(key: string)
    ensures LEGACY_URL == Config.DefaultSettings(Some(key)).baseUrl + "/" + Config.Endpoint(Config.Press)
  {
    assert "/" + "getDocPress" == "/getDocPress";
    assert Config.API_BASE_URL + "/" + "getDocPress" == Config.API_BASE_URL + ("/" + "getDocPress");
  }

  // ---------------------------------------------------------------- page loop

  function ItemsOf(r: LegacyResult): seq<Json> {
    if r.LegacyFound? then r.items else []
  }

  function ConcatItems(rs: seq<LegacyResult>): seq<Json> {
    if rs == [] then [] else ItemsOf(rs[0]) + ConcatItems(rs[1..])
  }

  lemma ConcatItemsCons(r: LegacyResult, rs: seq<LegacyResult>)
    ensures ConcatItems([r] + rs) == ItemsOf(r) + ConcatItems(rs)
  {
    assert ([r] + rs)[1..] == rs;
  }

  /** A page after which the loop goes on: a found page of `PAGE_SIZE` items or more. */
  predicate FullPage(r: LegacyResult) {
    r.LegacyFound? && |r.items| >= PAGE_SIZE
  }

  /** A page after which the loop stops quietly: an error reply or a short found page. */
  predicate EndsLoop(r: LegacyResult) {
    r.LegacyError? || (r.LegacyFound? && |r.items| < PAGE_SIZE)
  }

  /** How the collection loop ended: the pages requested, the templates gathered, and
      the exception that escaped, if any. */
  datatype AllRun = AllRun(templates: seq<Json>, requested: nat, raised: Option<PyError>)

  /** `fetch_all_templates` from page `page` on; `pages[p - 1]` is the result for page `p`. */
  function FetchAllFrom(pages: seq<LegacyResult>, page: nat, maxPages: int, acc: seq<Json>): (run: AllRun)
    requires 1 <= page
    requires |pages| >= maxPages
    ensures page - 1 <= run.requested
    ensures page <= maxPages ==> page <= run.requested <= maxPages
    ensures page > maxPages ==> run == AllRun(acc, page - 1, None)
    ensures run.raised.None? && page <= maxPages ==> run.templates == acc + ConcatItems(pages[page - 1..run.requested])
    ensures run.raised.Some? ==> pages[run.requested - 1] == LegacyRaised(run.raised.value)
    ensures run.raised.Some? <==> page <= run.requested && pages[run.requested - 1].LegacyRaised?
    decreases maxPages - page
  {
    if page > maxPages then AllRun(acc, page - 1, None)
    else
      var here := pages[page - 1];
      match here
      case LegacyError(_) => ConcatOne(pages, page); AllRun(acc, page, None)
      case LegacyRaised(e) => AllRun(acc, page, Some(e))
      case LegacyFound(items, _) =>
        if items == [] || |items| < PAGE_SIZE then ConcatOne(pages, page); AllRun(acc + items, page, None)
        else
          var run := FetchAllFrom(pages, page + 1, maxPages, acc + items);
          var rest := pages[page..run.requested];
          SliceCons(pages, page, run.requested);
          ConcatItemsCons(here, rest);
          run
  }

  /** Every page before the last one requested was full, and a loop that stopped before
      `max_pages` without an exception stopped at an error or a short page. */
  lemma FetchAllStops(pages: seq<LegacyResult>, page: nat, maxPages: int, acc: seq<Json>)
    requires 1 <= page
    requires |pages| >= maxPages
    ensures var run := FetchAllFrom(pages, page, maxPages, acc);
      && (forall p :: page - 1 <= p < run.requested - 1 ==> FullPage(pages[p]))
      && (run.raised.None? && page <= run.requested < maxPages ==> EndsLoop(pages[run.requested - 1]))
  {
    FetchAllFull(pages, page, maxPages, acc);
    FetchAllEnds(pages, page, maxPages, acc);
    assert FullBefore(pages, FetchAllFrom(pages, page, maxPages, acc), page);
    assert EndedShort(pages, FetchAllFrom(pages, page, maxPages, acc), page, maxPages);
  }

  /** A full page sends the loop on to the next page with its items gathered. */
  lemma FetchAllStep(pages: seq<LegacyResult>, page: nat, maxPages: int, acc: seq<Json>)
    requires 1 <= page <= maxPages
    requires |pages| >= maxPages
    requires FullPage(pages[page - 1])
    ensures FetchAllFrom(pages, page, maxPages, acc)
      == FetchAllFrom(pages, page + 1, maxPages, acc + pages[page - 1].items)
  {
  }

  /** A page that is neither full nor raised stops the loop where it is. */
  lemma FetchAllHalt(pages: seq<LegacyResult>, page: nat, maxPages: int, acc: seq<Json>)
    requires 1 <= page <= maxPages
    requires |pages| >= maxPages
    requires !FullPage(pages[page - 1])
    ensures var run := FetchAllFrom(pages, page, maxPages, acc);
      run.requested == page && (run.raised.None? ==> EndsLoop(pages[page - 1]))
  {
  }

  /** Every page from `page` up to the one before the last requested was full. */
  predicate FullBefore(pages: seq<LegacyResult>, run: AllRun, page: int) {
    forall p :: page - 1 <= p < run.requested - 1 && 0 <= p < |pages| ==> FullPage(pages[p])
  }

  lemma {:induction false} FetchAllFull(pages: seq<LegacyResult>, page: nat, maxPages: int, acc: seq<Json>)
    requires 1 <= page
    requires |pages| >= maxPages
    ensures FullBefore(pages, FetchAllFrom(pages, page, maxPages, acc), page)
    decreases maxPages - page
  {
    if page <= maxPages {
      if FullPage(pages[page - 1]) {
        var next := FetchAllFrom(pages, page + 1, maxPages, acc + pages[page - 1].items);
        FetchAllStep(pages, page, maxPages, acc);
        FetchAllFull(pages, page + 1, maxPages, acc + pages[page - 1].items);
        FullBeforeBack(pages, next, page);
      } else {
        FetchAllHalt(pages, page, maxPages, acc);
      }
    }
  }

  /** A full page in front of a run whose pages were full keeps them all full. */
  lemma FullBeforeBack(pages: seq<LegacyResult>, run: AllRun, page: int)
    requires 0 <= page - 1 < |pages| && FullPage(pages[page - 1])
    requires FullBefore(pages, run, page + 1)
    ensures FullBefore(pages, run, page)
  {
  }

  /** A run that stopped early at page `run.requested`, with no exception, stopped at
      an error or a short page. */
  predicate EndedShort(pages: seq<LegacyResult>, run: AllRun, page: int, maxPages: int) {
    run.raised.None? && 0 < page <= run.requested < maxPages && run.requested <= |pages| ==>
      EndsLoop(pages[run.requested - 1])
  }

  lemma {:induction false} FetchAllEnds(pages: seq<LegacyResult>, page: nat, maxPages: int, acc: seq<Json>)
    requires 1 <= page
    requires |pages| >= maxPages
    ensures EndedShort(pages, FetchAllFrom(pages, page, maxPages, acc), page, maxPages)
    decreases maxPages - page
  {
    var run := FetchAllFrom(pages, page, maxPages, acc);
    if page <= maxPages {
      if FullPage(pages[page - 1]) {
        var next := FetchAllFrom(pages, page + 1, maxPages, acc + pages[page - 1].items);
        FetchAllStep(pages, page, maxPages, acc);
        FetchAllEnds(pages, page + 1, maxPages, acc + pages[page - 1].items);
        EndedShortBack(pages, next, page, maxPages);
      } else {
        FetchAllHalt(pages, page, maxPages, acc);
      }
    }
  }

  /** One full page before a run that ended short still ends short. */
  lemma EndedShortBack(pages: seq<LegacyResult>, run: AllRun, page: int, maxPages: int)
    requires page < maxPages ==> page + 1 <= run.requested
    requires page == maxPages ==> run.requested == page
    requires EndedShort(pages, run, page + 1, maxPages)
    ensures EndedShort(pages, run, page, maxPages)
  {
  }

  lemma ConcatOne(pages: seq<LegacyResult>, page: nat)
    requires 1 <= page <= |pages|
    ensures ConcatItems(pages[page - 1..page]) == ItemsOf(pages[page - 1])
  {
    assert pages[page - 1..page] == [pages[page - 1]];
    ConcatItemsCons(pages[page - 1], []);
  }

  lemma SliceCons<T>(s: seq<T>, lo: nat, hi: nat)
    requires 1 <= lo <= hi <= |s|
    ensures s[lo - 1..hi] == [s[lo - 1]] + s[lo..hi]
  {
  }

  /** `fetch_all_templates(keyword, max_pages)` over the per-page results. */
  function FetchAllTemplates(pages: seq<LegacyResult>, maxPages: int): (run: AllRun)
    requires |pages| >= maxPages
    ensures run.requested <= if maxPages < 0 then 0 else maxPages
    ensures maxPages >= 1 ==> run.requested >= 1
    ensures run.raised.Some? <==> run.requested >= 1 && pages[run.requested - 1].LegacyRaised?
    ensures run.raised.Some? ==> pages[run.requested - 1] == LegacyRaised(run.raised.value)
    ensures run.raised.None? ==> run.templates == ConcatItems(pages[..run.requested])
    ensures forall p :: 0 <= p < run.requested - 1 ==> FullPage(pages[p])
    ensures run.requested < maxPages && run.raised.None? && run.requested > 0 ==>
      var last := pages[run.requested - 1];
      EndsLoop(last)
  {
    var run := FetchAllFrom(pages, 1, maxPages, []);
    FetchAllStops(pages, 1, maxPages, []);
    assert pages[0..run.requested] == pages[..run.requested];
    run
  }

  /** When every page holds at most `PAGE_SIZE` items, the loop gathers at most
      `PAGE_SIZE * max_pages` templates. */
  lemma {:induction false} FetchAllBounded(pages: seq<LegacyResult>, maxPages: int)
    requires |pages| >= maxPages
    requires forall p :: 0 <= p < |pages| ==> |ItemsOf(pages[p])| <= PAGE_SIZE
    ensures var run := FetchAllTemplates(pages, maxPages);
      run.raised.None? ==> |run.templates| <= PAGE_SIZE * (if maxPages < 0 then 0 else maxPages)
  {
    var run := FetchAllTemplates(pages, maxPages);
    if run.raised.None? {
      ConcatItemsBounded(pages[..run.requested]);
    }
  }

  lemma {:induction false} ConcatItemsBounded(rs: seq<LegacyResult>)
    requires forall p :: 0 <= p < |rs| ==> |ItemsOf(rs[p])| <= PAGE_SIZE
    ensures |ConcatItems(rs)| <= PAGE_SIZE * |rs|
    decreases |rs|
  {
    if rs != [] {
      ConcatItemsBounded(rs[1..]);
    }
  }

  /** The per-page results of the collection loop: page `p` asks for page number `p` with
      `PAGE_SIZE` rows. */
  function PageResults(apiKey: Option<string>, keyword: string, maxPages: int, outcomes: seq<Transport>,
                       parse: string -> Option<Json>): (pages: seq<LegacyResult>)
    requires |outcomes| >= maxPages
    ensures |pages| == if maxPages < 0 then 0 else maxPages
    ensures forall p :: 0 <= p < |pages| ==>
      pages[p] == LegacyFetch(apiKey, keyword, p + 1, PAGE_SIZE, outcomes[p], parse).result
  {
    seq(if maxPages < 0 then 0 else maxPages,
        p requires 0 <= p < |outcomes| => LegacyFetch(apiKey, keyword, p + 1, PAGE_SIZE, outcomes[p], parse).result)
  }

  /** With a key, the request behind page `p` (counting from 1) carries `pageNo = p` and
      `numOfRows = 50`. */
  lemma PageRequest(key: string, keyword: string, p: int, outcome: Transport, parse: string -> Option<Json>)
    requires key != ""
    ensures var c := LegacyFetch(Some(key), keyword, p, PAGE_SIZE, outcome, parse);
      && c.request.Some? && c.request.value.url == LEGACY_URL
      && c.request.value.params[1] == Param("pageNo", PInt(p))
      && c.request.value.params[2] == Param("numOfRows", PInt(50))
  {
  }

  /** Without an API key the loop stops after the first request, with nothing gathered. */
  lemma MissingKeyStopsAtOnce(keyword: string, outcomes: seq<Transport>, maxPages: int, parse: string -> Option<Json>)
    requires |outcomes| >= maxPages >= 1
    ensures FetchAllTemplates(PageResults(None, keyword, maxPages, outcomes, parse), maxPages) == AllRun([], 1, None)
  {
  }
}

=== FILE: openai_api.dfy ===
/** The completion client: HTML tag stripping, the retrying completion call with
    exponential backoff, JSON extraction from a model reply, the template and document
    analyses, and report-prompt assembly. The completion service is a sequence of
    per-attempt outcomes and `json.loads` is the oracle `parse`. */
module OpenAiApi {
  import opened Wrappers
  import opened Text
  import opened JsonModel
  import opened TokenUtils

  // ------------------------------------------------------------ remove_html_tags

  /** Where, in the text `t` that follows a '<', the lazy match `<.*?>` closes: the first
      '>' with no newline before it (`.` never matches a newline). */
  function LineTagEnd(t: string): (r: Option<nat>)
    ensures r.Some? ==> r.value < |t| && t[r.value] == '>'
    ensures r.Some? ==> forall j :: 0 <= j < r.value ==> t[j] != '>' && t[j] != '\n'
    ensures r.None? ==> forall j :: 0 <= j < |t| && t[j] == '>' ==> '\n' in t[..j]
  {
    if t == [] then None
    else if t[0] == '>' then Some(0)
    else if t[0] == '\n' then None
    else
      match LineTagEnd(t[1..])
      case None =>
        assert forall j :: 1 <= j < |t| && t[j] == '>' ==> '\n' in t[..j] by {
          forall j | 1 <= j < |t| && t[j] == '>'
            ensures '\n' in t[..j]
          {
            assert t[1..][j - 1] == '>';
            assert t[..j] == [t[0]] + t[1..][..j - 1];
          }
        }
        None
      case Some(k) => Some(k + 1)
  }

  /** No '<' of `s` is closed by a '>' later on its line: nothing left that `<.*?>` matches. */
  predicate TagFree(s: string) {
    forall i :: 0 <= i < |s| ==> UnclosedAt(s, i)
  }

  /** The character at `i` does not open a tag that closes on its line. */
  predicate UnclosedAt(s: string, i: nat)
    requires i < |s|
  {
    s[i] == '<' ==> LineTagEnd(s[i + 1..]).None?
  }

  /** `re.sub(r"<.*?>", " ", s)`: scanning left to right, each '<' that closes on its own
      line starts a tag, and the tag up to the closing '>' becomes one space. */
  function ReplaceTags(s: string): (r: string)
    decreases |s|
  {
    if s == [] then []
    else if s[0] == '<' && LineTagEnd(s[1..]).Some? then
      " " + ReplaceTags(s[LineTagEnd(s[1..]).value + 2..])
    else
      [s[0]] + ReplaceTags(s[1..])
  }

  lemma TagFreeCons(c: char, rest: string)
    requires TagFree(rest)
    requires c == '<' ==> LineTagEnd(rest).None?
    ensures TagFree([c] + rest)
  {
    var r := [c] + rest;
    forall i | 0 <= i < |r|
      ensures UnclosedAt(r, i)
    {
      ConsSuffix(c, rest, i + 1);
      if i > 0 {
        assert UnclosedAt(rest, i - 1);
        assert r[i] == rest[i - 1];
      }
    }
  }

  lemma ConsSuffix<T>(c: T, rest: seq<T>, i: nat)
    requires 1 <= i <= |rest| + 1
    ensures ([c] + rest)[i..] == rest[i - 1..]
  {
  }

  /** Text in which no '>' closes the current line keeps that property through the
      substitution: an unclosed '<' stays unclosed. */
  lemma {:induction false} KeepsOpenTag(t: string)
    requires LineTagEnd(t).None?
    ensures LineTagEnd(ReplaceTags(t)).None?
    decreases |t|
  {
    if t != [] && t[0] != '\n' {
      assert LineTagEnd(t[1..]).None?;
      KeepsOpenTag(t[1..]);
      var r := ReplaceTags(t);
      assert r == [t[0]] + ReplaceTags(t[1..]);
      assert r[1..] == ReplaceTags(t[1..]);
    }
  }

  /** After the substitution no tag is left that the pattern would still match. */
  lemma {:induction false} ReplaceTagsTagFree(s: string)
    ensures TagFree(ReplaceTags(s))
    decreases |s|
  {
    if s != [] {
      if s[0] == '<' && LineTagEnd(s[1..]).Some? {
        var k := LineTagEnd(s[1..]).value;
        ReplaceTagsTagFree(s[k + 2..]);
        TagFreeCons(' ', ReplaceTags(s[k + 2..]));
      } else {
        ReplaceTagsTagFree(s[1..]);
        if s[0] == '<' {
          KeepsOpenTag(s[1..]);
        }
        TagFreeCons(s[0], ReplaceTags(s[1..]));
      }
    }
  }

  /** Text without '<' has no tag to replace. */
  lemma {:induction false} ReplaceTagsPlain(s: string)
    requires '<' !in s
    ensures ReplaceTags(s) == s
    decreases |s|
  {
    if s != [] {
      assert '<' !in s[1..];
      ReplaceTagsPlain(s[1..]);
    }
  }

  /** Every whitespace character is a plain space and no two whitespace characters
      are adjacent. */
  predicate SingleSpaced(s: string) {
    && (forall i :: 0 <= i < |s| && IsPySpace(s[i]) ==> s[i] == ' ')
    && (forall i :: 0 <= i < |s| - 1 ==> !(IsPySpace(s[i]) && IsPySpace(s[i + 1])))
  }

  lemma SingleSpacedCons(c: char, rest: string)
    requires SingleSpaced(rest)
    requires IsPySpace(c) ==> c == ' ' && (rest == [] || !IsPySpace(rest[0]))
    ensures SingleSpaced([c] + rest)
  {
    var r := [c] + rest;
    forall i | 1 <= i < |r|
      ensures r[i] == rest[i - 1]
    {
    }
  }

  lemma SingleSpacedSlice(s: string, a: nat, b: nat)
    requires SingleSpaced(s) && a <= b <= |s|
    ensures SingleSpaced(s[a..b])
  {
    var t := s[a..b];
    forall i | 0 <= i < |t|
      ensures t[i] == s[a + i]
    {
    }
  }

  /** `re.sub(r"\s+", " ", s)`: every maximal whitespace run becomes one space. */
  function Collapse(s: string): (r: string)
    ensures s != [] && !IsPySpace(s[0]) ==> r != [] && r[0] == s[0]
    ensures SingleSpaced(r)
    decreases |s|
  {
    if s == [] then []
    else if IsPySpace(s[0]) then
      var rest := Collapse(TrimLeft(s[1..], IsPySpace));
      SingleSpacedCons(' ', rest);
      " " + rest
    else
      var rest := Collapse(s[1..]);
      SingleSpacedCons(s[0], rest);
      [s[0]] + rest
  }

  /** The non-whitespace characters of `s`, in order. */
  function Squeeze(s: string): string {
    if s == [] then [] else (if IsPySpace(s[0]) then [] else [s[0]]) + Squeeze(s[1..])
  }

  lemma {:induction false} SqueezeAppend(a: string, b: string)
    ensures Squeeze(a + b) == Squeeze(a) + Squeeze(b)
    decreases |a|
  {
    if a == [] {
      assert a + b == b;
    } else {
      assert (a + b)[0] == a[0];
      assert (a + b)[1..] == a[1..] + b;
      SqueezeAppend(a[1..], b);
    }
  }

  lemma {:induction false} SqueezeSpace(a: string)
    requires AllSpace(a, IsPySpace)
    ensures Squeeze(a) == []
    decreases |a|
  {
    if a != [] {
      SqueezeSpace(a[1..]);
    }
  }

  /** Collapsing changes whitespace only. */
  lemma {:induction false} CollapseSqueeze(s: string)
    ensures Squeeze(Collapse(s)) == Squeeze(s)
    decreases |s|
  {
    if s != [] {
      if IsPySpace(s[0]) {
        var t := TrimLeft(s[1..], IsPySpace);
        CollapseSqueeze(t);
        CollapseSpaceUnfold(s);
        SqueezeAppend(" ", Collapse(t));
        SqueezeSkipsSpaceRun(s);
      } else {
        CollapseSqueeze(s[1..]);
        CollapseCharUnfold(s);
        SqueezeAppend([s[0]], Collapse(s[1..]));
      }
    }
  }

  lemma CollapseSpaceUnfold(s: string)
    requires s != [] && IsPySpace(s[0])
    ensures Collapse(s) == " " + Collapse(TrimLeft(s[1..], IsPySpace))
  {
  }

  lemma CollapseCharUnfold(s: string)
    requires s != [] && !IsPySpace(s[0])
    ensures Collapse(s) == [s[0]] + Collapse(s[1..])
  {
  }

  lemma SqueezeSkipsSpaceRun(s: string)
    requires s != [] && IsPySpace(s[0])
    ensures Squeeze(s) == Squeeze(TrimLeft(s[1..], IsPySpace))
  {
    SqueezeTrimLeft(s[1..]);
    assert Squeeze(s) == [] + Squeeze(s[1..]);
  }

  /** Leading whitespace contributes nothing to the squeezed text. */
  lemma {:induction false} SqueezeTrimLeft(u: string)
    ensures Squeeze(TrimLeft(u, IsPySpace)) == Squeeze(u)
    decreases |u|
  {
    if u != [] && IsPySpace(u[0]) {
      SqueezeTrimLeft(u[1..]);
      assert Squeeze(u) == [] + Squeeze(u[1..]);
    }
  }

  /** Text that is already single-spaced is left alone by the collapse. */
  lemma {:induction false} CollapseFixes(s: string)
    requires SingleSpaced(s)
    ensures Collapse(s) == s
    decreases |s|
  {
    if s != [] {
      SingleSpacedSlice(s, 1, |s|);
      CollapseFixes(s[1..]);
      if IsPySpace(s[0]) {
        CollapseSingleSpaceHead(s);
      } else {
        CollapseCharUnfold(s);
      }
      assert s == [s[0]] + s[1..];
    }
  }

  /** A lone leading space of single-spaced text stays one space. */
  lemma CollapseSingleSpaceHead(s: string)
    requires SingleSpaced(s) && s != [] && IsPySpace(s[0])
    ensures s[0] == ' ' && Collapse(s) == " " + Collapse(s[1..])
  {
    assert |s| > 1 ==> !IsPySpace(s[1]) by {
      if |s| > 1 {
        assert !(IsPySpace(s[0]) && IsPySpace(s[1]));
      }
    }
    assert TrimLeft(s[1..], IsPySpace) == s[1..];
  }

  /** `str.strip()` returns a slice of its argument with only whitespace around it. */
  lemma StripSlice(s: string) returns (a: nat)
    ensures a + |PyStrip(s)| <= |s| && PyStrip(s) == s[a..a + |PyStrip(s)|]
    ensures AllSpace(s[..a], IsPySpace) && AllSpace(s[a + |PyStrip(s)|..], IsPySpace)
  {
    a := StripAsSlice(s, IsPySpace);
  }

  lemma StripSingleSpaced(s: string)
    requires SingleSpaced(s)
    ensures SingleSpaced(PyStrip(s))
  {
    var a := StripSlice(s);
    SingleSpacedPart(s, PyStrip(s), a);
  }

  lemma SingleSpacedPart(s: string, r: string, a: nat)
    requires SingleSpaced(s) && a + |r| <= |s| && r == s[a..a + |r|]
    ensures SingleSpaced(r)
  {
    SingleSpacedSlice(s, a, a + |r|);
  }

  lemma SqueezeStrip(s: string)
    ensures Squeeze(PyStrip(s)) == Squeeze(s)
  {
    var a := StripSlice(s);
    var r := PyStrip(s);
    ThreeParts(s, a, a + |r|);
    SqueezeBetweenSpaces(s[..a], r, s[a + |r|..]);
  }

  lemma SqueezeBetweenSpaces(pre: string, r: string, post: string)
    requires AllSpace(pre, IsPySpace) && AllSpace(post, IsPySpace)
    ensures Squeeze(pre + r + post) == Squeeze(r)
  {
    calc {
      Squeeze(pre + r + post);
      { SqueezeAppend(pre + r, post); SqueezeAppend(pre, r); }
      Squeeze(pre) + Squeeze(r) + Squeeze(post);
      { SqueezeSpace(pre); SqueezeSpace(post); }
      [] + Squeeze(r) + [];
      Squeeze(r);
    }
  }

  lemma ThreeParts<T>(s: seq<T>, a: nat, b: nat)
    requires a <= b <= |s|
    ensures s == s[..a] + s[a..b] + s[b..]
  {
  }

  /** `remove_html_tags(text)`. */
  function RemoveHtmlTags(text: string): (r: string)
    ensures text == "" ==> r == ""
    ensures SingleSpaced(r)
    ensures r != [] ==> !IsPySpace(r[0]) && !IsPySpace(r[|r| - 1])
    ensures Squeeze(r) == Squeeze(ReplaceTags(text))
  {
    if text == "" then ""
    else
      var collapsed := Collapse(ReplaceTags(text));
      var r := PyStrip(collapsed);
      StripSingleSpaced(collapsed);
      CollapseSqueeze(ReplaceTags(text));
      SqueezeStrip(collapsed);
      r
  }

  /** Text without '<' keeps all its non-whitespace characters, in order. */
  lemma RemoveHtmlTagsKeepsPlainText(text: string)
    requires '<' !in text
    ensures Squeeze(RemoveHtmlTags(text)) == Squeeze(text)
  {
    ReplaceTagsPlain(text);
  }

  /** Single-spaced, trimmed text without '<' is a fixed point, so the function is
      idempotent whenever its result contains no '<'. */
  lemma RemoveHtmlTagsFixesCleanText(s: string)
    requires '<' !in s && SingleSpaced(s)
    requires s != [] ==> !IsPySpace(s[0]) && !IsPySpace(s[|s| - 1])
    ensures RemoveHtmlTags(s) == s
  {
    if s != [] {
      ReplaceTagsPlain(s);
      CollapseFixes(s);
    }
  }

  lemma RemoveHtmlTagsIdempotent(text: string)
    requires '<' !in RemoveHtmlTags(text)
    ensures RemoveHtmlTags(RemoveHtmlTags(text)) == RemoveHtmlTags(text)
  {
    RemoveHtmlTagsFixesCleanText(RemoveHtmlTags(text));
  }

  // ------------------------------------------------------------ call_openai_api

  datatype Message = Message(role: string, content: string)

  /** A chat message list or a single completion prompt. */
  datatype Prompt = Messages(messages: seq<Message>) | Single(text: string)

  /** The keyword arguments of the completion request. */
  datatype RequestArgs = RequestArgs(prompt: Prompt, model: string, temperature: real, maxTokens: Option<int>)

  /** `request_args`: `max_tokens` is sent only when it is truthy. */
  function MakeRequestArgs(prompt: Prompt, model: string, temperature: real, maxTokens: Option<int>): (a: RequestArgs)
    ensures a.prompt == prompt && a.model == model && a.temperature == temperature
    ensures a.maxTokens.Some? <==> maxTokens.Some? && maxTokens.value != 0
    ensures a.maxTokens.Some? ==> a.maxTokens == maxTokens
  {
    RequestArgs(prompt, model, temperature, if maxTokens == Some(0) then None else maxTokens)
  }

  /** What one attempt of the completion service does. */
  datatype Completion =
    | Completed(text: string, promptTokens: nat, completionTokens: nat)
    | RateLimited(detail: string)
    | ApiFailure(detail: string)
    | Unexpected(detail: string)

  /** Rate limits and API errors are retried; anything else is not. */
  predicate Retryable(c: Completion) {
    c.RateLimited? || c.ApiFailure?
  }

  /** The call's outcome: the stripped reply with its usage, an exception that escapes,
      or falling off the end of the loop (only when no attempt is allowed). The usage is
      priced by handing the two integer counts to the tokenizer, which raises on them,
      so the returned `token_info` is always the zero-filled error dictionary. */
  datatype CallResult =
    | Returned(reply: string, promptTokens: nat, completionTokens: nat, tokenInfo: TokenInfo)
    | Raised(detail: string)
    | NoReturn
  {
    /** `result["content"]`: the reply text with surrounding whitespace stripped. */
    function Content(): string
      requires Returned?
    {
      PyStrip(reply)
    }
  }

  datatype CallRun = CallRun(result: CallResult, attempts: nat, sleeps: seq<real>)

  function Pow2(k: nat): (r: real)
    ensures r >= 1.0
  {
    if k == 0 then 1.0 else 2.0 * Pow2(k - 1)
  }

  /** The delay after `k` doublings of `delay`. */
  function Backoff(delay: real, k: nat): real {
    if k == 0 then delay else 2.0 * Backoff(delay, k - 1)
  }

  lemma {:induction false} BackoffShift(delay: real, k: nat)
    ensures Backoff(delay * 2.0, k) == 2.0 * Backoff(delay, k)
  {
    if k > 0 {
      BackoffShift(delay, k - 1);
    }
  }

  /** The `k`-th sleep (from 0) is `delay * 2^k`. */
  lemma {:induction false} BackoffIsPower(delay: real, k: nat)
    ensures Backoff(delay, k) == delay * Pow2(k)
  {
    if k > 0 {
      BackoffIsPower(delay, k - 1);
      assert 2.0 * (delay * Pow2(k - 1)) == delay * (2.0 * Pow2(k - 1));
    }
  }

  /** The retry loop from attempt `attempt` on, sleeping `delay` before the next attempt. */
  function CallLoop(outcomes: seq<Completion>, attempt: nat, maxRetries: int, delay: real, model: string): (run: CallRun)
    requires |outcomes| >= maxRetries
    ensures run.result.NoReturn? <==> attempt >= maxRetries
    ensures attempt >= maxRetries ==> run.attempts == attempt && run.sleeps == []
    ensures attempt < maxRetries ==> attempt < run.attempts <= maxRetries && |run.sleeps| == run.attempts - attempt - 1
    ensures forall k :: 0 <= k < |run.sleeps| ==> run.sleeps[k] == Backoff(delay, k)
    ensures forall j :: attempt <= j < run.attempts - 1 ==> Retryable(outcomes[j])
    ensures run.result.Returned? ==>
      var last := outcomes[run.attempts - 1];
      && last.Completed?
      && run.result == Returned(last.text, last.promptTokens, last.completionTokens, CostError(model))
    ensures run.result.Raised? ==>
      var last := outcomes[run.attempts - 1];
      && (last.Unexpected? || (Retryable(last) && run.attempts == maxRetries))
      && run.result.detail == last.detail
    decreases maxRetries - attempt
  {
    if attempt >= maxRetries then CallRun(NoReturn, attempt, [])
    else
      match outcomes[attempt]
      case Completed(text, p, c) => CallRun(Returned(text, p, c, CostError(model)), attempt + 1, [])
      case Unexpected(d) => CallRun(Raised(d), attempt + 1, [])
      case _ =>
        if attempt < maxRetries - 1 then
          var rest := CallLoop(outcomes, attempt + 1, maxRetries, delay * 2.0, model);
          var sleeps := [delay] + rest.sleeps;
          assert forall k :: 1 <= k < |sleeps| ==> sleeps[k] == Backoff(delay, k) by {
            forall k | 1 <= k < |sleeps|
              ensures sleeps[k] == Backoff(delay, k)
            {
              assert sleeps[k] == rest.sleeps[k - 1] == Backoff(delay * 2.0, k - 1);
              BackoffShift(delay, k - 1);
            }
          }
          CallRun(rest.result, rest.attempts, sleeps)
        else
          CallRun(Raised(outcomes[attempt].detail), attempt + 1, [])
  }

  const DEFAULT_MAX_RETRIES: int := 3
  const DEFAULT_INITIAL_DELAY: real := 1.0

  /** `call_openai_api` with its default retry settings. */
  function DefaultCall(outcomes: seq<Completion>, model: string): CallRun
    requires |outcomes| >= DEFAULT_MAX_RETRIES
  {
    CallLoop(outcomes, 0, DEFAULT_MAX_RETRIES, DEFAULT_INITIAL_DELAY, model)
  }

  function Sum(xs: seq<real>): real {
    if xs == [] then 0.0 else xs[0] + Sum(xs[1..])
  }

  /** The total time spent waiting over `n` sleeps is `delay * (2^n - 1)`: the delay
      the next retry would have used, less the first one. */
  lemma BackoffTotal(outcomes: seq<Completion>, attempt: nat, maxRetries: int, delay: real, model: string)
    requires |outcomes| >= maxRetries
    ensures var run := CallLoop(outcomes, attempt, maxRetries, delay, model);
      Sum(run.sleeps) == Backoff(delay, |run.sleeps|) - delay
  {
    var run := CallLoop(outcomes, attempt, maxRetries, delay, model);
    GeometricSum(run.sleeps, delay);
  }

  /** Delays that double from `delay` add up to the next delay less the first. */
  lemma {:induction false} GeometricSum(s: seq<real>, delay: real)
    requires forall k :: 0 <= k < |s| ==> s[k] == Backoff(delay, k)
    ensures Sum(s) == Backoff(delay, |s|) - delay
    decreases |s|
  {
    if s != [] {
      forall k | 0 <= k < |s| - 1
        ensures s[1..][k] == Backoff(delay * 2.0, k)
      {
        assert s[1..][k] == s[k + 1];
        BackoffShift(delay, k);
      }
      GeometricSum(s[1..], delay * 2.0);
      BackoffShift(delay, |s| - 1);
    }
  }

  /** When every allowed attempt is rate limited or fails, the last error escapes after
      `maxRetries` attempts and `maxRetries - 1` sleeps. */
  lemma AllRetryableRaises(outcomes: seq<Completion>, maxRetries: int, delay: real, model: string)
    requires 1 <= maxRetries <= |outcomes|
    requires forall j :: 0 <= j < maxRetries ==> Retryable(outcomes[j])
    ensures var run := CallLoop(outcomes, 0, maxRetries, delay, model);
      && run.result.Raised?
      && run.attempts == maxRetries
      && |run.sleeps| == maxRetries - 1
  {
  }

  /** The first completion after only retryable failures is what the call returns. */
  lemma FirstCompletionReturned(outcomes: seq<Completion>, j: nat, maxRetries: int, delay: real, model: string)
    requires j < maxRetries <= |outcomes|
    requires forall i :: 0 <= i < j ==> Retryable(outcomes[i])
    requires outcomes[j].Completed?
    ensures var run := CallLoop(outcomes, 0, maxRetries, delay, model);
      && run.attempts == j + 1
      && run.result.Returned?
      && run.result.Content() == PyStrip(outcomes[j].text)
  {
  }

  // ------------------------------------------------------------ _extract_json_from_markdown

  /** The captured text of a fenced block whose opening fence starts at `i`: "```json\n"
      or "```\n", then the shortest text up to the next "\n```". */
  function FenceAt(text: string, i: nat): (r: Option<string>)
    ensures r.Some? ==>
      var open := if At(text, "```json\n", i) then 8 else 4;
      && (At(text, "```json\n", i) || At(text, "```\n", i))
      && At(text, "\n```", i + open + |r.value|)
      && r.value == text[i + open..i + open + |r.value|]
      && forall j :: i + open <= j < i + open + |r.value| ==> !At(text, "\n```", j)
    ensures r.Some? <==>
      || (At(text, "```json\n", i) && FindFrom(text, "\n```", i + 8).Some?)
      || (At(text, "```\n", i) && FindFrom(text, "\n```", i + 4).Some?)
  {
    if At(text, "```json\n", i) then
      OpeningFencesExclusive(text, i);
      match FindFrom(text, "\n```", i + 8)
      case Some(k) => Some(text[i + 8..k])
      case None => None
    else if At(text, "```\n", i) then
      match FindFrom(text, "\n```", i + 4)
      case Some(k) => Some(text[i + 4..k])
      case None => None
    else None
  }

  /** The two opening fences cannot both start at one position: the fourth character is
      `j` in one and a newline in the other. */
  lemma OpeningFencesExclusive(text: string, i: nat)
    requires At(text, "```json\n", i)
    ensures !At(text, "```\n", i)
  {
    assert text[i + 3] == "```json\n"[3];
  }

  /** The leftmost position where the fenced-block pattern matches. */
  function FindFence(text: string, from: nat): (r: Option<nat>)
    ensures r.Some? ==> from <= r.value && FenceAt(text, r.value).Some?
    ensures r.Some? ==> forall j :: from <= j < r.value ==> FenceAt(text, j).None?
    ensures r.None? ==> forall j :: from <= j ==> FenceAt(text, j).None?
    decreases |text| - from
  {
    if from >= |text| then None
    else if FenceAt(text, from).Some? then Some(from)
    else FindFence(text, from + 1)
  }

  /** `match.group(1)` of the first fenced block, if there is one. */
  function Fenced(text: string): Option<string> {
    match FindFence(text, 0)
    case Some(i) => FenceAt(text, i)
    case None => None
  }

  /** `_extract_json_from_markdown(text)`: the first fenced block if it parses, else the
      whole text if it parses, else the empty dictionary; a parse failure never escapes. */
  function ExtractJson(text: string, parse: string -> Option<Json>): (r: Json)
    ensures Fenced(text).Some? && parse(Fenced(text).value).Some? ==> r == parse(Fenced(text).value).value
    ensures !(Fenced(text).Some? && parse(Fenced(text).value).Some?) && parse(text).Some? ==> r == parse(text).value
    ensures !(Fenced(text).Some? && parse(Fenced(text).value).Some?) && parse(text).None? ==> r == JObj(map[])
  {
    var fenced := match Fenced(text)
      case Some(block) => parse(block)
      case None => None;
    if fenced.Some? then fenced.value
    else if parse(text).Some? then parse(text).value
    else JObj(map[])
  }

  /** The capture stops at the first closing fence. */
  lemma FenceIsLazy()
    ensures Fenced("```\nA\n```\nB\n```") == Some("A")
  {
    var s := "```\nA\n```\nB\n```";
    assert At(s, "```\n", 0);
    assert !At(s, "```json\n", 0) by {
      assert s[3] == '\n';
    }
    assert !At(s, "\n```", 4) by {
      assert s[4] == 'A';
    }
    assert At(s, "\n```", 5);
    FindFromIs(s, "\n```", 4, 5);
    assert s[4..5] == "A";
    assert FenceAt(s, 0) == Some("A");
  }

  /** The "json" tag after the opening backticks is not part of the capture. */
  lemma FenceJsonTagDropped()
    ensures Fenced("```json\n1\n```") == Some("1")
  {
    var s := "```json\n1\n```";
    assert At(s, "```json\n", 0);
    assert !At(s, "\n```", 8) by {
      assert s[8..12][0] == s[8] == '1';
    }
    assert At(s, "\n```", 9);
    FindFromIs(s, "\n```", 8, 9);
    assert s[8..9] == "1";
    assert FenceAt(s, 0) == Some("1");
  }

  /** A reply that is exactly one json-fenced block decodes to the block's value, provided
      the block itself holds no closing fence. */
  lemma FencedReplyRoundTrip(j: string, parse: string -> Option<Json>)
    requires forall p :: !At(j, "\n```", p)
    requires parse(j).Some?
    ensures Fenced("```json\n" + j + "\n```") == Some(j)
    ensures ExtractJson("```json\n" + j + "\n```", parse) == parse(j).value
  {
    var t := "```json\n" + j + "\n```";
    var k := 8 + |j|;
    assert t[..8] == "```json\n";
    assert At(t, "```json\n", 0);
    assert t[k..k + 4] == "\n```";
    forall p | 8 <= p < k
      ensures !At(t, "\n```", p)
    {
      if p + 4 <= k {
        assert t[p..p + 4] == j[p - 8..p - 4];
        assert !At(j, "\n```", p - 8);
      } else {
        assert t[p..p + 4][k - p] == t[k] == '\n' != "\n```"[k - p];
      }
    }
    FindFromIs(t, "\n```", 8, k);
    assert t[8..k] == j;
    assert FenceAt(t, 0) == Some(j);
  }

  /** Text with no run of three backticks has no fenced block, so it is decoded whole. */
  lemma UnfencedReplyDecodedWhole(text: string, parse: string -> Option<Json>)
    requires forall p :: !At(text, "```", p)
    ensures Fenced(text).None?
    ensures ExtractJson(text, parse) == if parse(text).Some? then parse(text).value else JObj(map[])
  {
    forall p: nat
      ensures FenceAt(text, p).None?
    {
      assert !At(text, "```json\n", p) by {
        if p + 8 <= |text| {
          assert text[p..p + 8][..3] == text[p..p + 3];
          assert !At(text, "```", p);
          assert "```json\n"[..3] == "```";
        }
      }
      assert !At(text, "```\n", p) by {
        if p + 4 <= |text| {
          assert text[p..p + 4][..3] == text[p..p + 3];
          assert !At(text, "```", p);
          assert "```\n"[..3] == "```";
        }
      }
    }
  }

  // ------------------------------------------------------------ analyze_templates

  /** A template the analysis prompt can render: a dict with `id`, `title` and `content`. */
  predicate HasTemplateKeys(v: Json) {
    v.JObj? && "id" in v.fields && "title" in v.fields && "content" in v.fields
  }

  /** One template's block of the analysis prompt. */
  function TemplateBlock(item: Json): (r: Result<string, PyError>)
    ensures r.Success? <==> HasTemplateKeys(item)
    ensures !item.JObj? ==> r == Failure(TypeError)
    ensures item.JObj? && "id" !in item.fields ==> r == Failure(KeyError("id"))
    ensures item.JObj? && "id" in item.fields && "title" !in item.fields ==> r == Failure(KeyError("title"))
    ensures r.Success? ==> r.value == "템플릿 ID: " + PyStr(item.fields["id"]) + "\n제목: " + PyStr(item.fields["title"]) + "\n내용:\n" + PyStr(item.fields["content"])
  {
    var id :- Index(item, "id");
    var title :- Index(item, "title");
    var content :- Index(item, "content");
    Success("템플릿 ID: " + PyStr(id) + "\n제목: " + PyStr(title) + "\n내용:\n" + PyStr(content))
  }

  /** The blocks of all templates in input order; the first unrenderable one raises. */
  function TemplateBlocks(items: seq<Json>): (r: Result<seq<string>, PyError>)
    ensures r.Success? <==> forall i :: 0 <= i < |items| ==> HasTemplateKeys(items[i])
    ensures r.Success? ==> |r.value| == |items| && forall i :: 0 <= i < |items| ==> r.value[i] == TemplateBlock(items[i]).value
    ensures r.Failure? ==> exists i :: 0 <= i < |items| && !HasTemplateKeys(items[i]) && r.error == TemplateBlock(items[i]).error
  {
    if items == [] then Success([])
    else
      var head :- TemplateBlock(items[0]);
      var rest :- TemplateBlocks(items[1..]);
      Success([head] + rest)
  }

  const TEMPLATE_SEPARATOR: string := "\n\n===== 템플릿 구분선 =====\n\n"

  const ANALYSIS_SYSTEM_MESSAGE: string := "\n    당신은 문서 템플릿 분석 전문가입니다. 제공된 정부 문서 템플릿을 분석하여 다음 작업을 수행하세요:\n    \n    1. 각 템플릿의 주요 표준 항목을 식별하고 구조화하세요.\n    2. 각 항목에 대한 설명과 예시를 제공하세요.\n    3. 좋은 작성 방법에 대한 간략한 조언을 추가하세요.\n    4. 템플릿의 핵심 키워드를 추출하세요.\n    \n    정확히 다음 JSON 형식으로 응답하세요:\n    \n    ```json\n    {\n      \"templates\": [\n        {\n          \"id\": \"템플릿 ID\",\n          \"title\": \"템플릿 제목\",\n          \"structure\": [\n            {\n              \"name\": \"항목명\",\n              \"description\": \"항목 설명\",\n              \"example\": \"항목 예시\",\n              \"writing_tip\": \"작성 팁\"\n            }\n          ],\n          \"keywords\": [\"키워드1\", \"키워드2\", \"...\"]\n        }\n      ]\n    }\n    ```\n    \n    항목명은 실제 템플릿에서 사용된 정확한 명칭을 사용하세요.\n    "

  const ANALYSIS_USER_HEAD: string := "\n    다음 문서 템플릿을 분석하세요:\n    \n    "
  const ANALYSIS_USER_TAIL: string := "\n    \n    위 템플릿의 표준 항목을 식별하고 각 항목에 대한 설명, 예시, 작성 팁을 제공하세요.\n    형식은 반드시 지정된 JSON 형식으로 응답해주세요.\n    "

  /** `_create_analysis_prompt(template_contents)`. */
  function AnalysisPrompt(items: seq<Json>): (r: Result<seq<Message>, PyError>)
    ensures r.Success? <==> TemplateBlocks(items).Success?
    ensures r.Success? ==> |r.value| == 2 && r.value[0] == Message("system", ANALYSIS_SYSTEM_MESSAGE)
    ensures r.Success? ==> r.value[1] == Message("user", ANALYSIS_USER_HEAD + Join(TEMPLATE_SEPARATOR, TemplateBlocks(items).value) + ANALYSIS_USER_TAIL)
  {
    var blocks :- TemplateBlocks(items);
    Success([
      Message("system", ANALYSIS_SYSTEM_MESSAGE),
      Message("user", ANALYSIS_USER_HEAD + Join(TEMPLATE_SEPARATOR, blocks) + ANALYSIS_USER_TAIL)])
  }

  /** The second element of the returned pair: the token dictionary, or `{"error": detail}`. */
  datatype Usage = Usage(info: TokenInfo) | UsageError(detail: string)

  datatype TemplateAnalysis = TemplateAnalysis(result: Json, usage: Usage)

  /** The pair returned when anything raises. */
  function AnalysisFailure(detail: string): TemplateAnalysis {
    TemplateAnalysis(JObj(map["error" := JStr("템플릿 분석 중 오류: " + detail)]), UsageError(detail))
  }

  /** The replacement for an empty or unparseable analysis. */
  const UNPARSED_ANALYSIS: Json := JObj(map["templates" := JArr([]), "error" := JStr("분석 결과를 파싱할 수 없음")])

  /** `str(e)` for unpacking the `None` that a loop without attempts returns. */
  const UNPACK_NONE: string := "cannot unpack non-iterable NoneType object"

  /** `analyze_templates(template_contents)` over the per-attempt outcomes. */
  function AnalyzeTemplates(items: seq<Json>, outcomes: seq<Completion>, model: string, parse: string -> Option<Json>): (a: TemplateAnalysis)
    requires |outcomes| >= DEFAULT_MAX_RETRIES
    ensures TemplateBlocks(items).Failure? ==> a == AnalysisFailure(ErrorDetail(TemplateBlocks(items).error))
    ensures a.usage.Usage? <==> TemplateBlocks(items).Success? && DefaultCall(outcomes, model).result.Returned?
    ensures a.usage.Usage? ==> a.usage.info == CostError(model) && Truthy(a.result)
    ensures a.usage.Usage? ==>
      var extracted := ExtractJson(DefaultCall(outcomes, model).result.Content(), parse);
      a.result == if Truthy(extracted) then extracted else UNPARSED_ANALYSIS
    ensures a.usage.UsageError? ==> a == AnalysisFailure(a.usage.detail)
    ensures TemplateBlocks(items).Success? && DefaultCall(outcomes, model).result.Raised? ==>
      a == AnalysisFailure(DefaultCall(outcomes, model).result.detail)
  {
    match TemplateBlocks(items)
    case Failure(e) => AnalysisFailure(ErrorDetail(e))
    case Success(_) =>
      match DefaultCall(outcomes, model).result
      case Returned(reply, _, _, info) =>
        var extracted := ExtractJson(PyStrip(reply), parse);
        assert Truthy(UNPARSED_ANALYSIS) by {
          assert "templates" in UNPARSED_ANALYSIS.fields;
        }
        TemplateAnalysis(if Truthy(extracted) then extracted else UNPARSED_ANALYSIS, Usage(info))
      case Raised(d) => AnalysisFailure(d)
      case NoReturn => AnalysisFailure(UNPACK_NONE)
  }

  /** When the prompt renders and the model answers with one json-fenced block holding a
      non-empty analysis, that analysis is what `analyze_templates` returns, priced with
      the reply's usage. */
  lemma AnalysisReturnsFencedTemplates(items: seq<Json>, outcomes: seq<Completion>, model: string, parse: string -> Option<Json>, j: string)
    requires |outcomes| >= DEFAULT_MAX_RETRIES
    requires forall i :: 0 <= i < |items| ==> HasTemplateKeys(items[i])
    requires DefaultCall(outcomes, model).result.Returned?
    requires DefaultCall(outcomes, model).result.Content() == "```json\n" + j + "\n```"
    requires forall p :: !At(j, "\n```", p)
    requires parse(j).Some? && Truthy(parse(j).value)
    ensures AnalyzeTemplates(items, outcomes, model, parse) == TemplateAnalysis(parse(j).value, Usage(CostError(model)))
  {
    FencedReplyRoundTrip(j, parse);
  }

  // ------------------------------------------------------------ analyze_document_with_ai

  const MAX_TEXT_LENGTH: int := 15000

  /** The cleaned text as the prompt embeds it: cut to 15000 characters plus "...". */
  function TruncateForPrompt(clean: string): (r: string)
    ensures |clean| <= MAX_TEXT_LENGTH ==> r == clean
    ensures |clean| > MAX_TEXT_LENGTH ==> |r| == MAX_TEXT_LENGTH + 3 && r[..MAX_TEXT_LENGTH] == clean[..MAX_TEXT_LENGTH] && r[MAX_TEXT_LENGTH..] == "..."
  {
    if |clean| > MAX_TEXT_LENGTH then clean[..MAX_TEXT_LENGTH] + "..." else clean
  }

  /** The markup flags of the fallback, tested on the lower-cased original text. */
  datatype Markup = Markup(hasTable: bool, hasList: bool, hasImage: bool)

  function MarkupOf(text: string): (m: Markup)
    ensures m.hasTable <==> Contains(LowerAscii(text), "<table>")
    ensures m.hasList <==> Contains(LowerAscii(text), "<ul>") || Contains(LowerAscii(text), "<ol>") || Contains(LowerAscii(text), "<li>")
    ensures m.hasImage <==> Contains(LowerAscii(text), "<img")
  {
    var low := LowerAscii(text);
    Markup(Contains(low, "<table>"), Contains(low, "<ul>") || Contains(low, "<ol>") || Contains(low, "<li>"), Contains(low, "<img"))
  }

  /** A table written in upper case is still detected. */
  lemma UpperCaseTableDetected()
    ensures MarkupOf("<TABLE>").hasTable
  {
    var low := LowerAscii("<TABLE>");
    assert low == "<table>";
    ContainsAt(low, "<table>", 0);
  }

  /** The spans `({.*})` with DOTALL captures: from the first '{' to the last '}'. */
  function FirstOf(s: string, c: char): (r: Option<nat>)
    ensures r.Some? ==> r.value < |s| && s[r.value] == c
    ensures r.Some? ==> forall k :: 0 <= k < r.value ==> s[k] != c
    ensures r.None? ==> forall k :: 0 <= k < |s| ==> s[k] != c
    decreases |s|
  {
    if s == [] then None
    else if s[0] == c then Some(0)
    else
      match FirstOf(s[1..], c)
      case None => None
      case Some(k) => Some(k + 1)
  }

  function LastOf(s: string, c: char): (r: Option<nat>)
    ensures r.Some? ==> r.value < |s| && s[r.value] == c
    ensures r.Some? ==> forall k :: r.value < k < |s| ==> s[k] != c
    ensures r.None? ==> forall k :: 0 <= k < |s| ==> s[k] != c
    decreases |s|
  {
    if s == [] then None
    else if s[|s| - 1] == c then Some(|s| - 1)
    else LastOf(s[..|s| - 1], c)
  }

  function BraceSpan(s: string): (r: Option<string>)
    ensures r.Some? ==> |r.value| >= 2 && r.value[0] == '{' && r.value[|r.value| - 1] == '}'
    ensures r.Some? ==>
      && FirstOf(s, '{').Some? && LastOf(s, '}').Some? && FirstOf(s, '{').value < LastOf(s, '}').value
      && r.value == s[FirstOf(s, '{').value..LastOf(s, '}').value + 1]
    ensures r.None? ==> forall i, j :: 0 <= i < j < |s| && s[i] == '{' ==> s[j] != '}'
  {
    match FirstOf(s, '{')
    case None => None
    case Some(i) =>
      match LastOf(s, '}')
      case None => None
      case Some(j) =>
        if i < j then Some(s[i..j + 1]) else None
  }

  /** What `analyze_document_with_ai` returns: the model's own dictionary (with
      `token_info` added), the fallback after an unparseable reply (with `raw_response`),
      or the fallback after an exception (with `error`). Both fallbacks carry zero
      counts, tone 0.5/0/0.5, no keywords and the summary "분석 실패". */
  datatype DocAnalysis =
    | Analysed(fields: map<string, Json>, tokenInfo: TokenInfo)
    | Unparsed(markup: Markup, tokenInfo: TokenInfo, rawResponse: string)
    | AnalysisError(markup: Markup, error: string)

  /** The dictionary a decoded reply becomes; assigning `token_info` into anything but a
      dict raises a `TypeError`, which the outer handler turns into the error fallback. */
  function WithTokenInfo(v: Json, info: TokenInfo, text: string): DocAnalysis {
    if v.JObj? then Analysed(v.fields, info) else AnalysisError(MarkupOf(text), ErrorDetail(TypeError))
  }

  /** The value a reply decodes to: the whole content if it parses, else the span from
      the first '{' to the last '}' if that parses. */
  function ReplyJson(content: string, parse: string -> Option<Json>): Option<Json> {
    if parse(content).Some? then parse(content)
    else if BraceSpan(content).Some? then parse(BraceSpan(content).value)
    else None
  }

  /** `analyze_document_with_ai(text)` over the per-attempt outcomes. */
  function AnalyzeDocument(text: string, outcomes: seq<Completion>, model: string, parse: string -> Option<Json>): (a: DocAnalysis)
    requires |outcomes| >= DEFAULT_MAX_RETRIES
    ensures !a.Analysed? ==> a.markup == MarkupOf(text)
    ensures DefaultCall(outcomes, model).result.Raised? ==> a == AnalysisError(MarkupOf(text), DefaultCall(outcomes, model).result.detail)
    ensures DefaultCall(outcomes, model).result.NoReturn? ==> a == AnalysisError(MarkupOf(text), UNPACK_NONE)
    ensures
      var reply := DefaultCall(outcomes, model).result;
      reply.Returned? && ReplyJson(reply.Content(), parse).Some? && ReplyJson(reply.Content(), parse).value.JObj? ==>
        a == Analysed(ReplyJson(reply.Content(), parse).value.fields, reply.tokenInfo)
    ensures
      var reply := DefaultCall(outcomes, model).result;
      reply.Returned? && ReplyJson(reply.Content(), parse).Some? && !ReplyJson(reply.Content(), parse).value.JObj? ==>
        a == AnalysisError(MarkupOf(text), ErrorDetail(TypeError))
    ensures a.Analysed? || a.Unparsed? ==>
      var reply := DefaultCall(outcomes, model).result;
      reply.Returned? && a.tokenInfo == reply.tokenInfo && a.tokenInfo == CostError(model)
    ensures a.Analysed? ==>
      var content := DefaultCall(outcomes, model).result.Content();
      || parse(content) == Some(JObj(a.fields))
      || (parse(content).None? && BraceSpan(content).Some? && parse(BraceSpan(content).value) == Some(JObj(a.fields)))
    ensures a.Unparsed? <==>
      var reply := DefaultCall(outcomes, model).result;
      && reply.Returned?
      && parse(reply.Content()).None?
      && (BraceSpan(reply.Content()).None? || parse(BraceSpan(reply.Content()).value).None?)
    ensures a.Unparsed? ==> a.rawResponse == DefaultCall(outcomes, model).result.Content()
  {
    var markup := MarkupOf(text);
    match DefaultCall(outcomes, model).result
    case Raised(d) => AnalysisError(markup, d)
    case NoReturn => AnalysisError(markup, UNPACK_NONE)
    case Returned(reply, _, _, info) =>
      var content := PyStrip(reply);
      match parse(content)
      case Some(v) => WithTokenInfo(v, info, text)
      case None =>
        match BraceSpan(content)
        case None => Unparsed(markup, info, content)
        case Some(span) =>
          match parse(span)
          case Some(v) => WithTokenInfo(v, info, text)
          case None => Unparsed(markup, info, content)
  }

  // ------------------------------------------------------------ generate_report_prompt

  /** The title used when a template or the user's input has none. */
  const UNTITLED: string := "제목 없음"

  /** One template's section of the report prompt; `None` when its content is falsy. */
  function TemplateSection(template: Json): (r: Result<Option<string>, PyError>)
    ensures r.Success? <==> template.JObj?
    ensures r.Failure? ==> r.error == AttributeError
    ensures r.Success? ==> (r.value.Some? <==> "content" in template.fields && Truthy(template.fields["content"]))
  {
    if !template.JObj? then Failure(AttributeError)
    else
      var f := template.fields;
      var content := if "content" in f then f["content"] else JStr("");
      var title := if "title" in f then f["title"] else JStr(UNTITLED);
      Success(if Truthy(content) then Some("### " + PyStr(title) + "\n" + PyStr(content)) else None)
  }

  /** The content-bearing templates, in input order. */
  function WithContent(templates: seq<Json>): (r: seq<Json>)
    requires forall i :: 0 <= i < |templates| ==> templates[i].JObj?
    ensures |r| <= |templates|
    ensures forall k :: 0 <= k < |r| ==> r[k].JObj? && "content" in r[k].fields && Truthy(r[k].fields["content"])
  {
    if templates == [] then []
    else
      var t := templates[0];
      (if "content" in t.fields && Truthy(t.fields["content"]) then [t] else []) + WithContent(templates[1..])
  }

  /** The sections of all templates: present exactly for the content-bearing ones, in order. */
  function TemplateSections(templates: seq<Json>): (r: Result<seq<string>, PyError>)
    ensures r.Success? <==> forall i :: 0 <= i < |templates| ==> templates[i].JObj?
    ensures r.Failure? ==> r.error == AttributeError
    ensures r.Success? ==>
      var kept := WithContent(templates);
      |r.value| == |kept| && forall k :: 0 <= k < |kept| ==> r.value[k] == TemplateSection(kept[k]).value.value
  {
    if templates == [] then Success([])
    else
      var head :- TemplateSection(templates[0]);
      var rest :- TemplateSections(templates[1..]);
      Success((if head.Some? then [head.value] else []) + rest)
  }

  /** A template with falsy content adds nothing, wherever it stands. */
  lemma {:induction false} EmptyTemplateAddsNothing(before: seq<Json>, t: Json, after: seq<Json>)
    requires t.JObj? && !("content" in t.fields && Truthy(t.fields["content"]))
    ensures TemplateSections(before + [t] + after) == TemplateSections(before + after)
    decreases |before|
  {
    if before == [] {
      assert before + [t] + after == [t] + after && before + after == after;
      FalsyHeadSkipped(t, after);
    } else {
      var x, y := before[1..] + [t] + after, before[1..] + after;
      calc {
        TemplateSections(before + [t] + after);
        { Recons(before, [t], after); }
        TemplateSections([before[0]] + x);
        { EmptyTemplateAddsNothing(before[1..], t, after);
          ConsKeepsSections(before[0], x, y); }
        TemplateSections([before[0]] + y);
        { Recons(before, [], after); assert before[1..] + [] + after == y; assert before + [] + after == before + after; }
        TemplateSections(before + after);
      }
    }
  }

  lemma Recons<T>(a: seq<T>, m: seq<T>, b: seq<T>)
    requires a != []
    ensures [a[0]] + (a[1..] + m + b) == a + m + b
  {
    assert a == [a[0]] + a[1..];
  }

  lemma FalsyHeadSkipped(t: Json, after: seq<Json>)
    requires t.JObj? && !("content" in t.fields && Truthy(t.fields["content"]))
    ensures TemplateSections([t] + after) == TemplateSections(after)
  {
    var x := [t] + after;
    assert x[0] == t && x[1..] == after;
    assert TemplateSection(t) == Success(None);
    if TemplateSections(after).Success? {
      assert [] + TemplateSections(after).value == TemplateSections(after).value;
    }
  }

  lemma ConsKeepsSections(h: Json, x: seq<Json>, y: seq<Json>)
    requires TemplateSections(x) == TemplateSections(y)
    ensures TemplateSections([h] + x) == TemplateSections([h] + y)
  {
    assert ([h] + x)[1..] == x && ([h] + y)[1..] == y;
  }

  /** The requirement lines: one per truthy field, in the order title, goal,
      requirements, audience. */
  function RequirementLines(title: Json, goal: Json, requirements: Json, audience: Json): (r: seq<string>)
    ensures |r| == (if Truthy(title) then 1 else 0) + (if Truthy(goal) then 1 else 0)
                 + (if Truthy(requirements) then 1 else 0) + (if Truthy(audience) then 1 else 0)
    ensures Truthy(title) ==> r[0] == "제목: " + PyStr(title)
    ensures Truthy(goal) ==> r[if Truthy(title) then 1 else 0] == "목표: " + PyStr(goal)
    ensures Truthy(requirements) ==>
      r[(if Truthy(title) then 1 else 0) + (if Truthy(goal) then 1 else 0)] == "요구사항: " + PyStr(requirements)
    ensures Truthy(audience) ==> r[|r| - 1] == "대상 독자: " + PyStr(audience)
    ensures !Truthy(title) && !Truthy(goal) && !Truthy(requirements) && !Truthy(audience) ==> r == []
  {
    (if Truthy(title) then ["제목: " + PyStr(title)] else [])
    + (if Truthy(goal) then ["목표: " + PyStr(goal)] else [])
    + (if Truthy(requirements) then ["요구사항: " + PyStr(requirements)] else [])
    + (if Truthy(audience) then ["대상 독자: " + PyStr(audience)] else [])
  }

  const REPORT_SYSTEM_MESSAGE: string := "당신은 한국의 정부 문서 작성을 돕는 전문가입니다. 사용자가 제공한 템플릿과 요구사항을 기반으로 고품질의 보고서를 작성해주세요.\n주어진 템플릿의 구조와 형식을 참고하되, 요구사항에 맞게 내용을 조정하세요.\n출력은 마크다운 형식으로 제공하며, 필요에 따라 표와 목록을 포함할 수 있습니다."

  function ReportUserMessage(lines: seq<string>, sections: seq<string>): string {
    "## 사용자 요구사항\n" + Join("\n", lines) + "\n\n## 참고 템플릿\n" + Join("\n\n", sections)
    + "\n\n위 요구사항과 참고 템플릿을 기반으로 보고서를 작성해주세요."
  }

  /** `generate_report_prompt(user_input, selected_templates)`. */
  function GenerateReportPrompt(userInput: Json, templates: seq<Json>): (r: Result<seq<Message>, PyError>)
    ensures r.Success? <==> userInput.JObj? && TemplateSections(templates).Success?
    ensures r.Failure? ==> r.error == AttributeError
    ensures r.Success? ==> |r.value| == 2 && r.value[0] == Message("system", REPORT_SYSTEM_MESSAGE) && r.value[1].role == "user"
    ensures r.Success? ==>
      var u := userInput.fields;
      r.value[1].content == ReportUserMessage(
        RequirementLines(
          if "title" in u then u["title"] else JStr(UNTITLED),
          if "goal" in u then u["goal"] else JStr(""),
          if "requirements" in u then u["requirements"] else JStr(""),
          if "audience" in u then u["audience"] else JStr("")),
        TemplateSections(templates).value)
  {
    if !userInput.JObj? then Failure(AttributeError)
    else
      var u := userInput.fields;
      var lines := RequirementLines(
        if "title" in u then u["title"] else JStr(UNTITLED),
        if "goal" in u then u["goal"] else JStr(""),
        if "requirements" in u then u["requirements"] else JStr(""),
        if "audience" in u then u["audience"] else JStr(""));
      var sections :- TemplateSections(templates);
      Success([Message("system", REPORT_SYSTEM_MESSAGE), Message("user", ReportUserMessage(lines, sections))])
  }

  /** A dictionary without a title still gets the default title line. */
  lemma MissingTitleUsesDefault(templates: seq<Json>)
    requires TemplateSections(templates).Success?
    ensures var r := GenerateReportPrompt(JObj(map[]), templates);
      r.Success? && r.value[1].content == ReportUserMessage(["제목: " + UNTITLED], TemplateSections(templates).value)
  {
    TitleOnlyLines(UNTITLED);
  }

  lemma TitleOnlyLines(title: string)
    requires title != ""
    ensures RequirementLines(JStr(title), JStr(""), JStr(""), JStr("")) == ["제목: " + title]
  {
  }

  // ------------------------------------------------------------ generate_draft

  /** The first element of `generate_draft`'s pair, without its timestamp. */
  datatype Draft = Draft(title: Json, content: string) | DraftError(title: Json, error: string)

  datatype DraftRun = DraftRun(draft: Draft, usage: Usage)

  const DRAFT_TEMPERATURE: real := 0.7
  const DRAFT_MAX_TOKENS: int := 2000

  /** The prefix of the error text a failed draft carries. */
  const DRAFT_FAILED: string := "초안 생성 중 오류: "

  /** The request `generate_draft` sends: the report messages, temperature 0.7, 2000 tokens. */
  function DraftRequest(messages: seq<Message>, model: string): (a: RequestArgs)
    ensures a.maxTokens == Some(2000) && a.temperature == 0.7 && a.prompt == Messages(messages)
  {
    MakeRequestArgs(Messages(messages), model, DRAFT_TEMPERATURE, Some(DRAFT_MAX_TOKENS))
  }

  /** `generate_draft(user_input, selected_templates)`. The exception handler itself reads
      `user_input.get`, so a non-dict input escapes as an `AttributeError`. */
  function GenerateDraft(userInput: Json, templates: seq<Json>, outcomes: seq<Completion>, model: string): (r: Result<DraftRun, PyError>)
    requires |outcomes| >= DEFAULT_MAX_RETRIES
    ensures r.Failure? <==> !userInput.JObj?
    ensures r.Success? ==>
      var title := if "title" in userInput.fields then userInput.fields["title"] else JStr(UNTITLED);
      r.value.draft.title == title
    ensures r.Success? && r.value.draft.Draft? ==>
      var reply := DefaultCall(outcomes, model).result;
      && GenerateReportPrompt(userInput, templates).Success?
      && reply.Returned? && r.value.draft.content == reply.Content() && r.value.usage == Usage(CostError(model))
    ensures r.Success? && r.value.draft.DraftError? ==>
      r.value.usage.UsageError? && r.value.draft.error == DRAFT_FAILED + r.value.usage.detail
    ensures userInput.JObj? && GenerateReportPrompt(userInput, templates).Failure? ==>
      r.value.draft.DraftError? && r.value.usage == UsageError(ErrorDetail(GenerateReportPrompt(userInput, templates).error))
    ensures userInput.JObj? && GenerateReportPrompt(userInput, templates).Success? ==>
      var reply := DefaultCall(outcomes, model).result;
      && (reply.Returned? ==> r.value.draft.Draft? && r.value.draft.content == reply.Content() && r.value.usage == Usage(reply.tokenInfo))
      && (reply.Raised? ==> r.value.draft.DraftError? && r.value.usage == UsageError(reply.detail))
      && (reply.NoReturn? ==> r.value.draft.DraftError? && r.value.usage == UsageError(UNPACK_NONE))
  {
    if !userInput.JObj? then Failure(AttributeError)
    else
      var title := if "title" in userInput.fields then userInput.fields["title"] else JStr(UNTITLED);
      var failed := (d: string) => DraftRun(DraftError(title, DRAFT_FAILED + d), UsageError(d));
      match GenerateReportPrompt(userInput, templates)
      case Failure(e) => Success(failed(ErrorDetail(e)))
      case Success(_) =>
        match DefaultCall(outcomes, model).result
        case Returned(reply, _, _, info) => Success(DraftRun(Draft(title, PyStrip(reply)), Usage(info)))
        case Raised(d) => Success(failed(d))
        case NoReturn => Success(failed(UNPACK_NONE))
  }
}

=== FILE: page_scripts.dfy ===
/** The page handlers of both front ends (`main.js`): the search-form guards, the
    1000-character report input, the analyze and generate guards with the request bodies
    they send, clearing the selection, and the message shown when the server refuses. */
module PageScripts {
  import opened Wrappers
  import opened Text
  import opened JsonModel
  import opened Selection
  import SearchPage
  import SearchRoute
  import DraftsRoute

  const NO_KEYWORD: string := "검색어를 입력해주세요."
  const NO_DOC_TYPE: string := "문서 유형을 선택해주세요."
  const NO_MANAGER: string := "보도자료 검색 시 담당자 정보가 필요합니다."
  const INPUT_TOO_SHORT: string := "보고서 내용을 최소 10자 이상 입력해주세요."
  const NO_INPUT: string := "보고서 정보를 입력해주세요."
  const NO_SELECTION: string := "선택된 템플릿이 없습니다."
  const REQUEST_FAILED: string := "API 요청 실패: "

  const INPUT_LIMIT: nat := 1000
  const MIN_REPORT_INPUT: nat := 10

  // ------------------------------------------------------------ search form

  /** A submit either alerts or loads the first page of results. */
  datatype SubmitOutcome = Refuse(message: string) | LoadFirstPage

  /** The newer page's submit: a keyword and a document type are required. */
  function WebSubmit(keywordInput: string, docType: string): (o: SubmitOutcome)
    ensures o.LoadFirstPage? <==> JsTrim(keywordInput) != "" && docType != ""
    ensures JsTrim(keywordInput) == "" ==> o == Refuse(NO_KEYWORD)
    ensures JsTrim(keywordInput) != "" && docType == "" ==> o == Refuse(NO_DOC_TYPE)
  {
    if JsTrim(keywordInput) == "" then Refuse(NO_KEYWORD)
    else if docType == "" then Refuse(NO_DOC_TYPE)
    else LoadFirstPage
  }

  /** The older page's submit: the same checks, then a press-release search also needs a
      manager. */
  function LegacySubmit(keywordInput: string, docType: string, managerInput: string): (o: SubmitOutcome)
    ensures o.LoadFirstPage? <==>
      JsTrim(keywordInput) != "" && docType != "" && !(docType == "press" && JsTrim(managerInput) == "")
    ensures JsTrim(keywordInput) == "" ==> o == Refuse(NO_KEYWORD)
    ensures JsTrim(keywordInput) != "" && docType == "" ==> o == Refuse(NO_DOC_TYPE)
    ensures JsTrim(keywordInput) != "" && docType == "press" && JsTrim(managerInput) == "" ==> o == Refuse(NO_MANAGER)
  {
    if JsTrim(keywordInput) == "" then Refuse(NO_KEYWORD)
    else if docType == "" then Refuse(NO_DOC_TYPE)
    else if docType == "press" && JsTrim(managerInput) == "" then Refuse(NO_MANAGER)
    else LoadFirstPage
  }

  /** The older page is stricter: what it lets through the newer one lets through too,
      and a press-release search it lets through always carries the manager in its URL. */
  lemma LegacySubmitIsStricter(keywordInput: string, docType: string, managerInput: string)
    requires LegacySubmit(keywordInput, docType, managerInput).LoadFirstPage?
    ensures WebSubmit(keywordInput, docType).LoadFirstPage?
    ensures SearchPage.SendsKeyword(keywordInput)
    ensures docType == "press" ==> SearchPage.SendsManager(docType, managerInput)
  {
  }

  // ------------------------------------------------------------ report input

  /** The report text box after an edit and its counter text. */
  datatype InputBox = InputBox(value: string, counter: string)

  /** The input handler: the counter shows the length out of 1000, and a longer text is
      cut back to its first 1000 characters. */
  function CapInput(value: string): (b: InputBox)
    ensures |b.value| <= INPUT_LIMIT && b.value <= value
    ensures |value| <= INPUT_LIMIT ==> b.value == value
    ensures b.counter == IntToString(|b.value|) + "/1000"
  {
    if |value| > INPUT_LIMIT then
      assert IntToString(1000) == "1000" by {
        assert NatToString(1000) == NatToString(100) + "0";
        assert NatToString(100) == NatToString(10) + "0";
        assert NatToString(10) == NatToString(1) + "0";
      }
      InputBox(value[..INPUT_LIMIT], "1000/1000")
    else InputBox(value, IntToString(|value|) + "/1000")
  }

  /** Editing a text that already fits changes nothing: the cap is idempotent. */
  lemma CapInputIdempotent(value: string)
    ensures CapInput(CapInput(value).value) == CapInput(value)
  {
  }

  // ------------------------------------------------------------ requests

  /** A button press either alerts or posts a JSON body. */
  datatype RequestOutcome = Blocked(message: string) | Post(body: Json)

  /** `selectedTemplates.map(t => t.id)` as `JSON.stringify` writes it: a missing id
      becomes `null`. */
  function SentIds(sel: seq<Template>): (ids: seq<Json>)
    ensures |ids| == |sel|
    ensures forall k :: 0 <= k < |sel| ==> ids[k] == IdOf(sel[k]).GetOr(JNull)
  {
    seq(|sel|, k requires 0 <= k < |sel| => IdOf(sel[k]).GetOr(JNull))
  }

  function GenerateBody(sel: seq<Template>, userInput: string): Json {
    JObj(map["template_ids" := JArr(SentIds(sel)), "user_input" := JStr(userInput)])
  }

  /** The newer page's analyze button: refused on an empty selection, otherwise the ids
      in selection order. */
  function WebAnalyze(sel: seq<Template>): (o: RequestOutcome)
    ensures sel == [] <==> o == Blocked(NO_SELECTION)
    ensures o.Post? ==> o.body == JObj(map["template_ids" := JArr(SentIds(sel))])
  {
    if |sel| == 0 then Blocked(NO_SELECTION)
    else Post(JObj(map["template_ids" := JArr(SentIds(sel))]))
  }

  /** The newer page's generate button: the trimmed text needs at least ten characters,
      then the selection must be non-empty. */
  function WebGenerate(input: string, sel: seq<Template>): (o: RequestOutcome)
    ensures |JsTrim(input)| < MIN_REPORT_INPUT ==> o == Blocked(INPUT_TOO_SHORT)
    ensures |JsTrim(input)| >= MIN_REPORT_INPUT && sel == [] ==> o == Blocked(NO_SELECTION)
    ensures o.Post? <==> |JsTrim(input)| >= MIN_REPORT_INPUT && sel != []
    ensures o.Post? ==> o.body == GenerateBody(sel, JsTrim(input))
  {
    var userInput := JsTrim(input);
    if |userInput| < MIN_REPORT_INPUT then Blocked(INPUT_TOO_SHORT)
    else if |sel| == 0 then Blocked(NO_SELECTION)
    else Post(GenerateBody(sel, userInput))
  }

  /** The older page's generate button: any non-blank text, then a non-empty selection. */
  function LegacyGenerate(input: string, sel: seq<Template>): (o: RequestOutcome)
    ensures JsTrim(input) == "" ==> o == Blocked(NO_INPUT)
    ensures JsTrim(input) != "" && sel == [] ==> o == Blocked(NO_SELECTION)
    ensures o.Post? <==> JsTrim(input) != "" && sel != []
    ensures o.Post? ==> o.body == GenerateBody(sel, JsTrim(input))
  {
    var userInput := JsTrim(input);
    if userInput == "" then Blocked(NO_INPUT)
    else if |sel| == 0 then Blocked(NO_SELECTION)
    else Post(GenerateBody(sel, userInput))
  }

  /** The newer page sends a subset of what the older page would send, and the same body. */
  lemma WebGenerateIsStricter(input: string, sel: seq<Template>)
    requires WebGenerate(input, sel).Post?
    ensures LegacyGenerate(input, sel) == WebGenerate(input, sel)
  {
  }

  /** A body either page posts passes the draft route's own checks: it is never refused
      with 400 for an empty body, missing ids or missing input. */
  lemma PostedBodyPassesValidation(sel: seq<Template>, userInput: string, cache: seq<SearchRoute.Entry>,
                                   count: (string, string) -> Option<nat>, rate: real, now: int, today: string)
    requires sel != [] && userInput != ""
    ensures var r := DraftsRoute.GenerateDraft(GenerateBody(sel, userInput), cache, count, rate, now, today);
      r.Refused? ==> r.status != 400
  {
    var body := GenerateBody(sel, userInput);
    var ids := DraftsRoute.FieldOr(body.fields, "template_ids", JArr([]));
    var u := DraftsRoute.FieldOr(body.fields, "user_input", JStr(""));
    assert ids == JArr(SentIds(sel)) && |SentIds(sel)| > 0;
    assert u == JStr(userInput);
    assert Truthy(body) && Truthy(ids) && Truthy(u);
  }

  /** `clearSelectionsBtn`: the selection becomes empty, and nothing can be sent until a
      template is chosen again. */
  lemma ClearBlocksRequests(sel: seq<Template>, input: string)
    ensures Valid(Clear(sel))
    ensures WebAnalyze(Clear(sel)) == Blocked(NO_SELECTION)
    ensures !WebGenerate(input, Clear(sel)).Post? && !LegacyGenerate(input, Clear(sel)).Post?
  {
  }

  // ------------------------------------------------------------ refusals

  /** The message text: a string, or a non-string `error` value that JavaScript converts
      to text when it builds the `Error`. */
  datatype Message = Plain(text: string) | Converted(value: Json)

  /** The newer page's reading of a failed reply: the status line by default; a JSON body
      whose `error` is truthy replaces it; a body that does not parse (or parses to
      `null`, whose `.error` throws) is appended when non-empty. */
  function WebErrorMessage(status: int, text: string, parse: string -> Option<Json>): (m: Message)
    ensures (parse(text).None? || parse(text).value.JNull?) && text != "" ==>
      m == Plain(REQUEST_FAILED + IntToString(status) + " - " + text)
    ensures (parse(text).None? || parse(text).value.JNull?) && text == "" ==> m == Plain(REQUEST_FAILED + IntToString(status))
    ensures (&& parse(text).Some? && parse(text).value.JObj? && "error" in parse(text).value.fields
             && parse(text).value.fields["error"].JStr? && parse(text).value.fields["error"].s != "")
      ==> m == Plain(parse(text).value.fields["error"].s)
    ensures m.Converted? ==> !m.value.JStr? && JsTruthy(m.value)
    ensures (parse(text).Some? && !parse(text).value.JNull?
             && !(parse(text).value.JObj? && "error" in parse(text).value.fields && JsTruthy(parse(text).value.fields["error"])))
      ==> m == Plain(REQUEST_FAILED + IntToString(status))
  {
    var fallback := REQUEST_FAILED + IntToString(status);
    match parse(text)
    case None => if text != "" then Plain(fallback + " - " + text) else Plain(fallback)
    case Some(v) =>
      if v.JNull? then (if text != "" then Plain(fallback + " - " + text) else Plain(fallback))
      else if v.JObj? && "error" in v.fields && JsTruthy(v.fields["error"]) then
        (if v.fields["error"].JStr? then Plain(v.fields["error"].s) else Converted(v.fields["error"]))
      else Plain(fallback)
  }

  /** The older page shows only the status line. */
  function LegacyErrorMessage(status: int): (m: Message)
    ensures m.Plain? && |REQUEST_FAILED| < |m.text| && m.text[..|REQUEST_FAILED|] == REQUEST_FAILED
    ensures m == Plain(REQUEST_FAILED + IntToString(status))
  {
    Plain(REQUEST_FAILED + IntToString(status))
  }

  /** For an empty reply body, which does not parse, both pages show the same message. */
  lemma PagesAgreeOnEmptyBody(status: int, parse: string -> Option<Json>)
    requires parse("").None?
    ensures WebErrorMessage(status, "", parse) == LegacyErrorMessage(status)
  {
  }

  /** The body the server sends with a refusal: `jsonify({"error": message})`. */
  function RefusalBody(reply: DraftsRoute.DraftReply): Json
    requires reply.Refused?
  {
    JObj(map["error" := JStr(reply.error)])
  }

  /** Every refusal of the draft route carries a non-empty error text. */
  lemma RefusalHasText(data: Json, cache: seq<SearchRoute.Entry>, count: (string, string) -> Option<nat>,
                       rate: real, now: int, today: string)
    requires DraftsRoute.GenerateDraft(data, cache, count, rate, now, today).Refused?
    ensures DraftsRoute.GenerateDraft(data, cache, count, rate, now, today).error != ""
  {
    var r := DraftsRoute.GenerateDraft(data, cache, count, rate, now, today);
    assert DraftsRoute.FAILURE_PREFIX != "";
    if Truthy(data) && data.JObj? {
      var b := DraftsRoute.DraftBody(data, cache, count, rate, now, today);
      if b.Success? {
        assert r == b.value;
      }
    }
  }

  /** Every refusal of the draft route reaches the user with its own words: once the
      page parses the refusal body back, it shows the route's message. */
  lemma RefusalReachesUser(data: Json, cache: seq<SearchRoute.Entry>, count: (string, string) -> Option<nat>,
                           rate: real, now: int, today: string, text: string, parse: string -> Option<Json>)
    requires DraftsRoute.GenerateDraft(data, cache, count, rate, now, today).Refused?
    requires parse(text) == Some(RefusalBody(DraftsRoute.GenerateDraft(data, cache, count, rate, now, today)))
    ensures var r := DraftsRoute.GenerateDraft(data, cache, count, rate, now, today);
      WebErrorMessage(r.status, text, parse) == Plain(r.error)
  {
    var r := DraftsRoute.GenerateDraft(data, cache, count, rate, now, today);
    RefusalHasText(data, cache, count, rate, now, today);
    var v := RefusalBody(r);
    assert "error" in v.fields && v.fields["error"] == JStr(r.error);
  }
}

=== FILE: pagination.dfy ===
/** The result-page buttons of the search page: first/previous, a window of at most
    five numbered pages around the current one, next/last, and the rule that only the
    current page's button is highlighted and inert. */
module Pagination {
  import opened Wrappers
  import opened Text

  const MAX_PAGE_BUTTONS: int := 5

  /** Which button it is; its text is the page number or a fixed word. */
  datatype Kind = First | Prev | Number | Next | Last

  datatype Button = Button(page: int, kind: Kind, highlighted: bool) {
    /** The text shown on the button. */
    function Text(): string {
      match kind
      case First => "처음"
      case Prev => "이전"
      case Number => IntToString(page)
      case Next => "다음"
      case Last => "마지막"
    }
  }

  /** The container is hidden, or shows the buttons in order. */
  datatype Pager = Hidden | Shown(buttons: seq<Button>)

  function Min(a: int, b: int): int { if a <= b then a else b }
  function Max(a: int, b: int): int { if a >= b then a else b }

  /** `addPaginationButton`: highlighted exactly when it points at the current page. */
  function PageButton(page: int, kind: Kind, currentPage: int): (b: Button)
    ensures b.page == page && b.kind == kind
    ensures b.highlighted <==> page == currentPage
  {
    Button(page, kind, page == currentPage)
  }

  /** The click handler: load the button's page, unless it is the current one. */
  function Click(b: Button, currentPage: int): Option<int> {
    if b.page != currentPage then Some(b.page) else None
  }

  /** The first and last numbered page: centred on the current page where possible,
      pulled back so that five buttons fit when the end is near. */
  function Window(currentPage: int, totalPages: int): (w: (int, int))
    ensures 1 <= w.0 && w.1 <= totalPages
    ensures 1 <= currentPage <= totalPages ==>
      w.1 - w.0 + 1 == Min(MAX_PAGE_BUTTONS, totalPages) && w.0 <= currentPage <= w.1
    ensures 3 <= currentPage <= totalPages - 2 ==> w == (currentPage - 2, currentPage + 2)
  {
    var start := Max(1, currentPage - MAX_PAGE_BUTTONS / 2);
    var end := Min(totalPages, start + MAX_PAGE_BUTTONS - 1);
    if end - start + 1 < MAX_PAGE_BUTTONS then (Max(1, end - MAX_PAGE_BUTTONS + 1), end)
    else (start, end)
  }

  /** The numbered buttons `start..end`. */
  function NumberButtons(start: int, end: int, currentPage: int): (bs: seq<Button>)
    ensures |bs| == if end >= start then end - start + 1 else 0
    ensures forall k :: 0 <= k < |bs| ==> bs[k] == PageButton(start + k, Number, currentPage)
  {
    seq(if end >= start then end - start + 1 else 0, k requires 0 <= k => PageButton(start + k, Number, currentPage))
  }

  function Lead(currentPage: int): seq<Button> {
    if currentPage > 1 then [PageButton(1, First, currentPage), PageButton(currentPage - 1, Prev, currentPage)]
    else []
  }

  function Trail(currentPage: int, totalPages: int): seq<Button> {
    if currentPage < totalPages then [PageButton(currentPage + 1, Next, currentPage), PageButton(totalPages, Last, currentPage)]
    else []
  }

  /** `updatePagination(currentPage, totalPages)`. */
  function UpdatePagination(currentPage: int, totalPages: int): (p: Pager)
    ensures p.Hidden? <==> totalPages <= 1
    ensures p.Shown? ==> forall k :: 0 <= k < |p.buttons| ==> (p.buttons[k].highlighted <==> p.buttons[k].page == currentPage)
  {
    if totalPages <= 1 then Hidden
    else
      var w := Window(currentPage, totalPages);
      Shown(Lead(currentPage) + NumberButtons(w.0, w.1, currentPage) + Trail(currentPage, totalPages))
  }

  function Kinds(bs: seq<Button>): (ks: seq<Kind>)
    ensures |ks| == |bs| && forall k :: 0 <= k < |bs| ==> ks[k] == bs[k].kind
  {
    seq(|bs|, k requires 0 <= k < |bs| => bs[k].kind)
  }

  /** First and previous appear exactly when there is an earlier page, next and last
      exactly when there is a later one. */
  lemma NavigationButtons(currentPage: int, totalPages: int)
    requires totalPages > 1
    ensures var ks := Kinds(UpdatePagination(currentPage, totalPages).buttons);
      && (First in ks <==> currentPage > 1)
      && (Prev in ks <==> currentPage > 1)
      && (Next in ks <==> currentPage < totalPages)
      && (Last in ks <==> currentPage < totalPages)
  {
    var w := Window(currentPage, totalPages);
    var lead := Lead(currentPage);
    var nums := NumberButtons(w.0, w.1, currentPage);
    var trail := Trail(currentPage, totalPages);
    KindsAppend(lead + nums, trail);
    KindsAppend(lead, nums);
    NumberKinds(w.0, w.1, currentPage);
    NavigationKinds(currentPage, totalPages);
  }

  lemma KindsAppend(a: seq<Button>, b: seq<Button>)
    ensures Kinds(a + b) == Kinds(a) + Kinds(b)
  {
    assert forall k :: 0 <= k < |b| ==> (a + b)[|a| + k] == b[k];
  }

  /** The numbered buttons are all of kind `Number`. */
  lemma NumberKinds(start: int, end: int, currentPage: int)
    ensures var ks := Kinds(NumberButtons(start, end, currentPage));
      First !in ks && Prev !in ks && Next !in ks && Last !in ks
  {
    var ks := Kinds(NumberButtons(start, end, currentPage));
    assert forall k :: 0 <= k < |ks| ==> ks[k] == Number;
  }

  lemma NavigationKinds(currentPage: int, totalPages: int)
    ensures Kinds(Lead(currentPage)) == if currentPage > 1 then [First, Prev] else []
    ensures Kinds(Trail(currentPage, totalPages)) == if currentPage < totalPages then [Next, Last] else []
  {
  }

  /** Each navigation button points where its word says. */
  lemma NavigationTargets(currentPage: int, totalPages: int)
    requires totalPages > 1
    ensures var bs := UpdatePagination(currentPage, totalPages).buttons;
      forall k :: 0 <= k < |bs| ==>
        && (bs[k].kind == First ==> bs[k].page == 1)
        && (bs[k].kind == Prev ==> bs[k].page == currentPage - 1)
        && (bs[k].kind == Next ==> bs[k].page == currentPage + 1)
        && (bs[k].kind == Last ==> bs[k].page == totalPages)
  {
    var w := Window(currentPage, totalPages);
    var lead := Lead(currentPage);
    var nums := NumberButtons(w.0, w.1, currentPage);
    var trail := Trail(currentPage, totalPages);
    var bs := lead + nums + trail;
    forall k | 0 <= k < |bs|
      ensures bs[k].kind == First ==> bs[k].page == 1
      ensures bs[k].kind == Prev ==> bs[k].page == currentPage - 1
      ensures bs[k].kind == Next ==> bs[k].page == currentPage + 1
      ensures bs[k].kind == Last ==> bs[k].page == totalPages
    {
      if k < |lead| {
        assert bs[k] == lead[k];
      } else if k < |lead| + |nums| {
        assert bs[k] == nums[k - |lead|];
      } else {
        assert bs[k] == trail[k - |lead| - |nums|];
      }
    }
  }

  /** The pages of the numbered buttons among `bs`. */
  function Numerals(bs: seq<Button>): seq<int>
    decreases |bs|
  {
    if bs == [] then []
    else (if bs[0].kind == Number then [bs[0].page] else []) + Numerals(bs[1..])
  }

  lemma {:induction false} NumeralsAppend(a: seq<Button>, b: seq<Button>)
    ensures Numerals(a + b) == Numerals(a) + Numerals(b)
    decreases |a|
  {
    if a == [] {
      assert a + b == b;
    } else {
      var head := if a[0].kind == Number then [a[0].page] else [];
      assert (a + b)[0] == a[0] && (a + b)[1..] == a[1..] + b;
      assert Numerals(a + b) == head + Numerals(a[1..] + b);
      NumeralsAppend(a[1..], b);
    }
  }

  lemma {:induction false} NumeralsOfNumberButtons(start: int, end: int, currentPage: int)
    ensures var ps := Numerals(NumberButtons(start, end, currentPage));
      |ps| == (if end >= start then end - start + 1 else 0) && forall k :: 0 <= k < |ps| ==> ps[k] == start + k
    decreases end - start
  {
    if end >= start {
      var bs := NumberButtons(start, end, currentPage);
      var rest := NumberButtons(start + 1, end, currentPage);
      assert bs == [bs[0]] + rest;
      NumeralsAppend([bs[0]], rest);
      NumeralsOfNumberButtons(start + 1, end, currentPage);
    }
  }

  /** For a current page within range, the numbered pages are `min(5, totalPages)`
      consecutive pages inside `[1, totalPages]` that include the current one. */
  lemma NumberedWindow(currentPage: int, totalPages: int)
    requires 1 <= currentPage <= totalPages && totalPages > 1
    ensures var ps := Numerals(UpdatePagination(currentPage, totalPages).buttons);
      && |ps| == Min(MAX_PAGE_BUTTONS, totalPages)
      && (forall k :: 0 <= k < |ps| ==> 1 <= ps[k] <= totalPages)
      && (forall k :: 0 < k < |ps| ==> ps[k] == ps[k - 1] + 1)
      && currentPage in ps
  {
    var w := Window(currentPage, totalPages);
    NumeralsAreWindow(currentPage, totalPages);
    NumeralsOfNumberButtons(w.0, w.1, currentPage);
    var ps := Numerals(UpdatePagination(currentPage, totalPages).buttons);
    assert ps[currentPage - w.0] == currentPage;
  }

  /** Only the numbered buttons contribute numerals: the navigation buttons around them
      add none. */
  lemma NumeralsAreWindow(currentPage: int, totalPages: int)
    requires totalPages > 1
    ensures var w := Window(currentPage, totalPages);
      Numerals(UpdatePagination(currentPage, totalPages).buttons) == Numerals(NumberButtons(w.0, w.1, currentPage))
  {
    var w := Window(currentPage, totalPages);
    var lead := Lead(currentPage);
    var nums := NumberButtons(w.0, w.1, currentPage);
    var trail := Trail(currentPage, totalPages);
    NumeralsAppend(lead + nums, trail);
    NumeralsAppend(lead, nums);
    NavigationNumerals(currentPage, totalPages);
    assert Numerals(lead + nums + trail) == Numerals(nums);
  }

  lemma NavigationNumerals(currentPage: int, totalPages: int)
    ensures Numerals(Lead(currentPage)) == [] && Numerals(Trail(currentPage, totalPages)) == []
  {
    var lead := Lead(currentPage);
    var trail := Trail(currentPage, totalPages);
    if currentPage > 1 {
      assert lead[1..] == [lead[1]];
      assert Numerals([lead[1]]) == [] by { assert [lead[1]][1..] == []; }
    }
    if currentPage < totalPages {
      assert trail[1..] == [trail[1]];
      assert Numerals([trail[1]]) == [] by { assert [trail[1]][1..] == []; }
    }
  }

  /** For a current page within range, every button points inside `[1, totalPages]` and
      exactly one button — the current page's — is highlighted. */
  lemma OneHighlighted(currentPage: int, totalPages: int)
    requires 1 <= currentPage <= totalPages && totalPages > 1
    ensures var bs := UpdatePagination(currentPage, totalPages).buttons;
      && (forall k :: 0 <= k < |bs| ==> 1 <= bs[k].page <= totalPages)
      && (exists k :: 0 <= k < |bs| && bs[k].highlighted)
      && (forall j, k :: 0 <= j < k < |bs| && bs[j].highlighted ==> !bs[k].highlighted)
  {
    var w := Window(currentPage, totalPages);
    var lead := Lead(currentPage);
    var nums := NumberButtons(w.0, w.1, currentPage);
    var trail := Trail(currentPage, totalPages);
    var bs := lead + nums + trail;
    var c := |lead| + (currentPage - w.0);
    assert bs[c] == nums[currentPage - w.0];
    forall k | 0 <= k < |bs|
      ensures 1 <= bs[k].page <= totalPages
      ensures bs[k].highlighted ==> k == c
    {
      if k < |lead| {
        assert bs[k] == lead[k];
      } else if k < |lead| + |nums| {
        assert bs[k] == nums[k - |lead|];
      } else {
        assert bs[k] == trail[k - |lead| - |nums|];
      }
    }
  }

  /** Clicking does nothing exactly on the highlighted button; any other button loads
      the page it points at. */
  lemma OnlyCurrentIsInert(currentPage: int, totalPages: int)
    requires totalPages > 1
    ensures var bs := UpdatePagination(currentPage, totalPages).buttons;
      forall k :: 0 <= k < |bs| ==>
        (Click(bs[k], currentPage).None? <==> bs[k].highlighted)
        && (Click(bs[k], currentPage).Some? ==> Click(bs[k], currentPage).value == bs[k].page)
  {
  }
}

=== FILE: search_page.dfy ===
/** The browser side of a search (`fetchTemplates` in both front ends): the query string
    it builds, and what the page shows for each reply. `encode` is `encodeURIComponent`;
    the route receives every parameter value as it was before encoding. */
module SearchPage {
  import opened Wrappers
  import opened Text
  import opened JsonModel
  import opened Pagination
  import SearchRoute

  const PER_PAGE: int := 12

  /** One query parameter: its name, its value, and whether the URL carries it encoded. */
  datatype Param = Param(name: string, value: string, encoded: bool)

  function Names(ps: seq<Param>): (ns: seq<string>)
    ensures |ns| == |ps| && forall k :: 0 <= k < |ps| ==> ns[k] == ps[k].name
  {
    seq(|ps|, k requires 0 <= k < |ps| => ps[k].name)
  }

  function Pieces(ps: seq<Param>, encode: string -> string): (out: seq<string>)
    ensures |out| == |ps|
  {
    seq(|ps|, k requires 0 <= k < |ps| => ps[k].name + "=" + (if ps[k].encoded then encode(ps[k].value) else ps[k].value))
  }

  /** The request URL: the path, then the parameters joined by `&`. */
  function Url(path: string, ps: seq<Param>, encode: string -> string): string {
    path + "?" + Join("&", Pieces(ps, encode))
  }

  /** The trimmed keyword is sent only when it is not empty. */
  predicate SendsKeyword(keywordInput: string) { JsTrim(keywordInput) != "" }

  /** The document type is sent unless it is empty or `all`. */
  predicate SendsDocType(docType: string) { docType != "" && docType != "all" }

  /** The older page sends the trimmed manager only for a press-release search. */
  predicate SendsManager(docType: string, managerInput: string) { docType == "press" && JsTrim(managerInput) != "" }

  function Optional(present: bool, p: Param): (ps: seq<Param>)
    ensures |ps| <= 1 && (present <==> ps == [p])
  {
    if present then [p] else []
  }

  /** The page and the page size, always first and never encoded. */
  function Paging(page: int): seq<Param> {
    [Param("page", IntToString(page), false), Param("per_page", "12", false)]
  }

  /** The parameters of the newer page: paging, then the optional keyword and type, then
      always the wildcard manager `%`. */
  function WebParams(page: int, keywordInput: string, docType: string): (ps: seq<Param>)
    ensures 3 <= |ps| <= 5
    ensures ps[..2] == Paging(page) && ps[|ps| - 1] == Param("manager", "%", true)
    ensures |ps| == 3 + (if SendsKeyword(keywordInput) then 1 else 0) + (if SendsDocType(docType) then 1 else 0)
  {
    Paging(page)
      + Optional(SendsKeyword(keywordInput), Param("keyword", JsTrim(keywordInput), true))
      + Optional(SendsDocType(docType), Param("doc_type", docType, true))
      + [Param("manager", "%", true)]
  }

  /** The parameters of the older page: the same paging, keyword and type, then the
      trimmed manager only for a press-release search that names one. */
  function LegacyParams(page: int, keywordInput: string, docType: string, managerInput: string): (ps: seq<Param>)
    ensures 2 <= |ps| <= 5
    ensures ps[..2] == Paging(page)
    ensures |ps| == 2 + (if SendsKeyword(keywordInput) then 1 else 0) + (if SendsDocType(docType) then 1 else 0)
      + (if SendsManager(docType, managerInput) then 1 else 0)
  {
    Paging(page)
      + Optional(SendsKeyword(keywordInput), Param("keyword", JsTrim(keywordInput), true))
      + Optional(SendsDocType(docType), Param("doc_type", docType, true))
      + Optional(SendsManager(docType, managerInput), Param("manager", JsTrim(managerInput), true))
  }

  /** Away from press releases that name a manager, the two pages send the same
      parameters except the newer page's trailing wildcard manager. */
  lemma PagesAgreeWithoutManager(page: int, keywordInput: string, docType: string, managerInput: string)
    requires !SendsManager(docType, managerInput)
    ensures WebParams(page, keywordInput, docType) == LegacyParams(page, keywordInput, docType, managerInput) + [Param("manager", "%", true)]
  {
  }

  function WebUrl(page: int, keywordInput: string, docType: string, encode: string -> string): string {
    Url("/api/search", WebParams(page, keywordInput, docType), encode)
  }

  function LegacyUrl(page: int, keywordInput: string, docType: string, managerInput: string, encode: string -> string): string {
    Url("/search", LegacyParams(page, keywordInput, docType, managerInput), encode)
  }

  lemma {:induction false} JoinSnoc(sep: string, parts: seq<string>, last: string)
    requires parts != []
    ensures Join(sep, parts + [last]) == Join(sep, parts) + sep + last
    decreases |parts|
  {
    var ps := parts + [last];
    assert ps[0] == parts[0] && ps[1..] == parts[1..] + [last];
    if |parts| > 1 {
      JoinSnoc(sep, parts[1..], last);
    } else {
      assert ps[1..] == [last];
    }
  }

  lemma Ends(a: string, b: string)
    ensures (a + b)[..|a|] == a && (a + b)[|a + b| - |b|..] == b
  {
  }

  /** A URL with at least three parameters starts with the first two and ends with the
      last. */
  lemma UrlEnds(path: string, parts: seq<string>)
    requires |parts| >= 3
    ensures var u := path + "?" + Join("&", parts);
      var head := path + "?" + parts[0] + "&" + parts[1] + "&";
      var tail := "&" + parts[|parts| - 1];
      && |head| <= |u| && u[..|head|] == head && |tail| <= |u| && u[|u| - |tail|..] == tail
  {
    var n := |parts|;
    var last := parts[n - 1];
    var head := path + "?" + parts[0] + "&" + parts[1] + "&";
    var j := Join("&", parts);
    assert j == parts[0] + "&" + (parts[1] + "&" + Join("&", parts[2..])) by {
      assert parts[1..][0] == parts[1] && parts[1..][1..] == parts[2..];
      assert Join("&", parts[1..]) == parts[1] + "&" + Join("&", parts[2..]);
    }
    assert path + "?" + j == head + Join("&", parts[2..]);
    Ends(head, Join("&", parts[2..]));
    assert parts == parts[..n - 1] + [last];
    JoinSnoc("&", parts[..n - 1], last);
    assert path + "?" + j == (path + "?" + Join("&", parts[..n - 1])) + ("&" + last);
    Ends(path + "?" + Join("&", parts[..n - 1]), "&" + last);
  }

  /** The newer page's URL starts with the path, the page and the page size of twelve,
      and ends with the encoded wildcard manager. */
  lemma WebUrlShape(page: int, keywordInput: string, docType: string, encode: string -> string)
    requires encode("%") == "%25"
    ensures var u := WebUrl(page, keywordInput, docType, encode);
      var head := "/api/search" + "?" + ("page" + "=" + IntToString(page)) + "&" + ("per_page" + "=" + "12") + "&";
      var tail := "&" + ("manager" + "=" + "%25");
      && |head| <= |u| && u[..|head|] == head && |tail| <= |u| && u[|u| - |tail|..] == tail
  {
    var ps := WebParams(page, keywordInput, docType);
    var pieces := Pieces(ps, encode);
    assert ps[0] == Param("page", IntToString(page), false) by { assert ps[0] == Paging(page)[0]; }
    assert ps[1] == Param("per_page", "12", false) by { assert ps[1] == Paging(page)[1]; }
    assert ps[|ps| - 1] == Param("manager", "%", true);
    assert pieces[0] == "page" + "=" + IntToString(page);
    assert pieces[1] == "per_page" + "=" + "12";
    assert pieces[|ps| - 1] == "manager" + "=" + encode("%");
    UrlEnds("/api/search", pieces);
  }

  /** The arguments the route receives: each parameter's value before encoding. */
  function ServerArgs(ps: seq<Param>): map<string, string>
    decreases |ps|
  {
    if ps == [] then map[] else ServerArgs(ps[..|ps| - 1])[ps[|ps| - 1].name := ps[|ps| - 1].value]
  }

  lemma ServerArgsAppend(ps: seq<Param>, more: seq<Param>)
    requires |more| <= 1
    ensures ServerArgs(ps + more) == if more == [] then ServerArgs(ps) else ServerArgs(ps)[more[0].name := more[0].value]
  {
    if more == [] {
      assert ps + more == ps;
    } else {
      assert (ps + more)[..|ps + more| - 1] == ps;
    }
  }

  lemma PagingArgs(page: int)
    ensures ServerArgs(Paging(page)) == map["page" := IntToString(page), "per_page" := "12"]
  {
    var p := Paging(page);
    assert p == [] + [p[0]] + [p[1]];
    ServerArgsAppend([], [p[0]]);
    ServerArgsAppend([] + [p[0]], [p[1]]);
  }

  /** The newer page's search reaches the route as the trimmed keyword, the requested
      page, twelve rows, the chosen type (the route's `press` default when the type is
      empty or `all`), the wildcard manager, and the cache switched on. */
  lemma WebSearchAsRouteReadsIt(page: int, keywordInput: string, docType: string, toInt: string -> Option<int>)
    requires toInt(IntToString(page)) == Some(page) && toInt("12") == Some(12)
    ensures var r := SearchRoute.ParseRequest(ServerArgs(WebParams(page, keywordInput, docType)), toInt);
      && r.query == SearchRoute.SearchQuery(
           JsTrim(keywordInput), page, PER_PAGE,
           if SendsDocType(docType) then docType else "press",
           "%")
      && r.useCache
  {
    var p0 := Paging(page);
    var o1 := Optional(SendsKeyword(keywordInput), Param("keyword", JsTrim(keywordInput), true));
    var o2 := Optional(SendsDocType(docType), Param("doc_type", docType, true));
    var o3 := [Param("manager", "%", true)];
    ArgsThrough(page, keywordInput, docType, o3);
    RouteArgsRead(page, keywordInput, docType, o3);
    var m := RouteArgs(page, keywordInput, docType, o3);
    RouteReads(m, toInt, page, JsTrim(keywordInput), if SendsDocType(docType) then docType else "press", "%");
  }

  /** The older page's search reaches the route in the same way, with the trimmed
      manager for a press-release search that names one and no manager otherwise. */
  lemma LegacySearchAsRouteReadsIt(page: int, keywordInput: string, docType: string, managerInput: string, toInt: string -> Option<int>)
    requires toInt(IntToString(page)) == Some(page) && toInt("12") == Some(12)
    ensures var r := SearchRoute.ParseRequest(ServerArgs(LegacyParams(page, keywordInput, docType, managerInput)), toInt);
      && r.query == SearchRoute.SearchQuery(
           JsTrim(keywordInput), page, PER_PAGE,
           if SendsDocType(docType) then docType else "press",
           if SendsManager(docType, managerInput) then JsTrim(managerInput) else "")
      && r.useCache
  {
    var o3 := Optional(SendsManager(docType, managerInput), Param("manager", JsTrim(managerInput), true));
    ArgsThrough(page, keywordInput, docType, o3);
    RouteArgsRead(page, keywordInput, docType, o3);
    var m := RouteArgs(page, keywordInput, docType, o3);
    RouteReads(m, toInt, page, JsTrim(keywordInput), if SendsDocType(docType) then docType else "press",
      if SendsManager(docType, managerInput) then JsTrim(managerInput) else "");
  }

  /** The arguments the route receives from the paging, the optional keyword and type,
      and a last optional `manager`. */
  function RouteArgs(page: int, keywordInput: string, docType: string, last: seq<Param>): map<string, string>
    requires |last| <= 1
  {
    var m0 := map["page" := IntToString(page), "per_page" := "12"];
    var m1 := if SendsKeyword(keywordInput) then m0["keyword" := JsTrim(keywordInput)] else m0;
    var m2 := if SendsDocType(docType) then m1["doc_type" := docType] else m1;
    if last == [] then m2 else m2[last[0].name := last[0].value]
  }

  lemma ArgsThrough(page: int, keywordInput: string, docType: string, last: seq<Param>)
    requires |last| <= 1
    ensures ServerArgs(Paging(page)
      + Optional(SendsKeyword(keywordInput), Param("keyword", JsTrim(keywordInput), true))
      + Optional(SendsDocType(docType), Param("doc_type", docType, true))
      + last) == RouteArgs(page, keywordInput, docType, last)
  {
    var p0 := Paging(page);
    var o1 := Optional(SendsKeyword(keywordInput), Param("keyword", JsTrim(keywordInput), true));
    var o2 := Optional(SendsDocType(docType), Param("doc_type", docType, true));
    PagingArgs(page);
    ServerArgsAppend(p0, o1);
    ServerArgsAppend(p0 + o1, o2);
    ServerArgsAppend(p0 + o1 + o2, last);
  }

  lemma RouteArgsRead(page: int, keywordInput: string, docType: string, last: seq<Param>)
    requires |last| <= 1 && (last != [] ==> last[0].name == "manager")
    ensures var m := RouteArgs(page, keywordInput, docType, last);
      && "use_cache" !in m
      && "page" in m && m["page"] == IntToString(page) && "per_page" in m && m["per_page"] == "12"
      && SearchRoute.Arg(m, "keyword", "") == JsTrim(keywordInput)
      && SearchRoute.Arg(m, "doc_type", "press") == (if SendsDocType(docType) then docType else "press")
      && SearchRoute.Arg(m, "manager", "") == if last == [] then "" else last[0].value
  {
    assert JsTrim(keywordInput) == "" ==> !SendsKeyword(keywordInput);
  }

  /** The route's reading of arguments with no `use_cache`. */
  lemma RouteReads(m: map<string, string>, toInt: string -> Option<int>, page: int, keyword: string, docType: string, manager: string)
    requires "use_cache" !in m
    requires "page" in m && toInt(m["page"]) == Some(page)
    requires "per_page" in m && toInt(m["per_page"]) == Some(PER_PAGE)
    requires SearchRoute.Arg(m, "keyword", "") == keyword && SearchRoute.Arg(m, "doc_type", "press") == docType && SearchRoute.Arg(m, "manager", "") == manager
    ensures SearchRoute.ParseRequest(m, toInt) == SearchRoute.SearchRequest(SearchRoute.SearchQuery(keyword, page, PER_PAGE, docType, manager), true)
  {
  }

  // ------------------------------------------------------------ the reply

  /** What the page shows: the result cards with their pager (`None` when the total
      count is not an integer), the no-results message, or the error message (`None`
      when the text comes from the JavaScript engine). */
  datatype SearchView =
    | Results(items: seq<Json>, pager: Option<Pager>, totalCount: Json)
    | NoResults
    | ErrorShown(message: Option<string>)

  /** The HTTP reply as the page sees it. */
  datatype Reply = Reply(ok: bool, status: int, body: string)

  /** `Math.ceil(n / d)` for an integer count. */
  function CeilDiv(n: int, d: int): (q: int)
    requires d > 0
    ensures d * (q - 1) < n <= d * q
  {
    -((-n) / d)
  }

  /** The branching shared by both copies of `fetchTemplates`: a failed reply or an
      unreadable body shows an error; a non-empty item list is rendered (a `null` card
      makes rendering throw) with pages of twelve; a non-empty string or an object with
      a positive `length` passes the length test but has no `forEach`, so rendering
      throws; anything else shows no results. */
  function ShowReply(page: int, reply: Reply, parse: string -> Option<Json>): (v: SearchView)
    ensures !reply.ok ==> v == ErrorShown(Some("API 요청 실패: " + IntToString(reply.status)))
    ensures reply.ok && parse(reply.body).None? ==> v == ErrorShown(None)
    ensures v.Results? ==>
      && reply.ok && parse(reply.body).Some?
      && var data := parse(reply.body).value;
      && data.JObj? && "items" in data.fields && data.fields["items"] == JArr(v.items)
      && v.items != [] && JNull !in v.items
    ensures v.Results? && v.totalCount.JInt? ==> v.pager == Some(UpdatePagination(page, CeilDiv(v.totalCount.i, PER_PAGE)))
    ensures (&& reply.ok && parse(reply.body).Some? && parse(reply.body).value.JObj?
             && "items" in parse(reply.body).value.fields && parse(reply.body).value.fields["items"] == JArr([]))
      ==> v == NoResults
    ensures (&& reply.ok && parse(reply.body).Some? && parse(reply.body).value.JObj?
             && "items" in parse(reply.body).value.fields && parse(reply.body).value.fields["items"].JArr?
             && parse(reply.body).value.fields["items"].elems != [] && JNull !in parse(reply.body).value.fields["items"].elems)
      ==> v.Results? && v.items == parse(reply.body).value.fields["items"].elems
    ensures (&& reply.ok && parse(reply.body).Some? && parse(reply.body).value.JObj?
             && "items" in parse(reply.body).value.fields && parse(reply.body).value.fields["items"].JObj?
             && var f := parse(reply.body).value.fields["items"].fields; "length" in f && JsPositive(f["length"]))
      ==> v == ErrorShown(None)
  {
    if !reply.ok then ErrorShown(Some("API 요청 실패: " + IntToString(reply.status)))
    else
      match parse(reply.body)
      case None => ErrorShown(None)
      case Some(data) =>
        if data.JNull? then ErrorShown(None)
        else if !data.JObj? || "items" !in data.fields then NoResults
        else
          var items := data.fields["items"];
          if !JsTruthy(items) then NoResults
          else match items
            case JArr(cards) =>
              if cards == [] then NoResults
              else if JNull in cards then ErrorShown(None)
              else
                var total := if "totalCount" in data.fields then data.fields["totalCount"] else JNull;
                var pager := if total.JInt? then Some(UpdatePagination(page, CeilDiv(total.i, PER_PAGE))) else None;
                Results(cards, pager, total)
            case JStr(_) => ErrorShown(None)
            case JObj(f) => if "length" in f && JsPositive(f["length"]) then ErrorShown(None) else NoResults
            case _ => NoResults
  }

  /** JavaScript's `v > 0` for the values whose numeric reading needs no text parsing:
      numbers, booleans and `null`; a string, an array or an object counts as not
      positive here. */
  predicate JsPositive(v: Json) {
    match v
    case JInt(i) => i > 0
    case JFloat(f) => f > 0.0
    case JBool(b) => b
    case _ => false
  }

  /** Twelve cards per page cover the reported total: the last page starts at or before
      the last result and ends at or after it. */
  lemma PagesCoverTotal(totalCount: nat)
    requires totalCount > 0
    ensures var pages := CeilDiv(totalCount, PER_PAGE);
      pages >= 1 && (pages - 1) * PER_PAGE < totalCount <= pages * PER_PAGE
  {
  }
}

=== FILE: search_route.dfy ===
/** The `/search` route: request defaults, the cache fingerprint, and the search cache
    that is read and written only when `use_cache` is set and never stores an error.
    The cache is a sequence of entries in insertion order, as a Python dict iterates;
    the search client is the oracle `fetch`. */
module SearchRoute {
  import opened Wrappers
  import opened Text
  import opened GovernmentApi

  /** The arguments the route reads, after defaults and integer conversion. */
  datatype SearchQuery = SearchQuery(keyword: string, page: int, perPage: int, docType: string, manager: string)

  datatype SearchRequest = SearchRequest(query: SearchQuery, useCache: bool)

  /** `request.args.get(name, default)`. */
  function Arg(args: map<string, string>, name: string, default: string): (r: string)
    ensures name in args ==> r == args[name]
    ensures name !in args ==> r == default
  {
    if name in args then args[name] else default
  }

  /** `request.args.get(name, default, type=int)`: a value that does not convert gives
      the default; `toInt` is Python's `int()` on a string. */
  function IntArg(args: map<string, string>, name: string, default: int, toInt: string -> Option<int>): (r: int)
    ensures name !in args || toInt(args[name]).None? ==> r == default
    ensures name in args && toInt(args[name]).Some? ==> r == toInt(args[name]).value
  {
    if name in args && toInt(args[name]).Some? then toInt(args[name]).value else default
  }

  /** The route's reading of its query string. */
  function ParseRequest(args: map<string, string>, toInt: string -> Option<int>): (r: SearchRequest)
    ensures "keyword" !in args ==> r.query.keyword == ""
    ensures "page" !in args ==> r.query.page == 1
    ensures "per_page" !in args ==> r.query.perPage == 10
    ensures "doc_type" !in args ==> r.query.docType == "press"
    ensures "manager" !in args ==> r.query.manager == ""
    ensures "use_cache" !in args ==> r.useCache
    ensures r.useCache <==> LowerAscii(Arg(args, "use_cache", "true")) == "true"
  {
    var q := SearchQuery(
      Arg(args, "keyword", ""),
      IntArg(args, "page", 1, toInt),
      IntArg(args, "per_page", 10, toInt),
      Arg(args, "doc_type", "press"),
      Arg(args, "manager", ""));
    assert LowerAscii("true") == "true";
    SearchRequest(q, LowerAscii(Arg(args, "use_cache", "true")) == "true")
  }

  /** The cache fingerprint `keyword:page:per_page:doc_type:manager`. */
  function CacheKey(q: SearchQuery): (k: string)
    ensures k == q.keyword + ":" + IntToString(q.page) + ":" + IntToString(q.perPage) + ":" + q.docType + ":" + q.manager
    ensures k[..|q.keyword|] == q.keyword && k[|q.keyword|] == ':'
  {
    var k := q.keyword + ":" + IntToString(q.page) + ":" + IntToString(q.perPage) + ":" + q.docType + ":" + q.manager;
    assert k == q.keyword + (":" + IntToString(q.page) + ":" + IntToString(q.perPage) + ":" + q.docType + ":" + q.manager);
    k
  }

  datatype Entry = Entry(key: string, result: SearchResult)

  function Keys(cache: seq<Entry>): (ks: seq<string>)
    ensures |ks| == |cache| && forall i :: 0 <= i < |cache| ==> ks[i] == cache[i].key
  {
    seq(|cache|, i requires 0 <= i < |cache| => cache[i].key)
  }

  /** `template_cache[key]` when present. */
  function Find(cache: seq<Entry>, key: string): (r: Option<SearchResult>)
    ensures r.Some? <==> key in Keys(cache)
    ensures r.Some? ==> exists i :: 0 <= i < |cache| && cache[i] == Entry(key, r.value)
    decreases |cache|
  {
    if cache == [] then None
    else if cache[0].key == key then Some(cache[0].result)
    else
      var r := Find(cache[1..], key);
      assert Keys(cache) == [cache[0].key] + Keys(cache[1..]);
      if r.Some? then
        var i :| 0 <= i < |cache| - 1 && cache[1..][i] == Entry(key, r.value);
        assert cache[i + 1] == Entry(key, r.value);
        r
      else r
  }

  /** No key is stored twice. */
  predicate DistinctKeys(cache: seq<Entry>) {
    forall i, j :: 0 <= i < j < |cache| ==> cache[i].key != cache[j].key
  }

  /** Only successful results are stored. */
  predicate AllSuccessful(cache: seq<Entry>) {
    forall i :: 0 <= i < |cache| ==> cache[i].result.Found?
  }

  /** One request's effect: what the route returns, the cache afterwards, and whether
      the search client was called. */
  datatype SearchStep = SearchStep(response: SearchResult, cache: seq<Entry>, fetched: bool)

  /** `search_templates()`. */
  function SearchTemplates(cache: seq<Entry>, req: SearchRequest, fetch: SearchQuery -> SearchResult): (s: SearchStep)
    ensures var key := CacheKey(req.query);
      req.useCache && Find(cache, key).Some? ==> s == SearchStep(Find(cache, key).value, cache, false)
    ensures var key := CacheKey(req.query);
      !(req.useCache && Find(cache, key).Some?) ==> s.fetched && s.response == fetch(req.query)
    ensures !req.useCache || s.response.Failed? ==> s.cache == cache
    ensures s.cache == cache || (s.cache == cache + [Entry(CacheKey(req.query), s.response)] && req.useCache && s.response.Found?)
    ensures s.cache != cache ==> CacheKey(req.query) !in Keys(cache)
    ensures cache <= s.cache
  {
    var key := CacheKey(req.query);
    if req.useCache && Find(cache, key).Some? then SearchStep(Find(cache, key).value, cache, false)
    else
      var result := fetch(req.query);
      if result.Found? && req.useCache then SearchStep(result, cache + [Entry(key, result)], true)
      else SearchStep(result, cache, true)
  }

  /** Each request keeps the cache free of duplicate keys and of error results. */
  lemma SearchPreservesInvariants(cache: seq<Entry>, req: SearchRequest, fetch: SearchQuery -> SearchResult)
    requires DistinctKeys(cache) && AllSuccessful(cache)
    ensures var s := SearchTemplates(cache, req, fetch);
      DistinctKeys(s.cache) && AllSuccessful(s.cache)
  {
    var s := SearchTemplates(cache, req, fetch);
    if s.cache != cache {
      var key := CacheKey(req.query);
      forall i | 0 <= i < |cache|
        ensures cache[i].key != key
      {
        assert Keys(cache)[i] == cache[i].key;
      }
    }
  }

  /** A stored result is served again for the same query without calling the client. */
  lemma RepeatedQueryHitsCache(cache: seq<Entry>, req: SearchRequest, fetch: SearchQuery -> SearchResult, fetch2: SearchQuery -> SearchResult)
    requires req.useCache
    requires SearchTemplates(cache, req, fetch).cache != cache
    ensures var first := SearchTemplates(cache, req, fetch);
      SearchTemplates(first.cache, req, fetch2) == SearchStep(first.response, first.cache, false)
  {
    var first := SearchTemplates(cache, req, fetch);
    var key := CacheKey(req.query);
    FindAppended(cache, key, first.response);
  }

  lemma {:induction false} FindAppended(cache: seq<Entry>, key: string, result: SearchResult)
    requires key !in Keys(cache)
    ensures Find(cache + [Entry(key, result)], key) == Some(result)
    decreases |cache|
  {
    var c := cache + [Entry(key, result)];
    if cache != [] {
      assert cache[0].key == Keys(cache)[0];
      assert c[1..] == cache[1..] + [Entry(key, result)];
      assert Keys(cache) == [cache[0].key] + Keys(cache[1..]);
      FindAppended(cache[1..], key, result);
    }
  }

  /** The cache after a sequence of requests, the `k`-th served by `fetches[k]`. */
  function RunSearches(cache: seq<Entry>, reqs: seq<SearchRequest>, fetches: seq<SearchQuery -> SearchResult>): (c: seq<Entry>)
    requires |fetches| == |reqs|
    ensures cache <= c
    decreases |reqs|
  {
    if reqs == [] then cache
    else RunSearches(SearchTemplates(cache, reqs[0], fetches[0]).cache, reqs[1..], fetches[1..])
  }

  /** Starting from the empty cache, any sequence of requests leaves a cache whose keys
      are distinct and whose results are all successful: `get_template_cache` never hands
      an error result to the draft route. */
  lemma {:induction false} RunSearchesInvariant(cache: seq<Entry>, reqs: seq<SearchRequest>, fetches: seq<SearchQuery -> SearchResult>)
    requires |fetches| == |reqs|
    requires DistinctKeys(cache) && AllSuccessful(cache)
    ensures var c := RunSearches(cache, reqs, fetches);
      DistinctKeys(c) && AllSuccessful(c)
    decreases |reqs|
  {
    if reqs != [] {
      SearchPreservesInvariants(cache, reqs[0], fetches[0]);
      RunSearchesInvariant(SearchTemplates(cache, reqs[0], fetches[0]).cache, reqs[1..], fetches[1..]);
    }
  }
}

=== FILE: selection.dfy ===
/** The list of chosen templates kept by the search page (`selectedTemplates`): at most
    five entries, no two with the same id, added at the end and removed by id. A template
    is a JavaScript object, modelled as its fields; a missing `id` reads as `undefined`,
    which is `None` here. */
module Selection {
  import opened Wrappers
  import opened JsonModel

  const MAX_SELECTED: int := 5

  /** A template as the page holds it: an object's fields. */
  type Template = map<string, Json>

  /** `template.id`. */
  function IdOf(t: Template): Option<Json> {
    if "id" in t then Some(t["id"]) else None
  }

  function Ids(sel: seq<Template>): (ids: seq<Option<Json>>)
    ensures |ids| == |sel| && forall k :: 0 <= k < |sel| ==> ids[k] == IdOf(sel[k])
  {
    seq(|sel|, k requires 0 <= k < |sel| => IdOf(sel[k]))
  }

  /** No two entries share an id. */
  predicate DistinctIds(sel: seq<Template>) {
    forall j, k :: 0 <= j < k < |sel| ==> IdOf(sel[j]) != IdOf(sel[k])
  }

  /** The state every handler keeps. */
  predicate Valid(sel: seq<Template>) {
    |sel| <= MAX_SELECTED && DistinctIds(sel)
  }

  /** A selection after a handler, and whether it raised the limit alert. */
  datatype Outcome = Outcome(selection: seq<Template>, alerted: bool)

  /** `addSelectedTemplate`: an id already present changes nothing; a full list raises
      the alert and changes nothing; otherwise a copy goes at the end. */
  function Add(sel: seq<Template>, t: Template): (o: Outcome)
    ensures IdOf(t) in Ids(sel) ==> o == Outcome(sel, false)
    ensures IdOf(t) !in Ids(sel) && |sel| >= MAX_SELECTED ==> o == Outcome(sel, true)
    ensures IdOf(t) !in Ids(sel) && |sel| < MAX_SELECTED ==> o == Outcome(sel + [t], false)
    ensures IdOf(t) in Ids(o.selection)
      || (o.alerted && o.selection == sel)
  {
    if IdOf(t) in Ids(sel) then Outcome(sel, false)
    else if |sel| >= MAX_SELECTED then Outcome(sel, true)
    else
      assert Ids(sel + [t]) == Ids(sel) + [IdOf(t)];
      Outcome(sel + [t], false)
  }

  /** `removeSelectedTemplate`: keeps, in order, every entry whose id differs. */
  function Remove(sel: seq<Template>, id: Option<Json>): (r: seq<Template>)
    ensures |r| <= |sel|
    ensures id !in Ids(r)
    ensures forall t :: t in r <==> t in sel && IdOf(t) != id
    decreases |sel|
  {
    if sel == [] then []
    else
      var rest := Remove(sel[1..], id);
      assert forall t :: t in sel <==> t == sel[0] || t in sel[1..];
      if IdOf(sel[0]) != id then
        assert Ids([sel[0]] + rest) == [IdOf(sel[0])] + Ids(rest);
        [sel[0]] + rest
      else rest
  }

  /** The checkbox handler: ticking while five are chosen unticks the box and alerts;
      ticking otherwise adds; unticking removes by the card's id. */
  function CheckboxChange(sel: seq<Template>, t: Template, checked: bool): (o: Outcome)
    ensures checked && |sel| >= MAX_SELECTED ==> o == Outcome(sel, true)
    ensures checked && |sel| < MAX_SELECTED ==> o == Add(sel, t)
    ensures !checked ==> o == Outcome(Remove(sel, IdOf(t)), false)
  {
    if checked then
      if |sel| >= MAX_SELECTED then Outcome(sel, true) else Add(sel, t)
    else Outcome(Remove(sel, IdOf(t)), false)
  }

  /** Ticking a box never raises the alert inside the add itself: the checkbox guard has
      already turned a full list away. */
  lemma CheckboxGuardsAdd(sel: seq<Template>, t: Template)
    requires |sel| < MAX_SELECTED
    ensures !CheckboxChange(sel, t, true).alerted
  {
  }

  /** Removal keeps the surviving entries in their original order: it distributes over
      concatenation. */
  lemma {:induction false} RemoveAppend(a: seq<Template>, b: seq<Template>, id: Option<Json>)
    ensures Remove(a + b, id) == Remove(a, id) + Remove(b, id)
    decreases |a|
  {
    if a == [] {
      assert a + b == b;
    } else {
      assert (a + b)[0] == a[0] && (a + b)[1..] == a[1..] + b;
      RemoveAppend(a[1..], b, id);
    }
  }

  /** Removing an id that is not selected changes nothing. */
  lemma {:induction false} RemoveAbsent(sel: seq<Template>, id: Option<Json>)
    requires id !in Ids(sel)
    ensures Remove(sel, id) == sel
    decreases |sel|
  {
    if sel != [] {
      assert Ids(sel) == [IdOf(sel[0])] + Ids(sel[1..]);
      RemoveAbsent(sel[1..], id);
    }
  }

  /** Removal is a sub-sequence, so it keeps both the size bound and distinct ids. */
  lemma {:induction false} RemoveKeepsDistinct(sel: seq<Template>, id: Option<Json>)
    requires DistinctIds(sel)
    ensures DistinctIds(Remove(sel, id))
    decreases |sel|
  {
    if sel != [] {
      DistinctTail(sel);
      RemoveKeepsDistinct(sel[1..], id);
      var rest := Remove(sel[1..], id);
      if IdOf(sel[0]) != id {
        HeadIdUnique(sel);
        assert forall t :: t in rest ==> t in sel[1..];
        DistinctCons(sel[0], rest);
      }
    }
  }

  lemma DistinctTail(sel: seq<Template>)
    requires sel != [] && DistinctIds(sel)
    ensures DistinctIds(sel[1..])
  {
    forall j, k | 0 <= j < k < |sel[1..]|
      ensures IdOf(sel[1..][j]) != IdOf(sel[1..][k])
    {
      assert sel[1..][j] == sel[j + 1] && sel[1..][k] == sel[k + 1];
    }
  }

  lemma HeadIdUnique(sel: seq<Template>)
    requires sel != [] && DistinctIds(sel)
    ensures forall t :: t in sel[1..] ==> IdOf(t) != IdOf(sel[0])
  {
    forall t | t in sel[1..] ensures IdOf(t) != IdOf(sel[0]) {
      var i :| 0 <= i < |sel[1..]| && sel[1..][i] == t;
      assert sel[i + 1] == t;
    }
  }

  lemma DistinctCons(x: Template, rest: seq<Template>)
    requires DistinctIds(rest)
    requires forall t :: t in rest ==> IdOf(t) != IdOf(x)
    ensures DistinctIds([x] + rest)
  {
    var r := [x] + rest;
    forall j, k | 0 <= j < k < |r|
      ensures IdOf(r[j]) != IdOf(r[k])
    {
      assert r[k] == rest[k - 1];
      if j > 0 {
        assert r[j] == rest[j - 1];
      }
    }
  }

  /** Every handler keeps the selection at most five long with distinct ids. */
  lemma HandlersPreserveValid(sel: seq<Template>, t: Template, checked: bool)
    requires Valid(sel)
    ensures Valid(Add(sel, t).selection)
    ensures Valid(Remove(sel, IdOf(t)))
    ensures Valid(CheckboxChange(sel, t, checked).selection)
  {
    RemoveKeepsDistinct(sel, IdOf(t));
    var a := Add(sel, t).selection;
    if a != sel {
      forall j, k | 0 <= j < k < |a|
        ensures IdOf(a[j]) != IdOf(a[k])
      {
        if k == |sel| {
          assert Ids(sel)[j] == IdOf(a[j]);
        }
      }
    }
  }

  /** Adding a new template and then unticking it gives back the selection it started
      from. */
  lemma AddThenRemove(sel: seq<Template>, t: Template)
    requires IdOf(t) !in Ids(sel) && |sel| < MAX_SELECTED
    ensures Remove(Add(sel, t).selection, IdOf(t)) == sel
  {
    RemoveAppend(sel, [t], IdOf(t));
    RemoveAbsent(sel, IdOf(t));
    assert Remove([t], IdOf(t)) == [] by { assert [t][1..] == []; }
  }

  /** Adding the same template twice is the same as adding it once. */
  lemma AddIdempotent(sel: seq<Template>, t: Template)
    ensures Add(Add(sel, t).selection, t).selection == Add(sel, t).selection
  {
  }

  /** `clearSelectionsBtn`: the selection becomes empty, which is valid. */
  function Clear(sel: seq<Template>): (r: seq<Template>)
    ensures r == [] && Valid(r)
  {
    []
  }
}

=== FILE: text.dfy ===
/** String helpers shared by the Python back end and the browser scripts.
    Python and JavaScript disagree on what counts as whitespace, so both sets are defined. */
module Text {
  import opened Wrappers

  /** Characters for which Python's `str.isspace()` holds; also what `\s` and `str.strip()` use. */
  predicate IsPySpace(c: char) {
    c == ' ' || c == '\t' || c == '\n' || c == '\r' || c == '\U{B}' || c == '\U{C}'
    || ('\U{1C}' <= c <= '\U{1F}') || c == '\U{85}' || c == '\U{A0}' || c == '\U{1680}'
    || ('\U{2000}' <= c <= '\U{200A}') || c == '\U{2028}' || c == '\U{2029}'
    || c == '\U{202F}' || c == '\U{205F}' || c == '\U{3000}'
  }

  /** Characters removed by JavaScript's `String.prototype.trim` (WhiteSpace and LineTerminator). */
  predicate IsJsSpace(c: char) {
    c == ' ' || c == '\t' || c == '\n' || c == '\r' || c == '\U{B}' || c == '\U{C}'
    || c == '\U{A0}' || c == '\U{FEFF}' || c == '\U{1680}' || ('\U{2000}' <= c <= '\U{200A}')
    || c == '\U{2028}' || c == '\U{2029}' || c == '\U{202F}' || c == '\U{205F}' || c == '\U{3000}'
  }

  predicate AllSpace(s: string, sp: char -> bool) {
    forall i :: 0 <= i < |s| ==> sp(s[i])
  }

  /** Drops leading characters satisfying `sp`. */
  function TrimLeft(s: string, sp: char -> bool): (r: string)
    ensures |r| <= |s| && r == s[|s| - |r|..]
    ensures r != [] ==> !sp(r[0])
    ensures AllSpace(s[..|s| - |r|], sp)
    decreases |s|
  {
    if s == [] || !sp(s[0]) then s else TrimLeft(s[1..], sp)
  }

  /** Drops trailing characters satisfying `sp`. */
  function TrimRight(s: string, sp: char -> bool): (r: string)
    ensures |r| <= |s| && r == s[..|r|]
    ensures r != [] ==> !sp(r[|r| - 1])
    ensures AllSpace(s[|r|..], sp)
    decreases |s|
  {
    if s == [] || !sp(s[|s| - 1]) then s else TrimRight(s[..|s| - 1], sp)
  }

  /** Drops leading and trailing characters satisfying `sp`. */
  function Strip(s: string, sp: char -> bool): (r: string)
    ensures |r| <= |s|
    ensures r != [] ==> !sp(r[0]) && !sp(r[|r| - 1])
    ensures r == [] <==> AllSpace(s, sp)
    ensures s == [] || (!sp(s[0]) && !sp(s[|s| - 1])) ==> r == s
  {
    var t := TrimLeft(s, sp);
    var r := TrimRight(t, sp);
    assert r != [] ==> r[0] == t[0];
    assert r == [] ==> AllSpace(s, sp) by {
      if r == [] {
        assert t == [];
        assert s[..|s| - |t|] == s;
      }
    }
    r
  }

  /** Stripping keeps a slice of its argument with only `sp` characters around it. */
  lemma StripAsSlice(s: string, sp: char -> bool) returns (a: nat)
    ensures a + |Strip(s, sp)| <= |s| && Strip(s, sp) == s[a..a + |Strip(s, sp)|]
    ensures AllSpace(s[..a], sp) && AllSpace(s[a + |Strip(s, sp)|..], sp)
  {
    var t := TrimLeft(s, sp);
    var r := TrimRight(t, sp);
    a := |s| - |t|;
    var n := |r|;
    assert r == s[a..a + n] by {
      SliceOfSuffix(s, a, n);
    }
    assert AllSpace(s[a + n..], sp) by {
      SliceOfSuffix(s, a, n);
      assert AllSpace(t[n..], sp);
    }
    assert Strip(s, sp) == r;
  }

  lemma SliceOfSuffix<T>(s: seq<T>, a: nat, n: nat)
    requires a + n <= |s|
    ensures s[a..][..n] == s[a..a + n] && s[a..][n..] == s[a + n..]
  {
  }

  /** Python's `str.strip()` with no argument. */
  function PyStrip(s: string): string {
    Strip(s, IsPySpace)
  }

  /** JavaScript's `String.prototype.trim()`. */
  function JsTrim(s: string): string {
    Strip(s, IsJsSpace)
  }

  /** `pat` occurs in `s` starting at index `i`. */
  predicate At(s: string, pat: string, i: int) {
    0 <= i && i + |pat| <= |s| && s[i..i + |pat|] == pat
  }

  /** Index of the first occurrence of `pat` at or after `from` (Python `str.find`). */
  function FindFrom(s: string, pat: string, from: nat): (r: Option<nat>)
    ensures r.Some? ==> from <= r.value && At(s, pat, r.value)
    ensures r.Some? ==> forall j :: from <= j < r.value ==> !At(s, pat, j)
    ensures r.None? ==> forall j :: from <= j ==> !At(s, pat, j)
    decreases |s| - from
  {
    if from + |pat| > |s| then None
    else if At(s, pat, from) then Some(from)
    else FindFrom(s, pat, from + 1)
  }

  /** Substring test (Python's `pat in s`, JavaScript's `s.includes(pat)`). */
  predicate Contains(s: string, pat: string) {
    FindFrom(s, pat, 0).Some?
  }

  lemma ContainsAt(s: string, pat: string, i: int)
    requires At(s, pat, i)
    ensures Contains(s, pat)
  {
  }

  /** `FindFrom` returns exactly the first occurrence at or after `from`. */
  lemma FindFromIs(s: string, pat: string, from: nat, k: nat)
    requires from <= k && At(s, pat, k)
    requires forall j :: from <= j < k ==> !At(s, pat, j)
    ensures FindFrom(s, pat, from) == Some(k)
  {
  }

  /** A one-character pattern occurs only where that character does. */
  lemma ContainsChar(s: string, c: char)
    ensures Contains(s, [c]) ==> c in s
  {
    var r := FindFrom(s, [c], 0);
    if r.Some? {
      assert s[r.value..r.value + 1][0] == s[r.value];
    }
  }

  function Join(sep: string, parts: seq<string>): string {
    if |parts| == 0 then ""
    else if |parts| == 1 then parts[0]
    else parts[0] + sep + Join(sep, parts[1..])
  }

  /** Splits at every occurrence of `c` (Python `s.split(c)`, JavaScript `s.split(c)`). */
  function SplitOn(s: string, c: char): (r: seq<string>)
    ensures |r| >= 1
    ensures Join([c], r) == s
    ensures forall i :: 0 <= i < |r| ==> c !in r[i]
    decreases |s|
  {
    if s == [] then [""]
    else
      var rest := SplitOn(s[1..], c);
      if s[0] == c then
        assert Join([c], [""] + rest) == "" + [c] + Join([c], rest);
        [""] + rest
      else
        var r := [[s[0]] + rest[0]] + rest[1..];
        assert Join([c], r) == [s[0]] + Join([c], rest) by {
          if |rest| > 1 {
            assert r[1..] == rest[1..];
          }
        }
        r
  }

  /** Lower-cases the ASCII letters and keeps every other character. */
  function LowerAscii(s: string): (r: string)
    ensures |r| == |s|
  {
    seq(|s|, i requires 0 <= i < |s| => if 'A' <= s[i] <= 'Z' then (s[i] as int + 32) as char else s[i])
  }

  function Digit(d: nat): char
    requires d < 10
  {
    "0123456789"[d]
  }

  function NatToString(n: nat): (r: string)
    ensures |r| >= 1
  {
    if n < 10 then [Digit(n)] else NatToString(n / 10) + [Digit(n % 10)]
  }

  /** Decimal rendering of an integer (Python `str(n)`, JavaScript `String(n)`). */
  function IntToString(n: int): string {
    if n < 0 then "-" + NatToString(-n) else NatToString(n)
  }
}

=== FILE: token_utils.dfy ===
/** Token counts and their price. The tokenizer is the oracle `count(model, text)`,
    `None` when it raises (an unknown model, or a value that is not text). Costs are
    exact reals; the source rounds them for display only. */
module TokenUtils {
  import opened Wrappers

  /** USD per 1000 tokens. */
  datatype Price = Price(input: real, output: real)

  const DEFAULT_MODEL: string := "gpt-4o-mini"

  /** `get_model_prices`. */
  const ModelPrices: map<string, Price> := map[
    "gpt-4o-mini" := Price(0.15, 0.6),
    "gpt-4o" := Price(5.0, 15.0)]

  /** The model whose prices apply: the requested one when priced, else the default. */
  function PricedModel(model: string): (m: string)
    ensures m in ModelPrices
    ensures model in ModelPrices ==> m == model
    ensures model !in ModelPrices ==> m == "gpt-4o-mini"
  {
    if model in ModelPrices then model else DEFAULT_MODEL
  }

  /** The dictionary `calculate_token_cost` returns: the priced counts, or the error
      dictionary whose counts and costs are all zero. */
  datatype TokenInfo =
    | Priced(inputTokens: nat, outputTokens: nat, totalTokens: nat, costUsd: real, costKrw: real, model: string)
    | CostError(model: string)
  {
    function TotalTokens(): nat {
      if Priced? then totalTokens else 0
    }

    function CostKrw(): real {
      if Priced? then costKrw else 0.0
    }
  }

  function UsdCost(p: Price, inputTokens: nat, outputTokens: nat): real {
    (inputTokens as real / 1000.0) * p.input + (outputTokens as real / 1000.0) * p.output
  }

  /** `calculate_token_cost(input_text, output_text, model)` at exchange rate `rate`. */
  function CalculateTokenCost(inputText: string, outputText: string, model: string,
                              count: (string, string) -> Option<nat>, rate: real): (info: TokenInfo)
    ensures info.CostError? <==> count(model, inputText).None? || count(model, outputText).None?
    ensures info.CostError? ==> info.model == model
    ensures info.Priced? ==>
      && info.inputTokens == count(model, inputText).value
      && info.outputTokens == count(model, outputText).value
      && info.totalTokens == info.inputTokens + info.outputTokens
      && info.model == PricedModel(model)
    ensures info.Priced? ==>
      var p := ModelPrices[info.model];
      && info.costUsd == (info.inputTokens as real / 1000.0) * p.input + (info.outputTokens as real / 1000.0) * p.output
      && info.costKrw == info.costUsd * rate
    ensures info.Priced? && rate >= 0.0 ==> info.costUsd >= 0.0 && info.costKrw >= 0.0
  {
    match count(model, inputText)
    case None => CostError(model)
    case Some(inputTokens) =>
      match count(model, outputText)
      case None => CostError(model)
      case Some(outputTokens) =>
        var priced := PricedModel(model);
        var usd := UsdCost(ModelPrices[priced], inputTokens, outputTokens);
        Priced(inputTokens, outputTokens, inputTokens + outputTokens, usd, usd * rate, priced)
  }

  /** More tokens never cost less, for every priced model. */
  lemma CostMonotone(p: Price, in1: nat, out1: nat, in2: nat, out2: nat)
    requires p in ModelPrices.Values
    requires in1 <= in2 && out1 <= out2
    ensures UsdCost(p, in1, out1) <= UsdCost(p, in2, out2)
  {
    assert p == Price(0.15, 0.6) || p == Price(5.0, 15.0);
  }

  /** The larger model is dearer per token in both directions. */
  lemma LargerModelCostsMore(inputTokens: nat, outputTokens: nat)
    ensures UsdCost(ModelPrices["gpt-4o-mini"], inputTokens, outputTokens) <= UsdCost(ModelPrices["gpt-4o"], inputTokens, outputTokens)
    ensures inputTokens + outputTokens > 0 ==>
      UsdCost(ModelPrices["gpt-4o-mini"], inputTokens, outputTokens) < UsdCost(ModelPrices["gpt-4o"], inputTokens, outputTokens)
  {
  }

  /** An unpriced model is charged exactly as the default model. */
  lemma UnknownModelChargedAsDefault(inputText: string, outputText: string, model: string,
                                     count: (string, string) -> Option<nat>, rate: real)
    requires model !in ModelPrices
    requires count(model, inputText).Some? && count(model, outputText).Some?
    requires count(model, inputText) == count(DEFAULT_MODEL, inputText)
    requires count(model, outputText) == count(DEFAULT_MODEL, outputText)
    ensures CalculateTokenCost(inputText, outputText, model, count, rate)
         == CalculateTokenCost(inputText, outputText, DEFAULT_MODEL, count, rate)
  {
  }
}

=== FILE: wrappers.dfy ===
/** Failure-compatible Option and Result datatypes used throughout the model. */
module Wrappers {

  /** A value that may be absent (Python's `None`, a missing key, a failed parse). */
  datatype Option<+T> = None | Some(value: T) {
    predicate IsFailure() {
      None?
    }

    function PropagateFailure<U>(): Option<U>
      requires None?
    {
      None
    }

    function Extract(): T
      requires Some?
    {
      value
    }

    function GetOr(default: T): T {
      match this
      case Some(v) => v
      case None => default
    }
  }

  /** A computation that either succeeds or raises; used for the source's exceptions. */
  datatype Result<+R, +E> = Success(value: R) | Failure(error: E) {
    predicate IsFailure() {
      Failure?
    }

    function PropagateFailure<U>(): Result<U, E>
      requires Failure?
    {
      Failure(error)
    }

    function Extract(): R
      requires Success?
    {
      value
    }
  }
}
